=== FILE: README.md ===
# Basalam shopping agent: a Dafny model of its deterministic core

The agent answers shopping questions about the Basalam marketplace. It searches
the marketplace, expands a query into related components, crawls product
pages, stores products in a local SQLite catalog and shows the results in a
chat front end. Around its network and language-model calls sits plain
sequential Python. This project models that Python as pure Dafny functions over
immutable datatypes. HTTP responses, the language model's replies, the parsed
HTML, fresh UUIDs and the clock are inputs.

Modules, one per source file:

- `Catalog` (database/product_store.py) holds the `products` table as a
  sequence of rows in rowid order. Its constraints are a primary key `id` and
  a UNIQUE `product_id`. `save_product` issues `INSERT OR REPLACE`. Under
  SQLite's REPLACE rule, a row that clashes on `product_id` is deleted and the
  new row is appended under the fresh id. The prior internal id and
  `created_at` are therefore lost, whatever the comments at :82 and :107 say.
  The `except IntegrityError` update branch cannot be reached this way. It is
  modelled separately as `UpdateBranch`, with its own properties.
- `ProductManager` (tools/product_manager.py): the store tools. Each one wraps
  a catalog call, turns an exception into an error value, and
  `compare_products` lines products up.
- `ListingSearch` (tools/basalam_search.py) and `LegacySearch`
  (basalam_search.py): the two search tools. They build the query parameters,
  clean each record (Rial to Toman, product link), apply the client-side
  filters and sort stably by price.
- `Aggregator` (tools/eco_search_manager.py): multi-query search. The record
  key used for deduplication is a parameter, so both the key the code uses and
  the intended one can be modelled.
- `Expander` (tools/eco_search.py): the line-by-line parser of the
  expander's reply.
- `Crawler` (tools/product_crawler.py): how selector results become the crawl
  record, and the batch crawl.
- `ProductUrls` (tools/product_utils.py), `Summary`
  (tools/product_summary_tool.py), `Intent` (tools/intent_detector.py).
- `ChatDisplay` (app.py): the image-URL check, the product-block parser and
  the stored-products notice.
- `Chat` (chat.py): storing search results together with their crawl, the
  report of the stored ids, reading ids back out of messages, and the
  comparison and review displays.
- Shared helpers:
  - `Wrappers`: Option and Result.
  - `Values`: Python dictionary values.
  - `Text`: `strip`, `in`, `replace`, `split`, `join`, `lower`, digits.
  - `Seqs`: filtering comprehensions and de-duplication.
  - `Sorting`: Python's stable `sorted` on an integer key.
  - `IdScan`: `re.findall(r'[a-f0-9-]{36}', …)`.

Behaviour of the code that a reader might expect to be otherwise:

- A crawl has only the boolean `crawled_successfully`; there is no "partial"
  status.
- A save with a known `product_id` replaces the row under a new internal id
  rather than updating it in place.
- Every search runs sequentially.
- The aggregator's deduplication compares the records' `id` key, not their
  product id (see Findings).
- The front end never shows its stored-products count for a chat search:
  the banner it looks for is not the one chat.py writes (see Findings).

## Model

| member | source | states |
|---|---|---|
| Catalog.FirstBindError | database/product_store.py:60-78 | binding succeeds exactly when every parameter is of a bindable type and every integer fits in 64 bits |
| Catalog.NewRow | database/product_store.py:47-78 | the row a save writes carries the fresh id, the search query and now as both timestamps; the image column is read from the `image` key; absent keys take their defaults; the JSON columns are never empty |
| Catalog.Save | database/product_store.py:47-80 | a save fails exactly when a parameter cannot be bound; otherwise it returns the fresh id, the new row is last under that id, and every other row was already in the table |
| Catalog.SaveRoundTrip | database/product_store.py:49-80 | reading the fresh id back after a save gives each column of the input dictionary, or its default when the key is absent (`image_url` from `image`), with created = updated = now and the given search query |
| Catalog.SaveKeepsWellFormed | database/product_store.py:21-23 | a save keeps the primary key and the UNIQUE product_id constraint, whatever the fresh id |
| Catalog.SaveReplacesExisting | database/product_store.py:49-62 | saving a product_id that is already stored deletes the old row, so its internal id is no longer found, and the only row with that product_id is the new one |
| Catalog.SaveKeepsOthers | database/product_store.py:54-59 | a row that clashes with neither the fresh id nor a non-NULL product_id survives the save |
| Catalog.MissingProductIdsCollide | database/product_store.py:55-62 | two saves without a product_id both store the default '', so the second deletes the row of the first |
| Catalog.SaveIdIsUnique | database/product_store.py:49-61 | after a save, the fresh id names only the appended row, which is the row built from the input |
| Catalog.FirstWithProductId | database/product_store.py:108-109 | the row the SELECT finds carries the product_id, and none is found only when no row carries it |
| Catalog.UpdateBranch | database/product_store.py:81-110 | the update keeps the table's length and leaves every row with another product_id unchanged |
| Catalog.UpdateKeepsIdentity | database/product_store.py:83-110 | the update branch rewrites the matching row as the row built from the input with that row's internal id, created_at and product_id kept (so updated_at is now), leaves every other row unchanged, and returns the existing id |
| Catalog.UpdateWithoutMatch | database/product_store.py:107-110 | with no matching row, the update branch changes nothing and returns the fresh id |
| Catalog.FirstMatchIsUnique | database/product_store.py:108-109 | in a table with unique product_ids, the SELECT after the update finds the updated row |
| Catalog.Delete | database/product_store.py:175-180 | delete reports true exactly when a row had the id; afterwards no row has it and every other row remains |
| Catalog.FindById | database/product_store.py:116-117 | the row fetched has the id, and none is fetched only when no row has it |
| Catalog.Decode | database/product_store.py:119-124 | a fetched row keeps every column, and an empty JSON cell reads as `{}` for the specifications and `[]` for the reviews and additional images, a non-empty one as its value |
| Catalog.DecodeAll | database/product_store.py:134-139 | one decoded product per row, in row order |
| Catalog.GetProduct | database/product_store.py:112-126 | get_product is None exactly when no row has the id; otherwise it is the first row with that id, decoded (empty JSON cells read as `{}` and `[]`) |
| Catalog.Select | database/product_store.py:132 | a query returns exactly the rows that satisfy its condition, each as often as in the table, newest first |
| Catalog.RowsBySearch | database/product_store.py:128-140 | exactly the rows with an equal search query, each as often as the table holds it, newest first |
| Catalog.GetProductsBySearch | database/product_store.py:128-140 | one decoded product per selected row, in the selection's order: the rows saved under the query, newest first, each from such a row and every such row present |
| Catalog.RecentRows | database/product_store.py:142-154 | min(limit, n) rows for a non-negative limit and every row for a negative one (SQLite's `LIMIT -1`), newest first, a sub-multiset of the table, and no row that is left out is newer than a returned one |
| Catalog.PrefixWithin | database/product_store.py:146 | the rows `LIMIT` keeps are a sub-multiset of the ordered rows |
| Catalog.RecentRowsAreNewest | database/product_store.py:146 | the first `limit` rows of the newest-first order have the size, order and recency that `LIMIT` promises |
| Catalog.PrefixOfNewest | database/product_store.py:146 | a prefix of a newest-first arrangement holds rows at least as new as every row it leaves out |
| Catalog.GetAllProducts | database/product_store.py:142-154 | one decoded product per row `LIMIT` keeps, in order: min(limit, n) of them, all for a negative limit, newest first, and no row left out is newer than one returned |
| Catalog.DecodedRecent | database/product_store.py:146-154 | decoding the kept rows keeps their order and recency: a row whose product is missing is no newer than any product returned |
| Catalog.RowsMatching | database/product_store.py:156-173 | exactly the rows whose name or description contains the query, each as often as the table holds it, newest first |
| Catalog.SearchStoredProducts | database/product_store.py:156-173 | one decoded product per selected row, in the selection's order: the rows whose name or description contains the query, newest first, each from such a row and every such row present |
| ProductManager.SaveProductDetails | tools/product_manager.py:22-26 | the success message with the new id exactly when the store was reachable and the save succeeded, otherwise the error-prefixed message with the store unchanged |
| ProductManager.SavedIsNoError | tools/product_manager.py:24-26 | a success message can never be mistaken for an error message |
| ProductManager.GetProductDetails | tools/product_manager.py:39-46 | the stored product is returned whenever a row has the id; "not found" exactly when the store is reachable and no row has the id; the error text on a store failure |
| ProductManager.SearchSavedProducts | tools/product_manager.py:59-63 | a store failure becomes a one-element error list; otherwise the catalog's matches in its newest-first order: every item is a decoded row whose name or description contains the query, and every such row appears |
| ProductManager.SavedSearchListsMatches | tools/product_manager.py:59-63 | a successful saved-product search lists decoded rows whose name or description contains the query, lists every such row, and lists them newest first |
| ProductManager.GetRecentProducts | tools/product_manager.py:66-80 | a store failure becomes a one-element error list; otherwise the catalog's newest products in its order, min(limit, n) of them, or all of them for a negative limit |
| ProductManager.Lookup | tools/product_manager.py:96-98 | one id resolves to at most one product, carrying that id |
| ProductManager.Resolve | tools/product_manager.py:94-98 | the resolved products are no more than the ids and each carries one of them |
| ProductManager.ResolveConcat | tools/product_manager.py:94-98 | resolving ids keeps their order and removes no duplicates: resolving a concatenation is the concatenation of the resolutions |
| ProductManager.ResolveOne | tools/product_manager.py:95-98 | a single id gives its product, or nothing when it is unknown |
| ProductManager.CompareProducts | tools/product_manager.py:83-115 | an empty id list is refused as too few without touching the store; otherwise a store failure gives the error text, fewer than two resolved products the too-few error, and two or more a comparison whose prices, ratings, vendors and cities align index by index with the resolved products |
| ListingSearch.ToToman | tools/basalam_search.py:51 | the Toman price is the Rial price floor-divided by 10 |
| ListingSearch.ProductLink | tools/basalam_search.py:58 | the link is the short product URL followed by the id text |
| ListingSearch.Clean | tools/basalam_search.py:49-59 | the cleaned record copies each field, converts the price and builds the link from the id |
| ListingSearch.CleanAll | tools/basalam_search.py:48-59 | one cleaned record per API product, in order |
| ListingSearch.BuildParams | tools/basalam_search.py:24-35 | each filter is sent exactly when truthy, and the price limit is sent multiplied by 10 |
| ListingSearch.SearchBasalam | tools/basalam_search.py:24-76 | a non-200 status raises the search error, and a product with a JSON-null photo, rating, vendor or owner raises the AttributeError; otherwise the result is the stable price sort of exactly the cleaned records that pass the three filters |
| ListingSearch.SortedKept | tools/basalam_search.py:61-76 | every returned record passed the filters, and every cleaned record that passes them is returned |
| ListingSearch.MaxPriceOnlyForwarded | tools/basalam_search.py:28-29 | for the same API answer the price limit does not change the result: no record is checked against it |
| ListingSearch.AboveMaxPriceReturned | tools/basalam_search.py:61-71 | a record far above the limit is returned when the API returns it |
| ListingSearch.CityFilterPermissive | tools/basalam_search.py:68-69 | a record without a city, or with the same city in another letter case, passes the city filter |
| LegacySearch.LegacyParams | basalam_search.py:22-27 | only the query and, when truthy, the unconverted price limit are sent |
| LegacySearch.LegacySearchBasalam | basalam_search.py:22-58 | a non-200 status raises, and so does a product with a JSON-null nested object; otherwise the result is the stable price sort of the cleaned records with a non-zero price |
| LegacySearch.SameFilterWithoutOptions | basalam_search.py:52-53 | the legacy price-only filter is the newer filter with no rating and no city |
| LegacySearch.AgreesWithNewerSearch | basalam_search.py:40-58 | for the same API answer, the two tools return the same list |
| LegacySearch.LimitScaled | basalam_search.py:26-27 | the newer tool sends ten times the limit the legacy tool sends |
| Aggregator.StartPool | tools/eco_search_manager.py:30-32 | the original results enter the pool unfiltered, and are counted only when non-empty |
| Aggregator.Aggregate | tools/eco_search_manager.py:15-77 | an expansion or original-search failure gives the error result; otherwise the full component list is reported, total_products is the pool size, and products is the first 20 of the price-sorted pool |
| Aggregator.PerformEcoSearch | tools/eco_search_manager.py:10-77 | with the key the code uses: a result exactly when the expansion and the original search succeed, echoing the query and the components, with at most 20 price-sorted products out of the total |
| Aggregator.PerformEcoSearchById | tools/eco_search_manager.py:10-77 | the same with duplicates recognised by product id |
| Aggregator.AddComponent | tools/eco_search_manager.py:38-50 | a component that found nothing or raised changes nothing; otherwise only records with unseen keys are appended, afterwards every key it found is pooled, its count is the number of records it appended, and other counts stay |
| Aggregator.Merge | tools/eco_search_manager.py:35-54 | the component loop only appends to the pool, so the records it started with stay first and unchanged |
| Aggregator.MergeCoversKeys | tools/eco_search_manager.py:35-50 | every key found by a contributing searched component is in the merged pool |
| Aggregator.MergeConcat | tools/eco_search_manager.py:35 | running the loop over two lists in turn equals running it over their concatenation |
| Aggregator.CountKept | tools/eco_search_manager.py:50 | a component's count is left alone by components with other names |
| Aggregator.ComponentCountIsAdded | tools/eco_search_manager.py:44-50 | a contributing component not repeated later ends with the count of records its own iteration appended |
| Aggregator.KeysGrow | tools/eco_search_manager.py:46 | the set of keys already seen only grows |
| Aggregator.MergedRecordsAreFresh | tools/eco_search_manager.py:44-50 | every record a component adds comes from a contributing component and has a key the pool did not have |
| Aggregator.MergeKeepsKeysUnique | tools/eco_search_manager.py:44-50 | if the pool and each search hold no repeated key, the merged pool holds none |
| Aggregator.AddKeepsKeysUnique | tools/eco_search_manager.py:45-49 | one iteration keeps a pool without repeated keys free of them, given a search result without repeated keys |
| Aggregator.ConstantKeyStopsGrowth | tools/eco_search_manager.py:46-47 | with one key for every record, nothing joins a non-empty pool and every component count is 0 |
| Aggregator.FailuresSkipped | tools/eco_search_manager.py:36-54 | a component whose search raises or finds nothing leaves no trace in the pool or the counts |
| Aggregator.CountsNameComponents | tools/eco_search_manager.py:30-50 | search_results names only the original and the searched components, and names every component that contributed |
| Aggregator.CountsOnlyGrow | tools/eco_search_manager.py:44-50 | an entry of search_results, once made, stays |
| Aggregator.SourceKeyPoolIsOriginal | tools/eco_search_manager.py:44-49 | with the key the code uses, a non-empty original result is the whole pool, and every component count is 0 |
| Aggregator.SourceKeyDropsNewProduct | tools/eco_search_manager.py:46-47 | a concrete case: a product that only a component found is discarded |
| Aggregator.ProductIdKeyKeepsNewProduct | tools/eco_search_manager.py:45-57 | with the product id as key, the same component's product is kept and sorted first by price |
| Aggregator.IdMergeKeeps | tools/eco_search_manager.py:45-49 | with the product id as key, a component's product with a new id joins the pool |
| Aggregator.CheaperFirst | tools/eco_search_manager.py:57 | the sort puts the cheaper record first |
| Aggregator.ProductIdPoolUnique | tools/eco_search_manager.py:45-66 | with the product id as key, no product appears twice in the reported list |
| Aggregator.OccursOnce | tools/eco_search_manager.py:45-49 | in a pool without repeated ids each record occurs once |
| Aggregator.SortedKeysUnique | tools/eco_search_manager.py:57 | sorting a pool without repeated ids keeps it without repeated ids |
| Aggregator.OnlyFirstFiveSearched | tools/eco_search_manager.py:35 | components after the fifth are reported but never searched |
| Expander.Bullet | tools/eco_search.py:83 | a cleaned bullet holds no `-` |
| Expander.Classify | tools/eco_search.py:72-85 | a line with the components marker is a components line even if it also holds the strategy marker; a strategy line holds the strategy marker and not the components marker; any other line is a bullet exactly when it starts with `-` |
| Expander.Kinds | tools/eco_search.py:70-71 | every line is classified, in order |
| Expander.Run | tools/eco_search.py:70-85 | over the reply's lines the component list never shrinks and grows by at most one entry per line |
| Expander.FirstComponentsLine | tools/eco_search.py:72-74 | the first components-marker line |
| Expander.FirstStrategyLine | tools/eco_search.py:75-79 | the first strategy-marker line |
| Expander.LastStrategyLine | tools/eco_search.py:75-81 | the last strategy-marker line, after which none follows |
| Expander.Item | tools/eco_search.py:82-85 | a line adds at most one component, and never an empty one |
| Expander.Bullets | tools/eco_search.py:82-85 | no collected component is empty |
| Expander.ComponentsOf | tools/eco_search.py:70-85 | the components are non-empty bullets |
| Expander.ParseLines | tools/eco_search.py:63-91 | at most ten components, each non-empty and free of `-`, taken in order from the bullets after the components marker and before the first strategy line; the strategy, or the default when it is empty; the query echoed |
| Expander.ParseExpansion | tools/eco_search.py:60-91 | the reply's stripped lines give at most ten non-empty components free of `-`, the first ten of the described ones, a non-empty strategy and the query echoed |
| Expander.RunIsDescribed | tools/eco_search.py:70-85 | the loop from its initial state yields exactly the described components and strategy |
| Expander.StrategyPartKeepsComponents | tools/eco_search.py:80-85 | once the strategy part has begun, no further component is collected |
| Expander.CollectsUntilStrategy | tools/eco_search.py:72-85 | inside the components part, every bullet up to the first strategy line is collected |
| Expander.ComponentsBeforeMarker | tools/eco_search.py:70-85 | from outside both parts the loop collects exactly the described components |
| Expander.StrategyAfterMarker | tools/eco_search.py:75-81 | the strategy is the rest of the last strategy line plus `" " + line` for every later line, empty lines included |
| Expander.LaterStrategyLine | tools/eco_search.py:75-79 | a strategy line among the remaining lines is also the last strategy line of the whole reply, one position on |
| Expander.NoLaterStrategyLine | tools/eco_search.py:75-81 | without a later strategy line, the continuation is appended to the text so far |
| Expander.BulletsClean | tools/eco_search.py:83 | bullets of classified lines hold no `-` |
| Expander.KindsBulletsClean | tools/eco_search.py:82-85 | no component of a reply holds a `-` |
| Expander.NoMarkerNoComponents | tools/eco_search.py:72-89 | without a components marker the list is empty and nothing fails |
| Expander.BothMarkersMeanComponents | tools/eco_search.py:72-75 | a line with both markers opens the components part and leaves the strategy alone |
| Crawler.Primary | tools/product_crawler.py:42 | the fallback selector is used only when the primary yields nothing |
| Crawler.PrimaryOne | tools/product_crawler.py:86 | the fallback element is used only when the primary is missing |
| Crawler.FirstDigit | tools/product_crawler.py:33 | the position of the first digit, with no digit before it |
| Crawler.FirstDigitRun | tools/product_crawler.py:33-35 | none exactly when there is no digit; otherwise the maximal digit run at the first digit |
| Crawler.NormalizePrice | tools/product_crawler.py:31-35 | no digit gives 0; otherwise the value of the first maximal digit run once commas are removed |
| Crawler.RemovedKeepsNoDigit | tools/product_crawler.py:33 | removing commas adds no digit |
| Crawler.GroupedDigits | tools/product_crawler.py:31-35 | a price with thousands separators reads as the number without them |
| Crawler.WholeRun | tools/product_crawler.py:33-35 | a text of digits is its own first run |
| Crawler.PersianPrice | tools/product_crawler.py:31-35 | "۱۲۵,۰۰۰" in Persian digits reads as 125000 |
| Crawler.SpecPairs | tools/product_crawler.py:43-53 | every pair comes from a key/value element or a row with exactly two cells |
| Crawler.LastFor | tools/product_crawler.py:48-53 | the last pair for a key, after which none follows |
| Crawler.AssignLastWins | tools/product_crawler.py:41-53 | a later pair for a key overwrites an earlier one |
| Crawler.Specifications | tools/product_crawler.py:41-55 | a key is present exactly when some element gives a pair for it, valued by the last such pair |
| Crawler.Urls | tools/product_crawler.py:61 | each image's `src`, else its `data-src` |
| Crawler.GatherIsDedup | tools/product_crawler.py:58-63 | the image loop keeps the wanted, unseen URLs, each once |
| Crawler.AdditionalImages | tools/product_crawler.py:57-63 | the images are non-empty URLs containing `basalam`, each once |
| Crawler.Reviews | tools/product_crawler.py:66-74 | at most five reviews, each longer than 10 characters and among the first five elements; every such long text is kept, as often as it occurs there |
| Crawler.ReviewsSnoc | tools/product_crawler.py:68-72 | the reviews keep the page's order: one more element is appended when it is long enough and fewer than five came before it, and changes nothing after the fifth |
| Crawler.Extract | tools/product_crawler.py:23-101 | a fetched page always yields a successful record for that URL |
| Crawler.CrawlProductPage | tools/product_crawler.py:14-114 | the result succeeds exactly when the page was fetched; a request failure and a processing failure each give their own error prefix followed by the reason, always with the URL |
| Crawler.EmptyPageSucceeds | tools/product_crawler.py:89-101 | a page where nothing matched still succeeds, with empty values |
| Crawler.ExtractBounds | tools/product_crawler.py:58-74 | every record keeps the review cap and length filter and the image filter and uniqueness |
| Crawler.BatchCrawlProducts | tools/product_crawler.py:127-139 | min(n, 10) results, result i being the crawl of URL i |
| ProductUrls.MatchShortUrl | tools/product_utils.py:10 | a match is anchored at the start and gives the maximal non-empty digit run after the short-link prefix |
| ProductUrls.FixBasalamProductUrl | tools/product_utils.py:10-14 | an empty vendor name or a non-matching URL is returned unchanged; otherwise the vendor's product page for the digit run, with any later text dropped |
| ProductUrls.SearchLinkRoundTrip | tools/product_utils.py:10-13 | the link the search tool builds for a numeric id becomes the vendor's page for the same id |
| ProductUrls.ShortLinkMatches | tools/product_utils.py:10-12 | the short link of a numeric id matches with exactly that id |
| ProductUrls.DotMatchesAnyCharacter | tools/product_utils.py:10 | the unescaped dot lets any character but a newline stand between "basalam" and "com": a URL with 'X' there is rewritten |
| Summary.BoundaryFrom | tools/product_summary_tool.py:10 | the first place where a space follows `.`, `!` or `?` |
| Summary.Sentences | tools/product_summary_tool.py:10 | at least one piece; the first piece is a prefix of the text, and without a boundary the text is the only piece |
| Summary.SentencesShape | tools/product_summary_tool.py:10 | no piece holds a boundary, every piece but the last ends with '.', '!' or '?', and no piece after the first starts with a space, because each run of spaces is cut whole |
| Summary.SentencesRejoin | tools/product_summary_tool.py:10 | the runs cut out (`CutRuns`) are one fewer than the pieces and each is a non-empty run of spaces; putting each back between its two pieces gives the text back |
| Summary.SentencesUnique | tools/product_summary_tool.py:10 | any cut of a text at runs of spaces into sentence-shaped pieces is the one the split produces |
| Summary.SummarizeText | tools/product_summary_tool.py:5-12 | zero sentences give ''; a text without a boundary is returned stripped for a positive count and dropped for a negative one (a Python slice counts from the end); for a positive count the summary begins with the first sentence, and for a count of one it is exactly that sentence; the summary is never longer than the stripped text |
| Summary.SummaryKeepsSentences | tools/product_summary_tool.py:10-11 | splitting the summary again gives exactly the sentences it kept: the first N, or all but the last -N for a negative count |
| Summary.JoinedPrefixShorter | tools/product_summary_tool.py:10-11 | joining any number of leading sentences with single spaces is never longer than the text |
| Summary.SingleSpacesRejoin | tools/product_summary_tool.py:10-11 | with single-space boundaries, joining all sentences gives back the text |
| Summary.GetProductSummary | tools/product_summary_tool.py:14-24 | the summary of a non-empty description, for any sentence count; otherwise the crawl's error text; otherwise the fixed message |
| Intent.DetectIntent | tools/intent_detector.py:44-50 | search_product exactly when the lowered reply contains it; contact_seller exactly when only that label occurs; other otherwise |
| Intent.LabelsRecognised | tools/intent_detector.py:44-50 | a reply that is just a label, in any case and padded with white space, gives that label |
| Intent.UpperCaseLabel | tools/intent_detector.py:44-46 | an upper-case SEARCH_PRODUCT anywhere in the reply counts |
| ChatDisplay.Body | app.py:111 | `$` allows one final newline: the body is the text, or the text without that newline |
| ChatDisplay.IsValidImageUrl | app.py:108-111 | false for None and '', otherwise true exactly for a newline-free name ending in `.jpg`, `.jpeg`, `.png`, `.gif` or `.bmp` in any case, with at most one trailing newline |
| ChatDisplay.BacktrackMeans | app.py:111 | backtracking `.*` finds a match exactly when the tail matches at some position within the newline-free prefix |
| ChatDisplay.MatchMeansImageName | app.py:111 | the regular-expression match accepts exactly the image names |
| ChatDisplay.ImageNameMatches | app.py:111 | every image name is matched |
| ChatDisplay.MatchIsImageName | app.py:111 | everything matched is an image name |
| ChatDisplay.LabelOf | app.py:128-137 | a line sets a field exactly when it starts with that field's label |
| ChatDisplay.LabelsExclusive | app.py:128-137 | no line starts with two labels, so the order of the tests does not matter |
| ChatDisplay.SettingOf | app.py:127-137 | a line sets a field exactly when it has a label, with the label-stripped value |
| ChatDisplay.Settings | app.py:127-137 | every line is read, in order |
| ChatDisplay.LastSetting | app.py:127-137 | the last line that sets a field, after which none does |
| ChatDisplay.ReadAllLastWins | app.py:127-137 | a later line overwrites an earlier one for the same field |
| ChatDisplay.ParseBlock | app.py:125-137 | a field is present exactly when some line of the block carries its label, with the value of the last such line |
| ChatDisplay.CardOf | app.py:139-143 | a card is shown exactly when name, price, city and link are present; its image only when it passes the image check |
| ChatDisplay.Shown | app.py:124-143 | a card is shown exactly when some piece gives it, at most one card per piece |
| ChatDisplay.Cards | app.py:124-143 | a card is produced exactly when some piece gives it, at most one card per piece |
| ChatDisplay.CardsConcat | app.py:124 | the cards of two runs of pieces are those of the first run followed by those of the second, so cards keep the order of the blocks |
| ChatDisplay.CardsNoDash | app.py:123-124 | cards from dash-free pieces are dash-free |
| ChatDisplay.ShownNoDash | app.py:123-137 | every card shown from split pieces is dash-free |
| ChatDisplay.CardOfNoDash | app.py:139-143 | a card built from dash-free values is dash-free |
| ChatDisplay.ProductCards | app.py:122-143 | no cards without the product-name mark; with it, the cards are exactly those given by the pieces after the first; every shown value is free of dashes |
| ChatDisplay.FirstPieceIgnored | app.py:123-124 | whatever precedes the first run of dashes gives no card: the cards are those of the text after that run |
| ChatDisplay.FirstBlockHidden | app.py:124 | a complete product block followed only by dashes shows no card |
| ChatDisplay.BlockAfterDashShown | app.py:122-139 | a dash-free block after a run of dashes, in a message with the name mark before it, shows its card exactly when the block gives one |
| ChatDisplay.LinesNoDash | app.py:125 | every line of a dash-free piece is dash-free |
| ChatDisplay.FieldValueNoDash | app.py:129-137 | a value read from a dash-free line is dash-free |
| ChatDisplay.NoDashValues | app.py:123-137 | every value parsed from a dash-free piece is dash-free |
| ChatDisplay.NoSeparatorNoCards | app.py:123-124 | a message without a dash shows no card, even for a complete block |
| ChatDisplay.AnnouncedCount | app.py:155-160 | the stored-products count is shown exactly when the message contains the banner and some identifier; it equals the number of identifier matches, repeats included, each taking 36 characters of the message |
| ChatDisplay.AnnouncedDistinct | app.py:155-160 | the corrected notice, shown under the same condition, equal to the number of distinct identifiers in the message |
| IdScan.FindIds | app.py:158 | every match is 36 identifier characters, and no more matches are found than non-overlapping 36-character pieces fit in the text |
| IdScan.FindIdsInRun | app.py:158 | inside a run of identifier characters, the matches are its consecutive 36-character pieces |
| IdScan.SkipShortPrefix | chat.py:142 | a short text before a separator hides no match |
| IdScan.FindIdsSplit | chat.py:142 | no match spans a character outside the class |
| IdScan.PlainHasNoIds | app.py:158 | text without identifier characters yields no match |
| IdScan.SkipPlain | app.py:158 | text without identifier characters in front of another adds no match and joins none |
| IdScan.OneId | app.py:158 | a lone 36-character identifier is found once |
| IdScan.SplitAtPlain | app.py:158 | a separator without identifier characters splits the scan into the scans of its two sides |
| Chat.SplitSecond | chat.py:110 | `split(sep)[1]` exists exactly when sep occurs; it is the text after the first occurrence, up to the next one or the end, and holds no sep |
| Chat.LabelHasMark | chat.py:108-110 | a message with the label and its space also has the mark |
| Chat.ReadSavedId | chat.py:108-111 | not a save without the mark; readable exactly when the label with its space occurs; the id is the stripped text after it |
| Chat.ReadSavedIdRoundTrip | chat.py:108-110 | the success message for an id without the label reads back the stripped id |
| Chat.EnhancedCrawlColumns | chat.py:98-103 | in the merged record, the crawl's name, price, rating and vendor name override the search's |
| Chat.EnhancedPageColumns | chat.py:98-103 | the merged record's description, specifications, reviews and images come from the crawl |
| Chat.FromCrawl | chat.py:98-103 | a key the crawl supplies takes the crawl's value |
| Chat.FromSearch | chat.py:98-103 | a key only the search supplies keeps the search's value |
| Chat.EnhancedSearchColumns | chat.py:98-103 | image, city, rating count, product id and short link come from the search record |
| Chat.ListingRecord | tools/basalam_search.py:49-59 | a search record has no `id` and no `description` key, and keeps the product id under `product_id` |
| Chat.CrawlRecord | tools/product_crawler.py:89-101 | a successful crawl record has no `error`, `id` or `product_id` key and is marked crawled |
| Chat.Enhance | chat.py:98-103 | the merged record carries the search's product id as `basalam_id` and the query as `search_query` |
| Chat.StoreOne | chat.py:86-118 | an ineligible product or a failed crawl changes nothing; otherwise the mapping keys only grow, by at most the product's id, and every mapped id stays stored |
| Chat.StoreCrawled | chat.py:96-112 | the mapping keys only grow, by at most the product's id, and the stored map only grows |
| Chat.StoreAll | chat.py:84-118 | the mapping keys only grow; every new key is the product id of a product at or after the start that was eligible and whose page was crawled; every mapped id has its record stored |
| Chat.ProcessAndStore | chat.py:77-120 | at most five entries; each key is the product id of one of the first five products that was eligible and whose page was crawled; each id has its merged record stored |
| Chat.StoreOneMapsSaved | chat.py:95-112 | a product that is eligible, crawled and saved under a UUID is mapped, under its product id, to that UUID |
| Chat.StoreAllMapsSaved | chat.py:86-112 | a product saved at any step of the loop has its product id in the final mapping, whatever later products do |
| Chat.ProcessAndStoreMapsSaved | chat.py:86-115 | each of the first five products that is eligible, crawled and saved under a UUID is reported: its product id is a key of the returned mapping |
| Chat.StoreCrawledSaved | chat.py:106-112 | a save under a UUID adds the mapping entry and the stored record for that UUID |
| ProductManager.SavedMessage | tools/product_manager.py:24 | the success reply starts with the success text and ends with the id label and the id, which Chat.ReadSavedIdRoundTrip reads back |
| Chat.EntryLines | chat.py:172-174 | no lines exactly when no entries; otherwise they start with a bullet and end with the id's closing backtick and a newline |
| Chat.ReportBody | chat.py:171-176 | after the banner: the hint and the first entry line, ending with the example request for the first stored id |
| Chat.SavedReport | chat.py:170-176 | the report opens with a newline, the banner and the hint, and closes with the example request for the first stored id |
| Chat.ExampleRequest | chat.py:176 | the example ends with the detail request for the id, quoted |
| Chat.ExampleRequestReadsBack | chat.py:176 | the quoted request, sent back, names exactly the stored id |
| Chat.SavedIdRead | chat.py:106-110 | the success message of a save under a UUID reads back that UUID |
| Chat.StoredIdReadsBack | chat.py:94-112 | a product saved in one iteration is mapped to the fresh id, and that id reads back its crawled name, price and vendor with the search's product id, link and query |
| Chat.SavedMessageShowsOneId | tools/product_manager.py:24 | the save tool's success message for a UUID holds exactly one identifier-shaped run, that UUID |
| Chat.EntryLineIds | chat.py:173-174 | a line of the stored-ids report, whose shown name holds no identifier, yields exactly its internal id to the identifier scan |
| Chat.EntryLinesIds | chat.py:172-174 | the report's lines yield the stored ids in the mapping's order |
| Chat.BodyIds | chat.py:171-176 | the scan of the report after its banner finds every stored id in order and then the first one again |
| Chat.ReportIds | chat.py:170-176 | the scan of a whole report finds every stored id in order and then the first one again, from the example request |
| Chat.ReportTextsPlain | chat.py:171-176 | the fixed texts of the report and the front end's banner hold no identifier character |
| Chat.NoDiskInBody | chat.py:171-176 | after its banner, the report shows the floppy-disk sign nowhere |
| Chat.TextsWithoutDisk | chat.py:171-176 | the fixed texts show the floppy-disk sign only at the start of the banner |
| Chat.BoldReportNotAnnounced | chat.py:171 | the report as written, after an answer without the sign, never contains the banner app.py looks for, so no stored-products count is shown |
| Chat.NoticedReportIds | chat.py:170-176 | a report written with the banner app.py looks for is noticed, and the scan finds the stored ids and then the first again |
| Chat.ListingThenReportIds | chat.py:170-176 | a report appended to a product listing with no ids adds exactly the stored ids and then the first again to the scan |
| Chat.ExampleCountedTwice | app.py:155-160 | once noticed, the count shown is one more than the number of products stored |
| Chat.CorrectedReportAnnounced | app.py:155-160 | with the banner app.py looks for and each id counted once, the count shown is the number of products stored |
| Chat.DetailIdAt | chat.py:132 | a match at a position starts with the id word and gives a non-empty run of identifier characters |
| Chat.DetailIdAtMeans | chat.py:132 | at one position, backtracking included, the pattern fails exactly when the word is missing or no stop in the `[:\s]` gap is followed by an identifier character; otherwise group 1 is the maximal identifier run after the maximal gap |
| Chat.GapEndsOnce | chat.py:132 | the only stop of `[:\s]*` that an identifier character can follow is the end of the maximal gap |
| Chat.RunBehindGap | chat.py:132 | the run read starts on a character that ends the gap and stops where identifier characters stop |
| Chat.SearchDetailId | chat.py:132 | any id found is a non-empty run of identifier characters |
| Chat.SearchDetailIdMeans | chat.py:132 | the search from a position gives the match at the first matching position, and nothing only when no later position matches |
| Chat.SearchStep | chat.py:132 | a position where the pattern fails passes the search on to the next one |
| Chat.DetailId | chat.py:132-134 | `re.search`: group 1 from the first position that matches, and nothing only when no position matches |
| Chat.DetailRequestSkips | chat.py:132 | the pattern cannot start before the id word of the suggested request |
| Chat.DetailRequestMatch | chat.py:132 | at the id word, the gap is skipped and the whole identifier is read |
| Chat.DetailRequestRoundTrip | chat.py:132-134 | the suggested detail request reads back exactly its identifier |
| Chat.ComparisonIds | chat.py:142-144 | comparison happens exactly when at least two identifiers are found, with the first min(3, found) of them |
| Chat.TwoIdsCompared | chat.py:142-144 | two UUIDs written after a word are compared in the order written |
| Chat.Numbers | chat.py:247-251 | the prices as numbers, index by index |
| Chat.MinOf | chat.py:250 | the minimum is a price and bounds all of them from below |
| Chat.MaxOf | chat.py:251 | the maximum is a price and bounds all of them from above |
| Chat.FormatProductComparison | chat.py:229-257 | an error key or fewer than two products gives a message starting with the error mark; a non-numeric price is refused; otherwise the table, with min ≤ every price ≤ max and spread = max − min ≥ 0 when there are prices |
| Chat.StoreComparisonSummary | chat.py:246-255 | a comparison of stored products with integer prices has a summary bounding every stored price |
| Chat.IntPricesTabled | chat.py:246-255 | integer prices always give a table with a summary that bounds every price |
| Chat.ReviewExcerpts | chat.py:219-223 | min(n, 3) excerpts, each a prefix of its review of at most 100 characters followed by an ellipsis, the whole review when it is short |
| Chat.ExcerptsAreStable | chat.py:221-222 | excerpting the shown texts of the excerpts again gives the same excerpts, and reviews after the third never change them |
| Text.Strip | tools/eco_search.py:71 | the stripped text is the input less a run of white space on each side, and starts and ends with non-space |
| Text.StripUnchanged | tools/eco_search.py:71 | text without white space at either end is unchanged by strip |
| Text.StripChars | tools/eco_search.py:71 | strip adds no character |
| Text.IndexOf | chat.py:110 | the first occurrence, with none before it |
| Text.SignOnlyOnce | app.py:155 | a text holding a character once cannot contain a pattern that starts with it and differs two places later |
| Text.RemoveChar | tools/product_crawler.py:33 | the text without the character, everything else kept |
| Text.ReplaceCharIsRemove | tools/eco_search.py:83 | replacing a one-character string with '' removes every occurrence and keeps the rest in order |
| Text.ReplaceAllChars | app.py:129 | replacing adds no character outside the text and the replacement |
| Text.ReplaceAbsent | app.py:129 | replacing text that does not occur changes nothing |
| Text.SplitOn | tools/eco_search.py:66 | split gives at least one piece and no piece holds the separator |
| Text.SplitOnChars | tools/eco_search.py:66 | every character of a piece is in the text |
| Text.JoinSplitOn | tools/eco_search.py:66 | joining the pieces with the separator gives back the text |
| Text.StripAll | tools/eco_search.py:70-71 | each line stripped, in order |
| Text.LeadingRun | tools/product_utils.py:10 | the longest prefix of matching characters |
| Text.SplitRuns | app.py:123 | splitting at separator runs yields at least one piece, and no piece holds a separator |
| Text.SplitRunsNone | app.py:123 | text without separators is a single piece |
| Text.SplitRunsRejoin | app.py:123 | the separator runs cut out (`SeparatorRuns`) are one fewer than the pieces and each is a non-empty run of separators; putting each back between its two pieces gives the original text, so nothing but the separators is dropped |
| Text.SplitRunsCons | app.py:123 | a separator-free head, a separator run and a rest that does not start with a separator split into the head followed by the pieces of the rest |
| Text.JoinIsWeave | tools/product_summary_tool.py:11 | joining puts the separator between each pair of consecutive parts |
| Text.JoinStart | tools/product_summary_tool.py:11 | a joined text begins with its first part, and is that part alone when there is only one |
| Text.Lower | tools/intent_detector.py:44 | lower-casing keeps the length and maps each character |
| Text.Take | tools/eco_search.py:89 | the first min(n, len) elements |
| Seqs.Filter | tools/eco_search_manager.py:47 | the comprehension keeps exactly the passing elements, none added |
| Seqs.FilterConcat | tools/eco_search_manager.py:47 | filtering distributes over concatenation |
| Seqs.FilterCounts | database/product_store.py:132 | a `WHERE` keeps each passing row as often as the table holds it, and no other row |
| Seqs.FilterDropsLast | tools/eco_search_manager.py:47 | a failing element at the end is dropped |
| Seqs.Dedup | tools/product_crawler.py:62 | the same elements without repeats |
| Seqs.DedupSnoc | tools/product_crawler.py:60-63 | first-occurrence order: an element not seen before goes at the end, a repeated one changes nothing |
| Seqs.DedupCard | app.py:158 | the list without repeats has as many entries as the set of the list has elements |
| Seqs.DistinctCard | app.py:158 | a list without repeats has as many distinct elements as entries |
| Seqs.DedupDistinct | app.py:158 | a list without repeats is its own set of distinct elements |
| Seqs.DedupRepeatFirst | chat.py:176 | repeating the first element at the end adds no distinct element |
| Sorting.SortBy | tools/basalam_search.py:74 | `sorted` returns a permutation that is ordered by key and stable among equal keys |
| Sorting.StableSortUnique | tools/basalam_search.py:74 | any stable sort by the key equals `sorted`'s result |
| Sorting.InsertKeepsOrder | tools/basalam_search.py:74 | insertion keeps a sorted list sorted and adds exactly the element |
| Sorting.InsertWithKey | tools/basalam_search.py:74 | insertion keeps the order among equal keys |
| Values.StrList | tools/product_crawler.py:96-97 | a list of strings as a dictionary value, element by element |
| Values.StrDict | tools/product_crawler.py:95 | a string map as a dictionary value, key by key |

## Left out

- HTTP requests, language-model calls, BeautifulSoup selectors, uuid and the clock. Their results are inputs: an API response, the expander's reply, a page of selector results, fresh ids and times.
- SQLite itself and JSON encoding. The table is a row sequence, and JSON columns hold the encoded value exactly.
- Concurrency: the code has none, and the model is sequential too.
- LangChain tool plumbing. chat.py calls tool objects positionally, and tools/eco_search_manager.py imports `eco_search_expand`, a name tools/eco_search.py does not define. Both are modelled as plain calls, with the expander passed in.
- `explain_eco_search`, the keyword routing and agent fallback of `get_agent_response`, the rest of `format_detailed_product`, the Streamlit display, llm.py, tools/generate_message.py and the test scripts. None decides data; they only print or route.
- Number formatting (`{:,}`) and the eco-search summary sentence.
- Crawler.Extract: the rating is an input, not parsed from text, because float parsing is out of scope.
- Crawler.Specifications: the `except: continue` around each element is not modelled, because element texts arrive already extracted and cannot raise.
- Catalog.RowsMatching: LIKE's `%` and `_` inside the query are treated as plain characters, and case is ignored for ASCII letters only.
- Catalog.Select: SQLite leaves the order of equal `created_at` values open. The model keeps them in rowid order, so its contracts say only newest first.
- Text.Lower: lower-cases ASCII letters only, not full Unicode `str.lower()`.
- Text.IsDigit: accepts ASCII, Arabic-Indic and Persian digits only, while Python's `\d` accepts every Unicode decimal digit.
- ListingSearch.Clean: the price is an optional integer read as 0 when absent. `int()` of a JSON null or a non-numeric price raises a TypeError or ValueError in the source but reads as 0 here, and a float price is not modelled. A JSON-null nested object is modelled (the search fails).
- Catalog.Save: SQLite's column type affinity is not modelled. An integer product_id is stored as the integer, not as the text the TEXT column makes of it, so `Int(123)` and `Str("123")` do not collide here; numeric text in `price` and `rating_count` is not turned into a number, and an integer `rating` is not turned into a real.
- Catalog.SaveRoundTrip: reads back the value given, without the affinity conversions above, so it says nothing about a value whose type differs from its column's.
- ListingSearch.SearchBasalam: ratings are reals; float rounding is not modelled.
- Chat.StoreAll: only the outcomes the code can produce from its inputs are modelled: failed crawls, failed saves and unreadable save messages. Other exceptions swallowed at chat.py:116-118 have no counterpart.
- Chat.FormatProductComparison: only what is shown is modelled (refusal, product count, price summary), not the text.
- ProductManager.SaveProductDetails: the exception text is the store's message. No claim is made about its wording.
- Aggregator.Aggregate: the summary sentence `eco_search_summary` is not modelled.
- Chat.SavedReport: the listed entries, each a name and an internal id in the mapping's insertion order, are an input. The name lookup `stored_products.get(internal_id, {}).get('name', 'نامشخص')` and a name that is not text are not modelled, and the search answer above the report is a parameter.
- ChatDisplay.AnnouncedCount: only the count message is modelled, not the success line shown whenever the banner is present.

## Findings

| source | as written | input that shows it | evidently intended | confidence | as-written member | corrected member |
|---|---|---|---|---|---|---|
| tools/eco_search_manager.py:46-47 | duplicates are keyed by `p.get('id', '')`, but search records have no `id` field (they carry `product_id`), so every key is `''` | the original search finds product 1 and a component finds product 2: product 2 is dropped, and every component after a non-empty original search adds nothing | the comment at :45 says to filter duplicates by product id, so key by `product_id` | high; not executed | Aggregator.SourceKeyDropsNewProduct | Aggregator.ProductIdKeyKeepsNewProduct |
| chat.py:171 | the search answer announces stored products with the banner `💾 **محصولات ذخیره شدند!**`, with Markdown bold markers, while app.py:155 looks for `💾 محصولات ذخیره شدند!` | any search that stores at least one product, with a query and product fields that do not themselves show the floppy-disk sign: the banner app.py looks for never occurs, so the count of stored products is never shown | the banner app.py looks for, so the front end shows the count | medium; not executed | Chat.BoldReportNotAnnounced | Chat.CorrectedReportAnnounced |
| app.py:158-160 | the count shown is the number of identifier matches in the message, and the example request at chat.py:176 repeats the first stored id | a report written with the banner app.py looks for and one stored product: the front end says two products were stored | count each identifier once, as `len(set(product_ids))` | medium; not executed | Chat.ExampleCountedTwice | Chat.CorrectedReportAnnounced |

=== FILE: aggregator.dfy ===
/** The multi-query ("ecological") search of tools/eco_search_manager.py: the
    query is expanded into related components, the query and the first five
    components are searched, the results are pooled without repeating a
    record key, sorted by price and cut to twenty. The expander and the
    search are parameters; the record key is a parameter too, because the
    key the source uses decides how much of the pool survives. */
module Aggregator {

  import opened Wrappers
  import opened Text
  import opened Seqs
  import Sorting
  import opened ListingSearch
  import opened Expander

  const ORIGINAL_LABEL: string := "جستجوی اصلی"
  const ECO_ERROR_PREFIX: string := "خطا در جستجوی اکولوژیک: "
  const MAX_SEARCHED: nat := 5
  const MAX_SHOWN: nat := 20

  /** The result dictionary. A failure always carries an empty product
      list, so only its message and query are kept. The summary sentence is
      not modelled. */
  datatype EcoResult =
    | EcoFound(originalQuery: string, expandedComponents: seq<string>, searchStrategy: string,
               searchResults: map<string, nat>, totalProducts: nat, products: seq<Listing>)
    | EcoFailed(error: string, originalQuery: string)

  /** `all_products` and `search_results` while the loop runs. */
  datatype Pool = Pool(products: seq<Listing>, counts: map<string, nat>)

  type Search = string -> Result<seq<Listing>, string>

  /** The keys already present: `{p.get('id', '') for p in all_products}`. */
  function KeysOf<K>(ps: seq<Listing>, key: Listing -> K): set<K> {
    set i | 0 <= i < |ps| :: key(ps[i])
  }

  /** The records of `found` whose key is not yet in the pool. */
  function Fresh<K(==)>(pool: seq<Listing>, found: seq<Listing>, key: Listing -> K): seq<Listing> {
    Filter(found, (l: Listing) => key(l) !in KeysOf(pool, key))
  }

  /** A component search that returns a non-empty list; a failing one is
      caught and skipped, an empty one changes nothing. */
  predicate Contributes(search: Search, component: string) {
    search(component).Success? && |search(component).value| > 0
  }

  function ContributesTo(search: Search): string -> bool {
    (c: string) => Contributes(search, c)
  }

  /** One iteration of the component loop: a contributing component appends
      the records with keys not yet pooled, after which every key it found is
      pooled, and its count is the number of records it appended. */
  function AddComponent<K(==)>(acc: Pool, component: string, search: Search, key: Listing -> K): (p: Pool)
    ensures !Contributes(search, component) ==> p == acc
    ensures |acc.products| <= |p.products| && p.products[..|acc.products|] == acc.products
    ensures forall i :: |acc.products| <= i < |p.products| ==>
              p.products[i] in search(component).value && key(p.products[i]) !in KeysOf(acc.products, key)
    ensures Contributes(search, component) ==>
              && component in p.counts && p.counts[component] == |p.products| - |acc.products|
              && forall x :: x in search(component).value ==> key(x) in KeysOf(p.products, key)
    ensures forall c :: c in acc.counts && c != component ==> c in p.counts && p.counts[c] == acc.counts[c]
  {
    if Contributes(search, component) then
      var added := Fresh(acc.products, search(component).value, key);
      var p := Pool(acc.products + added, acc.counts[component := |added|]);
      FreshKeysPooled(acc.products, search(component).value, key);
      assert p.products[..|acc.products|] == acc.products;
      p
    else acc
  }

  /** After appending the fresh records, every key of the search is pooled. */
  lemma FreshKeysPooled<K>(pool: seq<Listing>, found: seq<Listing>, key: Listing -> K)
    ensures forall x :: x in found ==> key(x) in KeysOf(pool + Fresh(pool, found, key), key)
  {
    var out := pool + Fresh(pool, found, key);
    forall x | x in found
      ensures key(x) in KeysOf(out, key)
    {
      if key(x) in KeysOf(pool, key) {
        var j :| 0 <= j < |pool| && key(pool[j]) == key(x);
        assert out[j] == pool[j];
      } else {
        var i :| 0 <= i < |found| && found[i] == x;
        assert x in Fresh(pool, found, key);
        var j :| 0 <= j < |Fresh(pool, found, key)| && Fresh(pool, found, key)[j] == x;
        assert out[|pool| + j] == x;
      }
    }
  }

  /** The component loop. The pool only grows at its end: the records it
      started with stay first and unchanged. */
  function Merge<K(==)>(acc: Pool, components: seq<string>, search: Search, key: Listing -> K): (p: Pool)
    ensures |acc.products| <= |p.products| && p.products[..|acc.products|] == acc.products
    decreases |components|
  {
    if |components| == 0 then acc
    else
      var next := AddComponent(acc, components[0], search, key);
      var p := Merge(next, components[1..], search, key);
      assert p.products[..|acc.products|] == p.products[..|next.products|][..|acc.products|];
      p
  }

  /** The pool after the original search: its records, unfiltered, and its
      count when it found anything. */
  function StartPool(original: seq<Listing>): (p: Pool)
    ensures p.products == original
    ensures ORIGINAL_LABEL in p.counts <==> |original| > 0
    ensures forall c :: c in p.counts ==> c == ORIGINAL_LABEL && p.counts[c] == |original|
  {
    if |original| > 0 then Pool(original, map[ORIGINAL_LABEL := |original|]) else Pool([], map[])
  }

  /** perform_eco_search with the record key as a parameter. */
  function Aggregate<K(==)>(query: string, expand: string -> Result<Expansion, string>, search: Search,
                            key: Listing -> K): (r: EcoResult)
    ensures expand(query).Failure? ==> r == EcoFailed(ECO_ERROR_PREFIX + expand(query).error, query)
    ensures expand(query).Success? && search(query).Failure? ==>
              r == EcoFailed(ECO_ERROR_PREFIX + search(query).error, query)
    ensures r.EcoFound? <==> expand(query).Success? && search(query).Success?
    ensures r.EcoFound? ==>
              var exp := expand(query).value;
              var pool := Merge(StartPool(search(query).value), Take(exp.components, MAX_SEARCHED), search, key);
              && r.originalQuery == query
              && r.expandedComponents == exp.components
              && r.searchStrategy == exp.strategy
              && r.totalProducts == |pool.products|
              && r.products == Take(Sorting.SortBy(pool.products, PriceKey), MAX_SHOWN)
              && |r.products| == (if r.totalProducts < MAX_SHOWN then r.totalProducts else MAX_SHOWN)
              && Sorting.SortedBy(r.products, PriceKey)
              && r.searchResults == pool.counts
  {
    match expand(query)
    case Failure(e) => EcoFailed(ECO_ERROR_PREFIX + e, query)
    case Success(exp) =>
      match search(query)
      case Failure(e) => EcoFailed(ECO_ERROR_PREFIX + e, query)
      case Success(original) =>
        var pool := Merge(StartPool(original), Take(exp.components, MAX_SEARCHED), search, key);
        var sorted := Sorting.SortBy(pool.products, PriceKey);
        EcoFound(query, exp.components, exp.strategy, pool.counts, |sorted|, Take(sorted, MAX_SHOWN))
  }

  /** The key the source computes: search records have no `id` field, so
      `p.get('id', '')` is the empty string for every record. */
  function SourceDedupKey(l: Listing): string {
    ""
  }

  /** The key the comment above the dedup line intends: the product id. */
  function ProductIdKey(l: Listing): Option<string> {
    l.productId
  }

  /** Every sub-search uses the caller's filters; 0, 0.0 and "" are falsy and
      so are not sent. */
  function FilteredSearch(maxPrice: int, minRating: real, vendorCity: string, api: SearchParams -> ApiResponse): Search {
    (q: string) => SearchBasalam(q, Some(maxPrice), Some(minRating), Some(vendorCity), api)
  }

  /** perform_eco_search as written. */
  function PerformEcoSearch(query: string, maxPrice: int, minRating: real, vendorCity: string,
                            expand: string -> Result<Expansion, string>, api: SearchParams -> ApiResponse): (r: EcoResult)
    ensures r.EcoFound? <==> expand(query).Success? && FilteredSearch(maxPrice, minRating, vendorCity, api)(query).Success?
    ensures r.originalQuery == query
    ensures r.EcoFound? ==> Sorting.SortedBy(r.products, PriceKey) && |r.products| <= MAX_SHOWN && |r.products| <= r.totalProducts
    ensures r.EcoFound? ==> r.expandedComponents == expand(query).value.components
  {
    Aggregate(query, expand, FilteredSearch(maxPrice, minRating, vendorCity, api), SourceDedupKey)
  }

  /** perform_eco_search with duplicates recognised by product id. */
  function PerformEcoSearchById(query: string, maxPrice: int, minRating: real, vendorCity: string,
                                expand: string -> Result<Expansion, string>, api: SearchParams -> ApiResponse): (r: EcoResult)
    ensures r.EcoFound? <==> expand(query).Success? && FilteredSearch(maxPrice, minRating, vendorCity, api)(query).Success?
    ensures r.originalQuery == query
    ensures r.EcoFound? ==> Sorting.SortedBy(r.products, PriceKey) && |r.products| <= MAX_SHOWN && |r.products| <= r.totalProducts
    ensures r.EcoFound? ==> r.expandedComponents == expand(query).value.components
  {
    Aggregate(query, expand, FilteredSearch(maxPrice, minRating, vendorCity, api), ProductIdKey)
  }

  // ---- The pool ----

  /** Keys only accumulate as the pool grows at its end. */
  lemma KeysGrow<K>(a: seq<Listing>, b: seq<Listing>, key: Listing -> K)
    requires |a| <= |b| && b[..|a|] == a
    ensures KeysOf(a, key) <= KeysOf(b, key)
  {
    forall k | k in KeysOf(a, key)
      ensures k in KeysOf(b, key)
    {
      var j :| 0 <= j < |a| && key(a[j]) == k;
      assert b[j] == a[j];
    }
  }

  /** A record added by the merge has a key none of the earlier records has,
      and was returned by the search of one of the components. */
  lemma {:induction false} MergedRecordsAreFresh<K>(acc: Pool, components: seq<string>, search: Search, key: Listing -> K)
    ensures var out := Merge(acc, components, search, key).products;
            forall i :: |acc.products| <= i < |out| ==>
              && key(out[i]) !in KeysOf(acc.products, key)
              && exists c :: c in components && Contributes(search, c) && out[i] in search(c).value
    decreases |components|
  {
    if |components| > 0 {
      var c := components[0];
      var next := AddComponent(acc, c, search, key);
      MergedRecordsAreFresh(next, components[1..], search, key);
      assert next.products[..|acc.products|] == acc.products;
      KeysGrow(acc.products, next.products, key);
      var out := Merge(acc, components, search, key).products;
      assert out == Merge(next, components[1..], search, key).products;
      forall i | |acc.products| <= i < |out|
        ensures key(out[i]) !in KeysOf(acc.products, key)
        ensures exists c :: c in components && Contributes(search, c) && out[i] in search(c).value
      {
        assert out[..|next.products|] == next.products;
        if i < |next.products| {
          assert out[i] == next.products[i];
          assert components[0] in components;
        } else {
          var c' :| c' in components[1..] && Contributes(search, c') && out[i] in search(c').value;
          assert c' in components;
        }
      }
    }
  }

  ghost predicate UniqueKeys<K>(ps: seq<Listing>, key: Listing -> K) {
    forall i, j :: 0 <= i < j < |ps| ==> key(ps[i]) != key(ps[j])
  }

  /** When the pool and every component result hold no repeated key, the
      merged pool holds none either. */
  lemma {:induction false} MergeKeepsKeysUnique<K>(acc: Pool, components: seq<string>, search: Search, key: Listing -> K)
    requires UniqueKeys(acc.products, key)
    requires forall c :: c in components && search(c).Success? ==> UniqueKeys(search(c).value, key)
    ensures UniqueKeys(Merge(acc, components, search, key).products, key)
    decreases |components|
  {
    if |components| > 0 {
      var c := components[0];
      assert c in components;
      AddKeepsKeysUnique(acc, c, search, key);
      MergeKeepsKeysUnique(AddComponent(acc, c, search, key), components[1..], search, key);
    }
  }

  /** One iteration keeps the pool free of repeated keys. */
  lemma AddKeepsKeysUnique<K>(acc: Pool, c: string, search: Search, key: Listing -> K)
    requires UniqueKeys(acc.products, key)
    requires search(c).Success? ==> UniqueKeys(search(c).value, key)
    ensures UniqueKeys(AddComponent(acc, c, search, key).products, key)
  {
    var next := AddComponent(acc, c, search, key);
    if Contributes(search, c) {
      var found := search(c).value;
      var added := Fresh(acc.products, found, key);
      Seqs.FilterPairwise(found, (l: Listing) => key(l) !in KeysOf(acc.products, key),
                          (a: Listing, b: Listing) => key(a) != key(b));
      forall i, j | 0 <= i < j < |next.products|
        ensures key(next.products[i]) != key(next.products[j])
      {
        if j >= |acc.products| && i < |acc.products| {
          assert next.products[j] == added[j - |acc.products|];
          assert key(next.products[i]) in KeysOf(acc.products, key);
        } else if i >= |acc.products| {
          assert next.products[i] == added[i - |acc.products|];
          assert next.products[j] == added[j - |acc.products|];
        }
      }
    }
  }

  /** With a key that is the same for every record, nothing joins a
      non-empty pool and every contributing component is counted as 0. */
  lemma {:induction false} ConstantKeyStopsGrowth<K>(acc: Pool, components: seq<string>, search: Search, key: Listing -> K)
    requires forall a: Listing, b: Listing :: key(a) == key(b)
    requires |acc.products| > 0
    ensures Merge(acc, components, search, key).products == acc.products
    ensures var out := Merge(acc, components, search, key).counts;
            forall c :: c in out ==> out[c] == 0 || (c in acc.counts && out[c] == acc.counts[c])
    decreases |components|
  {
    if |components| > 0 {
      var c := components[0];
      if Contributes(search, c) {
        var found := search(c).value;
        assert key(acc.products[0]) in KeysOf(acc.products, key);
        Seqs.FilterNonePass(found, (l: Listing) => key(l) !in KeysOf(acc.products, key));
        assert acc.products + [] == acc.products;
      }
      var next := AddComponent(acc, c, search, key);
      ConstantKeyStopsGrowth(next, components[1..], search, key);
    }
  }

  /** A component that fails or finds nothing leaves no trace: the merge
      over the components equals the merge over the contributing ones. */
  lemma {:induction false} FailuresSkipped<K>(acc: Pool, components: seq<string>, search: Search, key: Listing -> K)
    ensures Merge(acc, components, search, key)
            == Merge(acc, Filter(components, ContributesTo(search)), search, key)
    decreases |components|
  {
    if |components| > 0 {
      var f := ContributesTo(search);
      var c := components[0];
      var rest := Filter(components[1..], f);
      var all := Filter(components, f);
      assert all == (if f(c) then [c] else []) + rest;
      if f(c) {
        var next := AddComponent(acc, c, search, key);
        FailuresSkipped(next, components[1..], search, key);
        assert all[0] == c && all[1..] == rest;
        assert Merge(acc, all, search, key) == Merge(next, rest, search, key);
      } else {
        assert AddComponent(acc, c, search, key) == acc;
        FailuresSkipped(acc, components[1..], search, key);
        assert all == rest;
      }
    }
  }

  /** `search_results` names only the original search and the searched
      components, and names every searched component that contributed. */
  lemma {:induction false} CountsNameComponents<K>(acc: Pool, components: seq<string>, search: Search, key: Listing -> K)
    ensures forall c :: c in Merge(acc, components, search, key).counts ==> c in acc.counts || c in components
    ensures forall c :: c in components && Contributes(search, c) ==> c in Merge(acc, components, search, key).counts
    decreases |components|
  {
    if |components| > 0 {
      var next := AddComponent(acc, components[0], search, key);
      CountsNameComponents(next, components[1..], search, key);
      CountsOnlyGrow(next, components[1..], search, key);
    }
  }

  lemma {:induction false} CountsOnlyGrow<K>(acc: Pool, components: seq<string>, search: Search, key: Listing -> K)
    ensures forall c :: c in acc.counts ==> c in Merge(acc, components, search, key).counts
    decreases |components|
  {
    if |components| > 0 {
      CountsOnlyGrow(AddComponent(acc, components[0], search, key), components[1..], search, key);
    }
  }

  /** Completeness of the pool: every key that a contributing searched
      component found is present in the merged pool. */
  lemma {:induction false} MergeCoversKeys<K>(acc: Pool, components: seq<string>, search: Search, key: Listing -> K)
    ensures forall c, x :: c in components && Contributes(search, c) && x in search(c).value ==>
              key(x) in KeysOf(Merge(acc, components, search, key).products, key)
    decreases |components|
  {
    if |components| > 0 {
      var next := AddComponent(acc, components[0], search, key);
      MergeCoversKeys(next, components[1..], search, key);
      KeysGrow(next.products, Merge(next, components[1..], search, key).products, key);
      assert forall c :: c in components ==> c == components[0] || c in components[1..];
    }
  }

  /** Merging a concatenation merges each part in turn. */
  lemma {:induction false} MergeConcat<K>(acc: Pool, a: seq<string>, b: seq<string>, search: Search, key: Listing -> K)
    ensures Merge(acc, a + b, search, key) == Merge(Merge(acc, a, search, key), b, search, key)
    decreases |a|
  {
    if |a| == 0 {
      assert a + b == b;
    } else {
      assert (a + b)[1..] == a[1..] + b;
      MergeConcat(AddComponent(acc, a[0], search, key), a[1..], b, search, key);
    }
  }

  /** A count is left alone by components with other names. */
  lemma {:induction false} CountKept<K>(acc: Pool, components: seq<string>, c: string, search: Search, key: Listing -> K)
    requires c in acc.counts && c !in components
    ensures c in Merge(acc, components, search, key).counts
    ensures Merge(acc, components, search, key).counts[c] == acc.counts[c]
    decreases |components|
  {
    if |components| > 0 {
      assert c != components[0];
      CountKept(AddComponent(acc, components[0], search, key), components[1..], c, search, key);
    }
  }

  /** `search_results[component] = len(new_products)`: the count a
      contributing component ends with, when no later component repeats its
      name, is the number of records its own iteration appended. */
  lemma ComponentCountIsAdded<K>(acc: Pool, components: seq<string>, i: int, search: Search, key: Listing -> K)
    requires 0 <= i < |components| && Contributes(search, components[i])
    requires components[i] !in components[i + 1..]
    ensures var c := components[i];
            var before := Merge(acc, components[..i], search, key);
            var after := Merge(acc, components[..i + 1], search, key);
            && c in Merge(acc, components, search, key).counts
            && Merge(acc, components, search, key).counts[c] == |after.products| - |before.products|
  {
    var c := components[i];
    var before := Merge(acc, components[..i], search, key);
    assert components[..i + 1] == components[..i] + [c];
    MergeConcat(acc, components[..i], [c], search, key);
    assert Merge(AddComponent(before, c, search, key), [c][1..], search, key) == AddComponent(before, c, search, key);
    var after := Merge(acc, components[..i + 1], search, key);
    assert components == components[..i + 1] + components[i + 1..];
    MergeConcat(acc, components[..i + 1], components[i + 1..], search, key);
    CountKept(after, components[i + 1..], c, search, key);
  }

  // ---- The result ----

  /** The source's key: once the original search found anything, the pool
      is exactly the original results; the components only add entries of 0
      to `search_results`. */
  lemma SourceKeyPoolIsOriginal(query: string, maxPrice: int, minRating: real, vendorCity: string,
                                expand: string -> Result<Expansion, string>, api: SearchParams -> ApiResponse)
    requires var search := FilteredSearch(maxPrice, minRating, vendorCity, api);
             expand(query).Success? && search(query).Success? && |search(query).value| > 0
    ensures var original := FilteredSearch(maxPrice, minRating, vendorCity, api)(query).value;
            var r := PerformEcoSearch(query, maxPrice, minRating, vendorCity, expand, api);
            && r.totalProducts == |original|
            && r.products == Take(Sorting.SortBy(original, PriceKey), MAX_SHOWN)
            && (forall c :: c in r.searchResults && c != ORIGINAL_LABEL ==> r.searchResults[c] == 0)
  {
    var search := FilteredSearch(maxPrice, minRating, vendorCity, api);
    var original := search(query).value;
    var comps := Take(expand(query).value.components, MAX_SEARCHED);
    ConstantKeyStopsGrowth(StartPool(original), comps, search, SourceDedupKey);
  }

  /** A concrete case: the original search finds product 1, the only
      component finds product 2, and product 2 is discarded. */
  lemma SourceKeyDropsNewProduct()
    ensures var a := Listing(None, 100, None, None, None, None, None, Some("1"), ProductLink(Some("1")));
            var b := Listing(None, 50, None, None, None, None, None, Some("2"), ProductLink(Some("2")));
            var expand: string -> Result<Expansion, string> := (q: string) => Success(Expansion(q, ["فیلتر"], DEFAULT_STRATEGY));
            var search := (q: string) => if q == "فیلتر" then Success([b]) else Success([a]);
            Aggregate("قهوه", expand, search, SourceDedupKey).products == [a]
  {
    var a := Listing(None, 100, None, None, None, None, None, Some("1"), ProductLink(Some("1")));
    var b := Listing(None, 50, None, None, None, None, None, Some("2"), ProductLink(Some("2")));
    var search: Search := (q: string) => if q == "فیلتر" then Success([b]) else Success([a]);
    ConstantKeyStopsGrowth(StartPool([a]), ["فیلتر"], search, SourceDedupKey);
  }

  /** With the product id as key, the same component's product is kept. */
  lemma ProductIdKeyKeepsNewProduct()
    ensures var a := Listing(None, 100, None, None, None, None, None, Some("1"), ProductLink(Some("1")));
            var b := Listing(None, 50, None, None, None, None, None, Some("2"), ProductLink(Some("2")));
            var expand: string -> Result<Expansion, string> := (q: string) => Success(Expansion(q, ["فیلتر"], DEFAULT_STRATEGY));
            var search := (q: string) => if q == "فیلتر" then Success([b]) else Success([a]);
            Aggregate("قهوه", expand, search, ProductIdKey).products == [b, a]
  {
    var a := Listing(None, 100, None, None, None, None, None, Some("1"), ProductLink(Some("1")));
    var b := Listing(None, 50, None, None, None, None, None, Some("2"), ProductLink(Some("2")));
    var search: Search := (q: string) => if q == "فیلتر" then Success([b]) else Success([a]);
    var expand: string -> Result<Expansion, string> := (q: string) => Success(Expansion(q, ["فیلتر"], DEFAULT_STRATEGY));
    assert Take(expand("قهوه").value.components, MAX_SEARCHED) == ["فیلتر"];
    assert StartPool(search("قهوه").value) == StartPool([a]);
    IdMergeKeeps(a, b, search);
    CheaperFirst(a, b);
  }

  lemma IdMergeKeeps(a: Listing, b: Listing, search: Search)
    requires a.productId == Some("1") && b.productId == Some("2")
    requires search("فیلتر") == Success([b])
    ensures Merge(StartPool([a]), ["فیلتر"], search, ProductIdKey).products == [a, b]
  {
    forall k | k in KeysOf([a], ProductIdKey)
      ensures k == Some("1")
    {
      var j :| 0 <= j < 1 && ProductIdKey([a][j]) == k;
      assert [a][j] == a;
    }
    assert "2"[0] != "1"[0];
    assert ProductIdKey(b) !in KeysOf([a], ProductIdKey);
    assert [b][1..] == [];
    assert Fresh([a], [b], ProductIdKey) == [b];
  }

  lemma CheaperFirst(a: Listing, b: Listing)
    requires b.price < a.price
    ensures Take(Sorting.SortBy([a, b], PriceKey), MAX_SHOWN) == [b, a]
  {
    assert [a, b][1..] == [b];
    assert Sorting.SortBy([b], PriceKey) == [b];
    assert Sorting.SortBy([a, b], PriceKey) == Sorting.Insert(a, [b], PriceKey);
  }

  /** With the product id as key, no product appears twice in the pool, as
      long as no single search repeats one. */
  lemma ProductIdPoolUnique(query: string, maxPrice: int, minRating: real, vendorCity: string,
                            expand: string -> Result<Expansion, string>, api: SearchParams -> ApiResponse)
    requires var search := FilteredSearch(maxPrice, minRating, vendorCity, api);
             && expand(query).Success? && search(query).Success?
             && forall q :: search(q).Success? ==> UniqueKeys(search(q).value, ProductIdKey)
    ensures var r := PerformEcoSearchById(query, maxPrice, minRating, vendorCity, expand, api);
            forall i, j :: 0 <= i < j < |r.products| ==> r.products[i].productId != r.products[j].productId
  {
    var search := FilteredSearch(maxPrice, minRating, vendorCity, api);
    var original := search(query).value;
    var comps := Take(expand(query).value.components, MAX_SEARCHED);
    MergeKeepsKeysUnique(StartPool(original), comps, search, ProductIdKey);
    var pool := Merge(StartPool(original), comps, search, ProductIdKey).products;
    var sorted := Sorting.SortBy(pool, PriceKey);
    forall i, j | 0 <= i < j < |sorted|
      ensures sorted[i].productId != sorted[j].productId
    {
      SortedKeysUnique(pool, sorted, i, j);
    }
  }

  /** Without repeated ids, every record occurs once. */
  lemma {:induction false} OccursOnce(pool: seq<Listing>, x: Listing)
    requires UniqueKeys(pool, ProductIdKey)
    requires x in pool
    ensures multiset(pool)[x] == 1
    decreases |pool|
  {
    assert pool == [pool[0]] + pool[1..];
    if x == pool[0] {
      forall k | 0 <= k < |pool[1..]|
        ensures pool[1..][k] != x
      {
        assert ProductIdKey(pool[0]) != ProductIdKey(pool[k + 1]);
      }
    } else {
      OccursOnce(pool[1..], x);
    }
  }

  lemma OccursTwice<T>(s: seq<T>, i: nat, j: nat)
    requires i < j < |s| && s[i] == s[j]
    ensures multiset(s)[s[i]] >= 2
  {
    assert s == s[..j] + [s[j]] + s[j + 1..];
    assert s[..j][i] == s[i];
  }

  /** Rearranging a sequence without repeated ids keeps it without repeated
      ids. */
  lemma SortedKeysUnique(pool: seq<Listing>, sorted: seq<Listing>, i: nat, j: nat)
    requires UniqueKeys(pool, ProductIdKey)
    requires multiset(sorted) == multiset(pool)
    requires i < j < |sorted|
    ensures sorted[i].productId != sorted[j].productId
  {
    assert sorted[i] in multiset(pool) && sorted[j] in multiset(pool);
    var a :| 0 <= a < |pool| && pool[a] == sorted[i];
    var b :| 0 <= b < |pool| && pool[b] == sorted[j];
    if a < b {
      assert ProductIdKey(pool[a]) != ProductIdKey(pool[b]);
    } else if b < a {
      assert ProductIdKey(pool[b]) != ProductIdKey(pool[a]);
    } else {
      OccursTwice(sorted, i, j);
      OccursOnce(pool, sorted[i]);
      assert false;
    }
  }

  /** Components after the fifth are reported but never searched: two
      expansions that agree on the first five give the same pool. */
  lemma OnlyFirstFiveSearched<K>(query: string, e1: string -> Result<Expansion, string>,
                                     e2: string -> Result<Expansion, string>, search: Search, key: Listing -> K)
    requires e1(query).Success? && e2(query).Success? && search(query).Success?
    requires Take(e1(query).value.components, MAX_SEARCHED) == Take(e2(query).value.components, MAX_SEARCHED)
    ensures var r1 := Aggregate(query, e1, search, key);
            var r2 := Aggregate(query, e2, search, key);
            && r1.products == r2.products && r1.totalProducts == r2.totalProducts
            && r1.searchResults == r2.searchResults
            && r1.expandedComponents == e1(query).value.components
  {
  }
}

=== FILE: catalog.dfy ===
/** The product catalog of database/product_store.py: one SQLite table
    `products` keyed by an internal `id`, with a UNIQUE `product_id` column
    (the marketplace's own identifier).

    The table is a sequence of rows in rowid order. SQLite itself, uuid
    generation and the clock are outside the model: the fresh id and the
    current time are parameters of every write, and JSON encoding of the three
    structured columns is taken to be exact, so those cells hold the encoded
    value itself. */
module Catalog {

  import opened Wrappers
  import opened Values
  import opened Text
  import opened Seqs
  import Sorting

  /** One row of `products`. `J` is the type of the three JSON text columns
      (specifications, reviews, additional_images). */
  datatype Entry<J> = Entry(
    id: string,
    productId: Value,
    name: Value,
    price: Value,
    imageUrl: Value,
    rating: Value,
    ratingCount: Value,
    vendorName: Value,
    vendorCity: Value,
    link: Value,
    description: Value,
    specifications: J,
    reviews: J,
    additionalImages: J,
    searchQuery: string,
    createdAt: int,
    updatedAt: int)

  /** A stored row: a JSON cell holds the value it encodes, or None when the
      cell is empty text or NULL. */
  type Row = Entry<Option<Value>>

  /** A row as the read operations return it, JSON cells decoded. */
  type Product = Entry<Value>

  type Table = seq<Row>

  datatype Saved = Saved(table: Table, id: string)

  /** The two uniqueness constraints of the schema: the primary key `id`,
      and `product_id`, under which NULLs never collide. */
  predicate Distinct(a: Row, b: Row) {
    a.id != b.id && (a.productId == Null || a.productId != b.productId)
  }

  ghost predicate WellFormed(t: Table) {
    forall i, j :: 0 <= i < j < |t| ==> Distinct(t[i], t[j])
  }

  // ---------------------------------------------------------------------
  // Parameter binding

  const INT64_MIN: int := -0x8000_0000_0000_0000
  const INT64_LIMIT: int := 0x8000_0000_0000_0000
  const UNSUPPORTED_TYPE: string := "Error binding parameter: type is not supported"
  const INT_TOO_LARGE: string := "Python int too large to convert to SQLite INTEGER"

  /** The error sqlite3 raises when binding `v` as a statement parameter. */
  function BindError(v: Value): Option<string> {
    match v
    case List(_) => Some(UNSUPPORTED_TYPE)
    case Dict(_) => Some(UNSUPPORTED_TYPE)
    case Int(i) => if INT64_MIN <= i < INT64_LIMIT then None else Some(INT_TOO_LARGE)
    case _ => None
  }

  /** Parameters are bound left to right; the first failure is raised. */
  function FirstBindError(params: seq<Value>): (r: Option<string>)
    ensures r.None? <==> forall i :: 0 <= i < |params| ==> BindError(params[i]).None?
    decreases |params|
  {
    if |params| == 0 then None
    else if BindError(params[0]).Some? then BindError(params[0])
    else FirstBindError(params[1..])
  }

  /** The scalar columns the statements bind (the JSON columns and the
      timestamps are text). */
  function ScalarParams(r: Row): seq<Value> {
    [r.productId, r.name, r.price, r.imageUrl, r.rating, r.ratingCount,
     r.vendorName, r.vendorCity, r.link, r.description]
  }

  // ---------------------------------------------------------------------
  // Writes

  /** The row `save_product` writes: every column read from the input
      dictionary with its default, the image column from the `image` key. */
  function NewRow(data: Record, searchQuery: string, id: string, now: int): (r: Row)
    ensures r.id == id && r.searchQuery == searchQuery && r.createdAt == now && r.updatedAt == now
    ensures "image" in data ==> r.imageUrl == data["image"]
    ensures "image" !in data ==> r.imageUrl == Str("")
    ensures "product_id" !in data ==> r.productId == Str("")
    ensures "price" !in data ==> r.price == Int(0)
    ensures r.specifications.Some? && r.reviews.Some? && r.additionalImages.Some?
    ensures "specifications" !in data ==> r.specifications == Some(Dict(map[]))
  {
    Entry(
      id,
      Get(data, "product_id", Str("")),
      Get(data, "name", Str("")),
      Get(data, "price", Int(0)),
      Get(data, "image", Str("")),
      Get(data, "rating", Real(0.0)),
      Get(data, "rating_count", Int(0)),
      Get(data, "vendor_name", Str("")),
      Get(data, "vendor_city", Str("")),
      Get(data, "link", Str("")),
      Get(data, "description", Str("")),
      Some(Get(data, "specifications", Dict(map[]))),
      Some(Get(data, "reviews", List([]))),
      Some(Get(data, "additional_images", List([]))),
      searchQuery,
      now,
      now)
  }

  /** The rows INSERT OR REPLACE deletes before inserting `row`: those equal
      to it on the primary key or on a non-NULL product_id. */
  predicate Conflicts(prior: Row, row: Row) {
    prior.id == row.id || (row.productId != Null && prior.productId == row.productId)
  }

  /** ProductStore.save_product. INSERT OR REPLACE never raises an integrity
      error here: a row with the same product_id is deleted and the new row,
      under the freshly generated id, is inserted in its place. */
  function Save(t: Table, data: Record, searchQuery: string, freshId: string, now: int): (r: Result<Saved, string>)
    ensures r.Success? <==> FirstBindError(ScalarParams(NewRow(data, searchQuery, freshId, now))).None?
    ensures r.Success? ==> r.value.id == freshId
    ensures r.Success? ==> |r.value.table| >= 1 && r.value.table[|r.value.table| - 1].id == freshId
    ensures r.Success? ==> forall i :: 0 <= i < |r.value.table| - 1 ==> r.value.table[i] in t
  {
    var row := NewRow(data, searchQuery, freshId, now);
    match FirstBindError(ScalarParams(row))
    case Some(e) => Failure(e)
    case None => Success(Saved(Filter(t, (x: Row) => !Conflicts(x, row)) + [row], freshId))
  }

  /** The rows the UPDATE of the fallback branch touches: `product_id = ?`
      is never true for NULL. */
  predicate UpdateMatches(r: Row, productId: Value) {
    productId != Null && r.productId == productId
  }

  /** `prior` with every column the UPDATE sets taken from `row`. */
  function Overwrite(prior: Row, row: Row): Row {
    row.(id := prior.id, productId := prior.productId, createdAt := prior.createdAt)
  }

  function FirstWithProductId(t: Table, productId: Value): (r: Option<Row>)
    ensures r.Some? ==> r.value in t && UpdateMatches(r.value, productId)
    ensures r.None? ==> forall i :: 0 <= i < |t| ==> !UpdateMatches(t[i], productId)
    decreases |t|
  {
    if |t| == 0 then None
    else if UpdateMatches(t[0], productId) then Some(t[0])
    else FirstWithProductId(t[1..], productId)
  }

  /** The `except IntegrityError` branch of save_product (unreachable behind
      INSERT OR REPLACE): update the row carrying the input's product_id in
      place and return its id, or the fresh id when there is none. */
  function UpdateBranch(t: Table, data: Record, searchQuery: string, freshId: string, now: int): (r: Result<Saved, string>)
    ensures r.Success? ==> |r.value.table| == |t|
    ensures r.Success? ==> forall i :: 0 <= i < |t| && !UpdateMatches(t[i], Get(data, "product_id", Str(""))) ==>
                              r.value.table[i] == t[i]
  {
    var row := NewRow(data, searchQuery, freshId, now);
    match FirstBindError(ScalarParams(row))
    case Some(e) => Failure(e)
    case None =>
      var t' := seq(|t|, i requires 0 <= i < |t| =>
                  if UpdateMatches(t[i], row.productId) then Overwrite(t[i], row) else t[i]);
      var id := match FirstWithProductId(t', row.productId)
                case Some(x) => x.id
                case None => freshId;
      Success(Saved(t', id))
  }

  /** ProductStore.delete_product: true iff some row had the id. */
  function Delete(t: Table, id: string): (r: (Table, bool))
    ensures r.1 <==> exists i :: 0 <= i < |t| && t[i].id == id
    ensures forall i :: 0 <= i < |r.0| ==> r.0[i] in t && r.0[i].id != id
    ensures forall i :: 0 <= i < |t| && t[i].id != id ==> t[i] in r.0
  {
    var kept := Filter(t, (x: Row) => x.id != id);
    (kept, exists i :: 0 <= i < |t| && t[i].id == id)
  }

  // ---------------------------------------------------------------------
  // Reads

  /** `json.loads(text) if text else default` for each JSON column: an empty
      or NULL cell reads as `{}` for the specifications and `[]` for the
      reviews and the additional images; every other column is the row's. */
  function Decode(r: Row): (p: Product)
    ensures p.id == r.id && p.productId == r.productId && p.name == r.name && p.price == r.price
    ensures p.imageUrl == r.imageUrl && p.rating == r.rating && p.ratingCount == r.ratingCount
    ensures p.vendorName == r.vendorName && p.vendorCity == r.vendorCity && p.link == r.link
    ensures p.description == r.description && p.searchQuery == r.searchQuery
    ensures p.createdAt == r.createdAt && p.updatedAt == r.updatedAt
    ensures r.specifications.None? ==> p.specifications == Dict(map[])
    ensures r.specifications.Some? ==> p.specifications == r.specifications.value
    ensures r.reviews.None? ==> p.reviews == List([])
    ensures r.reviews.Some? ==> p.reviews == r.reviews.value
    ensures r.additionalImages.None? ==> p.additionalImages == List([])
    ensures r.additionalImages.Some? ==> p.additionalImages == r.additionalImages.value
  {
    Entry(r.id, r.productId, r.name, r.price, r.imageUrl, r.rating, r.ratingCount,
          r.vendorName, r.vendorCity, r.link, r.description,
          r.specifications.GetOr(Dict(map[])),
          r.reviews.GetOr(List([])),
          r.additionalImages.GetOr(List([])),
          r.searchQuery, r.createdAt, r.updatedAt)
  }

  function DecodeAll(rows: seq<Row>): (ps: seq<Product>)
    ensures |ps| == |rows|
    ensures forall i :: 0 <= i < |rows| ==> ps[i] == Decode(rows[i])
  {
    seq(|rows|, i requires 0 <= i < |rows| => Decode(rows[i]))
  }

  function FindById(t: Table, id: string): (r: Option<Row>)
    ensures r.Some? ==> r.value in t && r.value.id == id
    ensures r.Some? ==> exists i :: 0 <= i < |t| && t[i] == r.value && forall j :: 0 <= j < i ==> t[j].id != id
    ensures r.None? <==> forall i :: 0 <= i < |t| ==> t[i].id != id
    decreases |t|
  {
    if |t| == 0 then None
    else if t[0].id == id then Some(t[0])
    else FindById(t[1..], id)
  }

  /** ProductStore.get_product: the decoded row carrying the id (the first
      such row, though a well-formed table has only one), or nothing. */
  function GetProduct(t: Table, id: string): (r: Option<Product>)
    ensures r.None? <==> forall i :: 0 <= i < |t| ==> t[i].id != id
    ensures r.Some? ==> r.value.id == id
    ensures r.Some? ==> exists i :: 0 <= i < |t| && t[i].id == id && r.value == Decode(t[i]) &&
                          forall j :: 0 <= j < i ==> t[j].id != id
  {
    match FindById(t, id)
    case Some(row) => Some(Decode(row))
    case None => None
  }

  /** The sort key of `ORDER BY created_at DESC`. SQLite leaves the order of
      equal timestamps open; the model keeps them in rowid order. */
  function NewerFirst(r: Row): int {
    -r.createdAt
  }

  ghost predicate NewestFirst(rows: seq<Row>) {
    forall i, j :: 0 <= i < j < |rows| ==> rows[i].createdAt >= rows[j].createdAt
  }

  /** The rows of `t` satisfying `p`, newest first. */
  function Select(t: Table, p: Row -> bool): (r: seq<Row>)
    ensures NewestFirst(r)
    ensures forall i :: 0 <= i < |r| ==> r[i] in t && p(r[i])
    ensures forall i :: 0 <= i < |t| && p(t[i]) ==> t[i] in r
    ensures multiset(r) == multiset(Filter(t, p))
  {
    var kept := Filter(t, p);
    var r := Sorting.SortBy(kept, NewerFirst);
    forall i | 0 <= i < |r|
      ensures r[i] in kept
    {
      assert r[i] in multiset(r);
    }
    forall i | 0 <= i < |kept|
      ensures kept[i] in r
    {
      assert kept[i] in multiset(kept);
    }
    r
  }

  /** `WHERE search_query = ?`. */
  function SavedUnder(searchQuery: string): Row -> bool {
    (x: Row) => x.searchQuery == searchQuery
  }

  /** ProductStore.get_products_by_search, on rows: each row saved under the
      query, as often as the table holds it, newest first. */
  function RowsBySearch(t: Table, searchQuery: string): (r: seq<Row>)
    ensures NewestFirst(r)
    ensures forall i :: 0 <= i < |r| ==> r[i] in t && r[i].searchQuery == searchQuery
    ensures forall i :: 0 <= i < |t| && t[i].searchQuery == searchQuery ==> t[i] in r
    ensures multiset(r) == multiset(Filter(t, SavedUnder(searchQuery)))
    ensures forall x :: multiset(r)[x] == if x.searchQuery == searchQuery then multiset(t)[x] else 0
  {
    FilterCounts(t, SavedUnder(searchQuery));
    Select(t, SavedUnder(searchQuery))
  }

  /** ProductStore.get_products_by_search: the decoded rows saved under the
      query, newest first. */
  function GetProductsBySearch(t: Table, searchQuery: string): (ps: seq<Product>)
    ensures |ps| == |RowsBySearch(t, searchQuery)|
    ensures forall i :: 0 <= i < |ps| ==> ps[i] == Decode(RowsBySearch(t, searchQuery)[i])
    ensures forall i :: 0 <= i < |ps| ==> exists row :: row in t && row.searchQuery == searchQuery && ps[i] == Decode(row)
    ensures forall i :: 0 <= i < |t| && t[i].searchQuery == searchQuery ==> Decode(t[i]) in ps
    ensures forall i, j :: 0 <= i < j < |ps| ==> ps[i].createdAt >= ps[j].createdAt
  {
    DecodeAll(RowsBySearch(t, searchQuery))
  }

  /** ProductStore.get_all_products, on rows: the `limit` newest rows. A
      negative `LIMIT` is no limit in SQLite, so it gives every row. */
  function RecentRows(t: Table, limit: int): (r: seq<Row>)
    ensures |r| == if 0 <= limit < |t| then limit else |t|
    ensures NewestFirst(r)
    ensures forall i :: 0 <= i < |r| ==> r[i] in t
    ensures forall i, j :: 0 <= i < |t| && 0 <= j < |r| && t[i] !in r ==> t[i].createdAt <= r[j].createdAt
    ensures multiset(r) <= multiset(t)
  {
    var n: nat := if limit < 0 then |t| else limit;
    var r := Take(Select(t, AnyRow), n);
    RecentRowsAreNewest(t, n, r);
    r
  }

  predicate AnyRow(x: Row) {
    true
  }

  lemma RecentRowsAreNewest(t: Table, limit: nat, r: seq<Row>)
    requires r == Take(Select(t, AnyRow), limit)
    ensures |r| == if limit < |t| then limit else |t|
    ensures NewestFirst(r)
    ensures forall i :: 0 <= i < |r| ==> r[i] in t
    ensures forall i, j :: 0 <= i < |t| && 0 <= j < |r| && t[i] !in r ==> t[i].createdAt <= r[j].createdAt
    ensures multiset(r) <= multiset(t)
  {
    var all := Select(t, AnyRow);
    PrefixWithin(all, limit);
    FilterAllPass(t, AnyRow);
    assert multiset(all) == multiset(t);
    assert |all| == |multiset(all)| == |multiset(t)| == |t|;
    forall i | 0 <= i < |r|
      ensures r[i] == all[i]
    {
    }
    PrefixOfNewest(all, t, limit);
  }

  lemma {:induction false} PrefixWithin(all: seq<Row>, n: nat)
    ensures multiset(Take(all, n)) <= multiset(all)
  {
    var r := Take(all, n);
    assert all == r + all[|r|..];
  }

  /** A prefix of a newest-first arrangement of `t` holds rows at least as
      new as every row of `t` it leaves out. */
  lemma PrefixOfNewest(all: seq<Row>, t: Table, n: nat)
    requires NewestFirst(all) && multiset(all) == multiset(t)
    ensures forall i, j :: 0 <= i < |t| && 0 <= j < |Take(all, n)| && t[i] !in Take(all, n) ==>
              t[i].createdAt <= Take(all, n)[j].createdAt
  {
    var r := Take(all, n);
    forall i, j | 0 <= i < |t| && 0 <= j < |r| && t[i] !in r
      ensures t[i].createdAt <= r[j].createdAt
    {
      assert t[i] in multiset(all);
      var k :| 0 <= k < |all| && all[k] == t[i];
      assert k >= |r|;
    }
  }

  /** ProductStore.get_all_products: the `limit` newest rows decoded, newest
      first; every row left out is no newer than any row returned. */
  function GetAllProducts(t: Table, limit: int): (ps: seq<Product>)
    ensures |ps| == if 0 <= limit < |t| then limit else |t|
    ensures |ps| == |RecentRows(t, limit)|
    ensures forall i :: 0 <= i < |ps| ==> ps[i] == Decode(RecentRows(t, limit)[i])
    ensures forall i :: 0 <= i < |ps| ==> exists row :: row in t && ps[i] == Decode(row)
    ensures forall i, j :: 0 <= i < j < |ps| ==> ps[i].createdAt >= ps[j].createdAt
    ensures forall i, j :: 0 <= i < |t| && 0 <= j < |ps| && Decode(t[i]) !in ps ==> t[i].createdAt <= ps[j].createdAt
  {
    var r := RecentRows(t, limit);
    var ps := DecodeAll(r);
    DecodedRecent(t, limit, r, ps);
    ps
  }

  lemma {:induction false} DecodedRecent(t: Table, limit: int, r: seq<Row>, ps: seq<Product>)
    requires r == RecentRows(t, limit) && ps == DecodeAll(r)
    ensures forall i :: 0 <= i < |ps| ==> exists row :: row in t && ps[i] == Decode(row)
    ensures forall i, j :: 0 <= i < j < |ps| ==> ps[i].createdAt >= ps[j].createdAt
    ensures forall i, j :: 0 <= i < |t| && 0 <= j < |ps| && Decode(t[i]) !in ps ==> t[i].createdAt <= ps[j].createdAt
  {
    forall i | 0 <= i < |ps|
      ensures r[i] in t && ps[i] == Decode(r[i])
    {
    }
    forall i | 0 <= i < |t| && t[i] in r
      ensures Decode(t[i]) in ps
    {
      var k :| 0 <= k < |r| && r[k] == t[i];
      assert ps[k] == Decode(t[i]);
    }
  }

  /** `column LIKE '%query%'`: a text cell containing the query, ignoring
      the case of ASCII letters. */
  predicate Like(cell: Value, query: string) {
    cell.Str? && Contains(Lower(cell.s), Lower(query))
  }

  predicate NameOrDescriptionLike(r: Row, query: string) {
    Like(r.name, query) || Like(r.description, query)
  }

  /** `WHERE name LIKE ? OR description LIKE ?`. */
  function Mentions(query: string): Row -> bool {
    (x: Row) => NameOrDescriptionLike(x, query)
  }

  /** ProductStore.search_stored_products, on rows: each row whose name or
      description contains the query, as often as the table holds it,
      newest first. */
  function RowsMatching(t: Table, query: string): (r: seq<Row>)
    ensures NewestFirst(r)
    ensures forall i :: 0 <= i < |r| ==> r[i] in t && NameOrDescriptionLike(r[i], query)
    ensures forall i :: 0 <= i < |t| && NameOrDescriptionLike(t[i], query) ==> t[i] in r
    ensures multiset(r) == multiset(Filter(t, Mentions(query)))
    ensures forall x :: multiset(r)[x] == if NameOrDescriptionLike(x, query) then multiset(t)[x] else 0
  {
    FilterCounts(t, Mentions(query));
    Select(t, Mentions(query))
  }

  /** ProductStore.search_stored_products: the decoded rows whose name or
      description contains the query, newest first. */
  function SearchStoredProducts(t: Table, query: string): (ps: seq<Product>)
    ensures |ps| == |RowsMatching(t, query)|
    ensures forall i :: 0 <= i < |ps| ==> ps[i] == Decode(RowsMatching(t, query)[i])
    ensures forall i :: 0 <= i < |ps| ==> exists row :: row in t && NameOrDescriptionLike(row, query) && ps[i] == Decode(row)
    ensures forall i :: 0 <= i < |t| && NameOrDescriptionLike(t[i], query) ==> Decode(t[i]) in ps
    ensures forall i, j :: 0 <= i < j < |ps| ==> ps[i].createdAt >= ps[j].createdAt
  {
    DecodeAll(RowsMatching(t, query))
  }

  // ---------------------------------------------------------------------
  // Properties of the writes

  /** A successful save appends the new row under the fresh id, stamped
      created = updated = now, and reading that id back gives every column
      of the input dictionary, or its default when the key is absent. */
  lemma SaveRoundTrip(t: Table, data: Record, searchQuery: string, freshId: string, now: int)
    requires Save(t, data, searchQuery, freshId, now).Success?
    ensures var s := Save(t, data, searchQuery, freshId, now).value;
            var p := GetProduct(s.table, freshId);
            && p.Some?
            && p.value.createdAt == now && p.value.updatedAt == now
            && p.value.searchQuery == searchQuery
            && p.value.productId == Get(data, "product_id", Str(""))
            && p.value.name == Get(data, "name", Str(""))
            && p.value.price == Get(data, "price", Int(0))
            && p.value.imageUrl == Get(data, "image", Str(""))
            && p.value.rating == Get(data, "rating", Real(0.0))
            && p.value.ratingCount == Get(data, "rating_count", Int(0))
            && p.value.vendorName == Get(data, "vendor_name", Str(""))
            && p.value.vendorCity == Get(data, "vendor_city", Str(""))
            && p.value.link == Get(data, "link", Str(""))
            && p.value.description == Get(data, "description", Str(""))
            && p.value.specifications == Get(data, "specifications", Dict(map[]))
            && p.value.reviews == Get(data, "reviews", List([]))
            && p.value.additionalImages == Get(data, "additional_images", List([]))
  {
    var row := NewRow(data, searchQuery, freshId, now);
    var kept := Filter(t, (x: Row) => !Conflicts(x, row));
    var t' := kept + [row];
    assert forall i :: 0 <= i < |kept| ==> kept[i].id != freshId;
    FindLast(kept, row);
  }

  lemma {:induction false} FindLast(kept: Table, row: Row)
    requires forall i :: 0 <= i < |kept| ==> kept[i].id != row.id
    ensures FindById(kept + [row], row.id) == Some(row)
    decreases |kept|
  {
    if |kept| > 0 {
      assert (kept + [row])[1..] == kept[1..] + [row];
      FindLast(kept[1..], row);
    }
  }

  /** Saving keeps both uniqueness constraints, whatever the fresh id. */
  lemma SaveKeepsWellFormed(t: Table, data: Record, searchQuery: string, freshId: string, now: int)
    requires WellFormed(t)
    requires Save(t, data, searchQuery, freshId, now).Success?
    ensures WellFormed(Save(t, data, searchQuery, freshId, now).value.table)
  {
    var row := NewRow(data, searchQuery, freshId, now);
    var p := (x: Row) => !Conflicts(x, row);
    var kept := Filter(t, p);
    FilterPairwise(t, p, Distinct);
    forall i | 0 <= i < |kept|
      ensures Distinct(kept[i], row)
    {
      assert p(kept[i]);
    }
  }

  /** A save for a product that is already stored deletes its row: the prior
      internal id and creation time are gone, and the one row now carrying
      that product_id is the new one. */
  lemma SaveReplacesExisting(t: Table, data: Record, searchQuery: string, freshId: string, now: int, prior: Row)
    requires WellFormed(t)
    requires prior in t && prior.productId != Null
    requires prior.id != freshId
    requires prior.productId == Get(data, "product_id", Str(""))
    requires Save(t, data, searchQuery, freshId, now).Success?
    ensures var t' := Save(t, data, searchQuery, freshId, now).value.table;
            && prior !in t'
            && FindById(t', prior.id).None?
            && forall i :: 0 <= i < |t'| && t'[i].productId == prior.productId ==>
                 t'[i] == NewRow(data, searchQuery, freshId, now)
  {
    var row := NewRow(data, searchQuery, freshId, now);
    var kept := Filter(t, (x: Row) => !Conflicts(x, row));
    var t' := kept + [row];
    forall i | 0 <= i < |kept|
      ensures kept[i].id != prior.id && kept[i].productId != prior.productId
    {
      assert kept[i] in t && !Conflicts(kept[i], row);
      var a :| 0 <= a < |t| && t[a] == kept[i];
      var b :| 0 <= b < |t| && t[b] == prior;
      if a != b {
        if a < b { assert Distinct(t[a], t[b]); } else { assert Distinct(t[b], t[a]); }
      }
    }
  }

  /** Rows that clash with neither the fresh id nor a non-NULL product_id
      survive a save unchanged; a save whose product_id is NULL deletes
      nothing but an id clash. */
  lemma SaveKeepsOthers(t: Table, data: Record, searchQuery: string, freshId: string, now: int, x: Row)
    requires x in t
    requires !Conflicts(x, NewRow(data, searchQuery, freshId, now))
    requires Save(t, data, searchQuery, freshId, now).Success?
    ensures x in Save(t, data, searchQuery, freshId, now).value.table
  {
  }

  /** The default product_id '' is a value like any other: a second save
      without a product_id deletes the row the first one inserted. */
  lemma MissingProductIdsCollide(t: Table, a: Record, b: Record, q: string, id1: string, id2: string, now1: int, now2: int)
    requires "product_id" !in a && "product_id" !in b
    requires id1 != id2
    requires Save(t, a, q, id1, now1).Success?
    requires Save(Save(t, a, q, id1, now1).value.table, b, q, id2, now2).Success?
    ensures var t2 := Save(Save(t, a, q, id1, now1).value.table, b, q, id2, now2).value.table;
            FindById(t2, id1).None?
  {
    var t1 := Save(t, a, q, id1, now1).value.table;
    var t2 := Save(t1, b, q, id2, now2).value.table;
    var row2 := NewRow(b, q, id2, now2);
    var kept := Filter(t1, (x: Row) => !Conflicts(x, row2));
    assert t1[|t1| - 1].productId == Str("");
    forall x | x in t1 && x.id == id1
      ensures Conflicts(x, row2)
    {
      var k :| 0 <= k < |t1| && t1[k] == x;
      SaveIdIsUnique(t, a, q, id1, now1, k);
    }
    forall i | 0 <= i < |t2|
      ensures t2[i].id != id1
    {
      if i < |kept| {
        assert kept[i] in t1 && !Conflicts(kept[i], row2);
      }
    }
  }

  /** After a save the fresh id names only the appended row. */
  lemma SaveIdIsUnique(t: Table, data: Record, q: string, freshId: string, now: int, k: int)
    requires Save(t, data, q, freshId, now).Success?
    requires 0 <= k < |Save(t, data, q, freshId, now).value.table|
    requires Save(t, data, q, freshId, now).value.table[k].id == freshId
    ensures k == |Save(t, data, q, freshId, now).value.table| - 1
    ensures Save(t, data, q, freshId, now).value.table[k] == NewRow(data, q, freshId, now)
  {
  }

  /** The update branch keeps the internal id, creation time and product_id
      of the row it finds, overwrites every other column from the input
      (updated_at with the current time), leaves every other row as it was
      and returns that row's id. */
  lemma UpdateKeepsIdentity(t: Table, data: Record, searchQuery: string, freshId: string, now: int, k: int)
    requires WellFormed(t)
    requires 0 <= k < |t| && UpdateMatches(t[k], Get(data, "product_id", Str("")))
    requires UpdateBranch(t, data, searchQuery, freshId, now).Success?
    ensures var s := UpdateBranch(t, data, searchQuery, freshId, now).value;
            var row := NewRow(data, searchQuery, freshId, now);
            && s.id == t[k].id
            && s.table[k] == row.(id := t[k].id, productId := t[k].productId, createdAt := t[k].createdAt)
            && s.table[k].updatedAt == now && s.table[k].searchQuery == searchQuery
            && (forall i :: 0 <= i < |t| && i != k ==> s.table[i] == t[i])
  {
    var row := NewRow(data, searchQuery, freshId, now);
    var t' := UpdateBranch(t, data, searchQuery, freshId, now).value.table;
    FirstMatchIsUnique(t, t', row.productId, k);
  }

  lemma {:induction false} FirstMatchIsUnique(t: Table, t': Table, productId: Value, k: int)
    requires WellFormed(t)
    requires |t'| == |t| && 0 <= k < |t|
    requires UpdateMatches(t[k], productId)
    requires forall i :: 0 <= i < |t| ==> t'[i].id == t[i].id && t'[i].productId == t[i].productId
    ensures FirstWithProductId(t', productId) == Some(t'[k])
    decreases |t|
  {
    if k > 0 {
      assert Distinct(t[0], t[k]);
      assert !UpdateMatches(t'[0], productId);
      assert WellFormed(t[1..]) by {
        forall i, j | 0 <= i < j < |t[1..]|
          ensures Distinct(t[1..][i], t[1..][j])
        {
          assert Distinct(t[i + 1], t[j + 1]);
        }
      }
      FirstMatchIsUnique(t[1..], t'[1..], productId, k - 1);
    }
  }

  lemma UpdateWithoutMatch(t: Table, data: Record, searchQuery: string, freshId: string, now: int)
    requires forall i :: 0 <= i < |t| ==> !UpdateMatches(t[i], Get(data, "product_id", Str("")))
    requires UpdateBranch(t, data, searchQuery, freshId, now).Success?
    ensures UpdateBranch(t, data, searchQuery, freshId, now).value == Saved(t, freshId)
  {
    var t' := UpdateBranch(t, data, searchQuery, freshId, now).value.table;
    assert t' == t;
  }
}

=== FILE: chat.dfy ===
/** The deterministic parts of the chat loop in chat.py: storing the first
    search results together with their crawled details and reporting the
    stored ids, reading ids back out of messages, and the two display
    helpers whose content matters (the comparison price summary and the
    review excerpts). The page fetcher and the id and clock sources are
    parameters. */
module Chat {

  import opened Wrappers
  import opened Text
  import opened Values
  import ListingSearch
  import Crawler
  import ProductUrls
  import Catalog
  import ProductManager
  import IdScan
  import Seqs
  import ChatDisplay

  const MAX_STORED: nat := 5
  /** The text whose presence marks a save message. */
  const ID_MARK: string := "شناسه:"

  // ---- Reading the stored id out of the save message ----

  /** `s.split(sep)[1]`: the text between the first and the second
      occurrence of `sep`, or after the first when there is no second; None
      where Python raises IndexError because `sep` does not occur. */
  function SplitSecond(s: string, sep: string): (r: Option<string>)
    requires |sep| > 0
    ensures r.Some? <==> Contains(s, sep)
    ensures r.Some? ==> !Contains(r.value, sep)
    ensures r.Some? ==> var i := IndexOf(s, sep).value + |sep|;
                        && i + |r.value| <= |s| && s[i..i + |r.value|] == r.value
                        && (i + |r.value| == |s| || OccursAt(s, sep, i + |r.value|))
  {
    match IndexOf(s, sep)
    case None => None
    case Some(i) =>
      var rest := s[i + |sep|..];
      match IndexOf(rest, sep)
      case None => Some(rest)
      case Some(j) =>
        SecondPiece(s, sep, i + |sep|, j);
        Some(rest[..j])
  }

  /** The text after an occurrence up to the next one. */
  lemma SecondPiece(s: string, sep: string, b: nat, j: nat)
    requires |sep| > 0 && b <= |s|
    requires IndexOf(s[b..], sep) == Some(j)
    ensures !Contains(s[b..][..j], sep)
    ensures b + j <= |s| && s[b..b + j] == s[b..][..j] && OccursAt(s, sep, b + j)
  {
    var rest := s[b..];
    BeforeFirst(rest, sep, j);
    assert rest[j..j + |sep|] == s[b + j..b + j + |sep|];
  }

  lemma BeforeFirst(s: string, sep: string, j: nat)
    requires |sep| > 0 && j <= |s|
    requires forall k :: 0 <= k < j ==> !OccursAt(s, sep, k)
    ensures !Contains(s[..j], sep)
  {
    forall k | 0 <= k && k + |sep| <= j
      ensures !OccursAt(s[..j], sep, k)
    {
      assert s[..j][k..k + |sep|] == s[k..k + |sep|];
      assert !OccursAt(s, sep, k);
    }
  }

  /** The label with its space occurs only where the mark does. */
  lemma LabelHasMark(s: string)
    ensures Contains(s, ProductManager.ID_LABEL) ==> Contains(s, ID_MARK)
  {
    if Contains(s, ProductManager.ID_LABEL) {
      var i := IndexOf(s, ProductManager.ID_LABEL).value;
      assert s[i..i + |ID_MARK|] == ProductManager.ID_LABEL[..|ID_MARK|] == ID_MARK;
      ContainsAt(s, ID_MARK, i);
    }
  }

  datatype IdRead = NotSaved | Unreadable | ReadId(id: string)

  /** How a save message is read: not a save without the mark; an
      IndexError, caught and the product skipped, when the label with its
      space is missing; otherwise the stripped text after the label. */
  function ReadSavedId(msg: string): (r: IdRead)
    ensures r == NotSaved <==> !Contains(msg, ID_MARK)
    ensures r.ReadId? <==> Contains(msg, ProductManager.ID_LABEL)
    ensures r.ReadId? ==> r.id == Strip(SplitSecond(msg, ProductManager.ID_LABEL).value)
  {
    LabelHasMark(msg);
    if !Contains(msg, ID_MARK) then NotSaved
    else match SplitSecond(msg, ProductManager.ID_LABEL)
      case None => Unreadable
      case Some(piece) => ReadId(Strip(piece))
  }

  /** The save message of a successful save gives back the id it reports. */
  lemma ReadSavedIdRoundTrip(id: string)
    requires !Contains(id, ProductManager.ID_LABEL)
    ensures ReadSavedId(ProductManager.SavedMessage(id)) == ReadId(Strip(id))
  {
    var s := ProductManager.SavedMessage(id);
    assert s == ProductManager.SAVED_PREFIX + ProductManager.ID_LABEL + id;
    LabelAfterPrefix(id);
  }

  /** The label first occurs right after the success text. */
  lemma LabelAfterPrefix(id: string)
    ensures var s := ProductManager.SAVED_PREFIX + ProductManager.ID_LABEL + id;
            var n := |ProductManager.SAVED_PREFIX| + |ProductManager.ID_LABEL|;
            IndexOf(s, ProductManager.ID_LABEL) == Some(|ProductManager.SAVED_PREFIX|) && s[n..] == id
  {
    var prefix := ProductManager.SAVED_PREFIX;
    var lab := ProductManager.ID_LABEL;
    var s := prefix + lab + id;
    var n := |prefix|;
    assert s[n..n + |lab|] == lab;
    assert 'ن' !in prefix;
    forall j | 0 <= j < n
      ensures !OccursAt(s, lab, j)
    {
      if j + |lab| <= |s| {
        if j + 1 < n {
          assert s[j + 1] == prefix[j + 1];
          assert prefix[j + 1] in prefix;
          assert s[j..j + |lab|][1] == s[j + 1];
        } else {
          assert s[j] == ' ';
          assert s[j..j + |lab|][0] == s[j];
        }
      }
    }
    assert OccursAt(s, lab, n);
    assert s[n + |lab|..] == id;
  }

  // ---- Storing the search results ----

  /** A cleaned search record as the dictionary the tool returns. The
      product id is kept as text. */
  function ListingRecord(l: ListingSearch.Listing): (d: Record)
    ensures "id" !in d && "description" !in d
    ensures "product_id" in d && d["product_id"] == OptStr(l.productId)
  {
    map[
      "name" := OptStr(l.name),
      "price" := Int(l.price),
      "image" := OptStr(l.image),
      "rating" := OptReal(l.rating),
      "rating_count" := OptInt(l.ratingCount),
      "vendor_name" := OptStr(l.vendorName),
      "vendor_city" := OptStr(l.vendorCity),
      "product_id" := OptStr(l.productId),
      "link" := Str(l.link)]
  }

  /** A successful crawl as the dictionary crawl_product_page returns. */
  function CrawlRecord(c: Crawler.Crawl): (d: Record)
    requires c.Crawled?
    ensures "error" !in d && "id" !in d && "product_id" !in d
    ensures "crawled_successfully" in d && d["crawled_successfully"] == Bool(true)
  {
    map[
      "url" := Str(c.url),
      "name" := Str(c.name),
      "price" := Int(c.price),
      "price_text" := Str(c.priceText),
      "description" := Str(c.description),
      "specifications" := StrDict(c.specifications),
      "additional_images" := StrList(c.additionalImages),
      "reviews" := StrList(c.reviews),
      "rating" := Real(c.rating),
      "vendor_name" := Str(c.vendorName),
      "crawled_successfully" := Bool(true)]
  }

  /** `{**product, **detailed_info, 'basalam_id': ..., 'search_query': ...}`:
      a later source wins on a shared key. */
  function Enhance(l: ListingSearch.Listing, c: Crawler.Crawl, q: string): (d: Record)
    requires c.Crawled?
    ensures "basalam_id" in d && d["basalam_id"] == OptStr(l.productId)
    ensures "search_query" in d && d["search_query"] == Str(q)
  {
    ListingRecord(l) + CrawlRecord(c) + map["basalam_id" := OptStr(l.productId), "search_query" := Str(q)]
  }

  /** The columns the catalog reads from the merged record that the crawl
      supplies: its name, price, rating, description and vendor name (even
      an empty one) override the search's. */
  lemma EnhancedCrawlColumns(l: ListingSearch.Listing, c: Crawler.Crawl, q: string)
    requires c.Crawled?
    ensures var d := Enhance(l, c, q);
            && Get(d, "name", Str("")) == Str(c.name)
            && Get(d, "price", Int(0)) == Int(c.price)
            && Get(d, "rating", Real(0.0)) == Real(c.rating)
            && Get(d, "vendor_name", Str("")) == Str(c.vendorName)
  {
    FromCrawl(l, c, q, "name", Str(""));
    FromCrawl(l, c, q, "price", Int(0));
    FromCrawl(l, c, q, "rating", Real(0.0));
    FromCrawl(l, c, q, "vendor_name", Str(""));
  }

  lemma EnhancedPageColumns(l: ListingSearch.Listing, c: Crawler.Crawl, q: string)
    requires c.Crawled?
    ensures var d := Enhance(l, c, q);
            && Get(d, "description", Str("")) == Str(c.description)
            && Get(d, "specifications", Dict(map[])) == StrDict(c.specifications)
            && Get(d, "reviews", List([])) == StrList(c.reviews)
            && Get(d, "additional_images", List([])) == StrList(c.additionalImages)
  {
    FromCrawl(l, c, q, "description", Str(""));
    FromCrawl(l, c, q, "specifications", Dict(map[]));
    FromCrawl(l, c, q, "reviews", List([]));
    FromCrawl(l, c, q, "additional_images", List([]));
  }

  lemma FromCrawl(l: ListingSearch.Listing, c: Crawler.Crawl, q: string, k: string, default: Value)
    requires c.Crawled? && k in CrawlRecord(c)
    requires k != "basalam_id" && k != "search_query"
    ensures Get(Enhance(l, c, q), k, default) == CrawlRecord(c)[k]
  {
  }

  lemma FromSearch(l: ListingSearch.Listing, c: Crawler.Crawl, q: string, k: string, default: Value)
    requires c.Crawled? && k in ListingRecord(l) && k !in CrawlRecord(c)
    requires k != "basalam_id" && k != "search_query"
    ensures Get(Enhance(l, c, q), k, default) == ListingRecord(l)[k]
  {
  }

  /** The columns the crawl does not supply come from the search: image,
      city, rating count, product id and the short link. */
  lemma EnhancedSearchColumns(l: ListingSearch.Listing, c: Crawler.Crawl, q: string)
    requires c.Crawled?
    ensures var d := Enhance(l, c, q);
            && Get(d, "image", Str("")) == OptStr(l.image)
            && Get(d, "vendor_city", Str("")) == OptStr(l.vendorCity)
            && Get(d, "rating_count", Int(0)) == OptInt(l.ratingCount)
            && Get(d, "product_id", Str("")) == OptStr(l.productId)
            && Get(d, "link", Str("")) == Str(l.link)
  {
    FromSearch(l, c, q, "image", Str(""));
    FromSearch(l, c, q, "vendor_city", Str(""));
    FromSearch(l, c, q, "rating_count", Int(0));
    FromSearch(l, c, q, "product_id", Str(""));
    FromSearch(l, c, q, "link", Str(""));
  }

  /** The state the loop threads: the database, the mapping it builds and
      the module-level `stored_products`. */
  datatype Store = Store(db: ProductManager.Db, mapping: map<Option<string>, string>, stored: map<string, Record>)

  /** Products without a link or a vendor name are skipped. */
  predicate Eligible(l: ListingSearch.Listing) {
    l.link != "" && ListingSearch.TextSet(l.vendorName)
  }

  function DetailUrl(l: ListingSearch.Listing): string
    requires Eligible(l)
  {
    ProductUrls.FixBasalamProductUrl(l.link, l.vendorName.value)
  }

  ghost predicate MappedAreStored(s: Store) {
    forall k :: k in s.mapping ==> s.mapping[k] in s.stored
  }

  /** One iteration of the loop. Only an eligible product whose crawl
      succeeded is saved, and only a readable save message adds a mapping
      entry; every other outcome leaves the state as it was, apart from the
      save itself. */
  function StoreOne(s: Store, l: ListingSearch.Listing, q: string, fetch: string -> Crawler.Fetch,
                    freshId: string, now: int): (r: Store)
    ensures !Eligible(l) ==> r == s
    ensures Eligible(l) && !Crawler.CrawlProductPage(DetailUrl(l), fetch).Crawled? ==> r == s
    ensures s.mapping.Keys <= r.mapping.Keys <= s.mapping.Keys + {l.productId}
    ensures |r.mapping| <= |s.mapping| + 1
    ensures s.stored.Keys <= r.stored.Keys
    ensures MappedAreStored(s) ==> MappedAreStored(r)
    ensures r.db.Success? <==> s.db.Success?
  {
    if !Eligible(l) then s
    else
      var c := Crawler.CrawlProductPage(DetailUrl(l), fetch);
      if !c.Crawled? then s else StoreCrawled(s, l, c, q, freshId, now)
  }

  /** The save of a crawled product and the reading of its message. */
  function StoreCrawled(s: Store, l: ListingSearch.Listing, c: Crawler.Crawl, q: string,
                        freshId: string, now: int): (r: Store)
    requires c.Crawled?
    ensures s.mapping.Keys <= r.mapping.Keys <= s.mapping.Keys + {l.productId}
    ensures |r.mapping| <= |s.mapping| + 1
    ensures s.stored.Keys <= r.stored.Keys
    ensures MappedAreStored(s) ==> MappedAreStored(r)
    ensures r.db.Success? <==> s.db.Success?
  {
    var enhanced := Enhance(l, c, q);
    var saved := ProductManager.SaveProductDetails(s.db, enhanced, q, freshId, now);
    match ReadSavedId(saved.1)
    case ReadId(id) => Store(saved.0, s.mapping[l.productId := id], s.stored[id := enhanced])
    case _ => s.(db := saved.0)
  }

  /** The product is eligible and the crawl of its page succeeded. */
  predicate CrawledOk(l: ListingSearch.Listing, fetch: string -> Crawler.Fetch) {
    Eligible(l) && Crawler.CrawlProductPage(DetailUrl(l), fetch).Crawled?
  }

  /** `key` is the product id of a product of `products`, at position `k`
      or later, whose page was crawled. */
  ghost predicate CrawledKey(products: seq<ListingSearch.Listing>, k: nat, fetch: string -> Crawler.Fetch, key: Option<string>) {
    exists i :: k <= i < |products| && CrawledOk(products[i], fetch) && products[i].productId == key
  }

  /** The loop over `products` from position `k` on: the product examined
      at position `i` is given the fresh id `ids(i)` and the time
      `clock(i)`, whether or not it is saved. */
  function StoreAll(s: Store, products: seq<ListingSearch.Listing>, q: string, fetch: string -> Crawler.Fetch,
                    ids: nat -> string, clock: nat -> int, k: nat): (r: Store)
    ensures |r.mapping| <= |s.mapping| + if k < |products| then |products| - k else 0
    ensures s.mapping.Keys <= r.mapping.Keys
    ensures forall key :: key in r.mapping ==> key in s.mapping || CrawledKey(products, k, fetch, key)
    ensures s.stored.Keys <= r.stored.Keys
    ensures MappedAreStored(s) ==> MappedAreStored(r)
    ensures r.db.Success? <==> s.db.Success?
    decreases |products| - k
  {
    if k >= |products| then s
    else
      var s1 := StoreOne(s, products[k], q, fetch, ids(k), clock(k));
      var r := StoreAll(s1, products, q, fetch, ids, clock, k + 1);
      forall key | key in r.mapping && key !in s.mapping
        ensures CrawledKey(products, k, fetch, key)
      {
        if key in s1.mapping {
          assert CrawledOk(products[k], fetch) && products[k].productId == key;
        }
      }
      r
  }

  /** process_and_store_products: at most five products are looked at, so
      at most five ids are reported; each reported key is the product id of
      one of them that was eligible and whose page was crawled, and each
      reported id has its merged record in `stored_products`. */
  function ProcessAndStore(db: ProductManager.Db, stored: map<string, Record>, products: seq<ListingSearch.Listing>,
                           q: string, fetch: string -> Crawler.Fetch, ids: nat -> string, clock: nat -> int): (r: Store)
    ensures |r.mapping| <= MAX_STORED
    ensures forall key :: key in r.mapping ==>
              exists i :: 0 <= i < |products| && i < MAX_STORED && CrawledOk(products[i], fetch) && products[i].productId == key
    ensures forall key :: key in r.mapping ==> r.mapping[key] in r.stored
    ensures stored.Keys <= r.stored.Keys
    ensures r.db.Success? <==> db.Success?
  {
    var first := Take(products, MAX_STORED);
    var r := StoreAll(Store(db, map[], stored), first, q, fetch, ids, clock, 0);
    forall key | key in r.mapping
      ensures exists i :: 0 <= i < |products| && i < MAX_STORED && CrawledOk(products[i], fetch) && products[i].productId == key
    {
      CrawledKeyTake(products, MAX_STORED, fetch, key);
    }
    r
  }

  lemma CrawledKeyTake(products: seq<ListingSearch.Listing>, n: nat, fetch: string -> Crawler.Fetch, key: Option<string>)
    requires CrawledKey(Take(products, n), 0, fetch, key)
    ensures exists i :: 0 <= i < |products| && i < n && CrawledOk(products[i], fetch) && products[i].productId == key
  {
    var first := Take(products, n);
    var i :| 0 <= i < |first| && CrawledOk(first[i], fetch) && first[i].productId == key;
    assert first[i] == products[i];
  }

  /** Whether sqlite3 accepts every value of the row saved for `d`; a save
      succeeds exactly when it does, whatever the table holds. */
  predicate SaveBinds(d: Record, q: string, freshId: string, now: int) {
    Catalog.FirstBindError(Catalog.ScalarParams(Catalog.NewRow(d, q, freshId, now))).None?
  }

  /** The product is eligible, its page was crawled, and the save of the
      merged record under the UUID `freshId` succeeds. */
  ghost predicate SavesOk(l: ListingSearch.Listing, fetch: string -> Crawler.Fetch, q: string, freshId: string, now: int) {
    CrawledOk(l, fetch) && IsUuidText(freshId)
    && SaveBinds(Enhance(l, Crawler.CrawlProductPage(DetailUrl(l), fetch), q), q, freshId, now)
  }

  /** The product at position `j`, at or after the loop's start `k`, is
      saved under `ids(j)` when its crawl succeeds and its row binds; its
      product id is then in the mapping the loop returns, whatever the later
      products do. */
  lemma {:induction false} StoreAllMapsSaved(s: Store, products: seq<ListingSearch.Listing>, q: string,
                                             fetch: string -> Crawler.Fetch, ids: nat -> string, clock: nat -> int,
                                             k: nat, j: nat)
    requires s.db.Success? && k <= j < |products| && SavesOk(products[j], fetch, q, ids(j), clock(j))
    ensures products[j].productId in StoreAll(s, products, q, fetch, ids, clock, k).mapping
    decreases j - k
  {
    var s1 := StoreOne(s, products[k], q, fetch, ids(k), clock(k));
    assert StoreAll(s, products, q, fetch, ids, clock, k) == StoreAll(s1, products, q, fetch, ids, clock, k + 1);
    if k == j {
      StoreOneMapsSaved(s, products[k], q, fetch, ids(k), clock(k));
    } else {
      StoreAllMapsSaved(s1, products, q, fetch, ids, clock, k + 1, j);
    }
  }

  lemma StoreOneMapsSaved(s: Store, l: ListingSearch.Listing, q: string, fetch: string -> Crawler.Fetch,
                          freshId: string, now: int)
    requires s.db.Success? && SavesOk(l, fetch, q, freshId, now)
    ensures StoreOne(s, l, q, fetch, freshId, now).mapping == s.mapping[l.productId := freshId]
  {
    var c := Crawler.CrawlProductPage(DetailUrl(l), fetch);
    assert StoreOne(s, l, q, fetch, freshId, now) == StoreCrawled(s, l, c, q, freshId, now);
    StoreCrawledSaved(s, l, c, q, freshId, now);
  }

  /** Each of the first five products that is eligible, crawled and saved
      is reported: its product id is a key of the returned mapping. */
  lemma ProcessAndStoreMapsSaved(db: ProductManager.Db, stored: map<string, Record>, products: seq<ListingSearch.Listing>,
                                 q: string, fetch: string -> Crawler.Fetch, ids: nat -> string, clock: nat -> int, i: nat)
    requires db.Success? && i < |products| && i < MAX_STORED && SavesOk(products[i], fetch, q, ids(i), clock(i))
    ensures products[i].productId in ProcessAndStore(db, stored, products, q, fetch, ids, clock).mapping
  {
    var first := Take(products, MAX_STORED);
    assert first[i] == products[i];
    StoreAllMapsSaved(Store(db, map[], stored), first, q, fetch, ids, clock, 0, i);
  }

  /** A UUID as `str(uuid.uuid4())` writes it. */
  ghost predicate IsUuidText(id: string) {
    |id| == IdScan.ID_LENGTH && IdScan.AllIdChars(id)
  }

  lemma UuidPlain(id: string)
    requires IsUuidText(id)
    ensures !Contains(id, ProductManager.ID_LABEL) && Strip(id) == id
  {
    var lab := ProductManager.ID_LABEL;
    forall i | 0 <= i && i + |lab| <= |id|
      ensures !OccursAt(id, lab, i)
    {
      assert id[i..i + |lab|][0] == id[i];
    }
    StripUnchanged(id);
  }

  /** A save that succeeds under a UUID adds the mapping entry and the
      stored record for that id. */
  lemma StoreCrawledSaved(s: Store, l: ListingSearch.Listing, c: Crawler.Crawl, q: string,
                          freshId: string, now: int)
    requires c.Crawled? && s.db.Success? && IsUuidText(freshId)
    requires Catalog.Save(s.db.value, Enhance(l, c, q), q, freshId, now).Success?
    ensures StoreCrawled(s, l, c, q, freshId, now)
            == Store(Success(Catalog.Save(s.db.value, Enhance(l, c, q), q, freshId, now).value.table),
                     s.mapping[l.productId := freshId], s.stored[freshId := Enhance(l, c, q)])
  {
    SavedIdRead(s.db, Enhance(l, c, q), q, freshId, now);
  }

  /** The message of a successful save under a UUID reads back that UUID. */
  lemma SavedIdRead(db: ProductManager.Db, d: Record, q: string, freshId: string, now: int)
    requires db.Success? && IsUuidText(freshId)
    requires Catalog.Save(db.value, d, q, freshId, now).Success?
    ensures ReadSavedId(ProductManager.SaveProductDetails(db, d, q, freshId, now).1) == ReadId(freshId)
  {
    var saved := ProductManager.SaveProductDetails(db, d, q, freshId, now);
    assert saved.1 == ProductManager.SavedMessage(freshId);
    UuidPlain(freshId);
    ReadSavedIdRoundTrip(freshId);
  }

  /** A product saved in one iteration is reported under its product id
      with the fresh id, and that id reads the product back from the
      catalog with the crawled name, price and vendor and the search's
      product id, link and query. */
  lemma StoredIdReadsBack(s: Store, l: ListingSearch.Listing, q: string, fetch: string -> Crawler.Fetch,
                          freshId: string, now: int)
    requires s.db.Success? && Eligible(l) && IsUuidText(freshId)
    requires Crawler.CrawlProductPage(DetailUrl(l), fetch).Crawled?
    requires Catalog.Save(s.db.value, Enhance(l, Crawler.CrawlProductPage(DetailUrl(l), fetch), q), q, freshId, now).Success?
    ensures var c := Crawler.CrawlProductPage(DetailUrl(l), fetch);
            var r := StoreOne(s, l, q, fetch, freshId, now);
            && r.mapping == s.mapping[l.productId := freshId]
            && r.stored == s.stored[freshId := Enhance(l, c, q)]
            && r.db.Success?
            && var p := Catalog.GetProduct(r.db.value, freshId);
               && p.Some?
               && p.value.name == Str(c.name) && p.value.price == Int(c.price)
               && p.value.vendorName == Str(c.vendorName)
               && p.value.productId == OptStr(l.productId) && p.value.link == Str(l.link)
               && p.value.searchQuery == q
  {
    var c := Crawler.CrawlProductPage(DetailUrl(l), fetch);
    var d := Enhance(l, c, q);
    assert StoreOne(s, l, q, fetch, freshId, now) == StoreCrawled(s, l, c, q, freshId, now);
    StoreCrawledSaved(s, l, c, q, freshId, now);
    EnhancedCrawlColumns(l, c, q);
    EnhancedSearchColumns(l, c, q);
    Catalog.SaveRoundTrip(s.db.value, d, q, freshId, now);
  }

  /** The save tool's reply holds exactly one identifier-shaped run, the
      stored id, so an identifier scan of it finds that id and nothing
      else. */
  lemma SavedMessageShowsOneId(id: string)
    requires IsUuidText(id)
    ensures IdScan.FindIds(ProductManager.SavedMessage(id)) == [id]
  {
    var head := ProductManager.SAVED_PREFIX + ID_MARK;
    assert ProductManager.ID_LABEL == ID_MARK + [' '];
    assert ProductManager.SavedMessage(id) == head + [' '] + id;
    assert |head| < IdScan.ID_LENGTH;
    assert id[..IdScan.ID_LENGTH] == id;
    IdScan.FindIdsSplit(head, ' ', id);
    IdScan.FindIdsInRun(id);
    assert id[IdScan.ID_LENGTH..] == [];
  }

  // ---- The stored-ids report of a chat search ----

  /** A stored product as the report lists it: the name kept for it in the
      in-memory store, and its internal id. */
  datatype SavedEntry = SavedEntry(name: string, id: string)

  /** The banner chat.py writes above the stored ids, in Markdown bold. */
  const SAVED_BANNER: string := "💾 **محصولات ذخیره شدند!**"
  const SAVED_HINT: string := " برای مشاهده جزئیات بیشتر" + " از این شناسه\U{200C}ها استفاده کنید:\n"
  /** How much of a product name a report line shows. */
  const NAME_SHOWN: nat := 40
  const EXAMPLE_HEAD: string := "\n**مثال:** «جزئیات محصول شناسه: "
  const EXAMPLE_TAIL: string := "»"

  function EntryLine(e: SavedEntry): string {
    "• " + (Take(e.name, NAME_SHOWN) + ("...: `" + (e.id + "`")))
  }

  /** The lines of the report, each followed by a newline. */
  function EntryLines(es: seq<SavedEntry>): (r: string)
    ensures r == "" <==> |es| == 0
    ensures |es| > 0 ==> StartsWith(r, "• ") && EndsWith(r, "`\n")
    decreases |es|
  {
    if |es| == 0 then "" else EntryLine(es[0]) + ("\n" + EntryLines(es[1..]))
  }

  function IdsOf(es: seq<SavedEntry>): (ids: seq<string>)
    ensures |ids| == |es| && forall i :: 0 <= i < |es| ==> ids[i] == es[i].id
  {
    seq(|es|, i requires 0 <= i < |es| => es[i].id)
  }

  /** The report appended to a search answer once products were stored:
      `banner`, one line per stored product in the mapping's order, and an
      example detail request naming the first of them. chat.py writes it
      with `SAVED_BANNER`. */
  function SavedReport(banner: string, es: seq<SavedEntry>): (r: string)
    requires |es| > 0
    ensures StartsWith(r, "\n" + banner + SAVED_HINT)
    ensures EndsWith(r, ExampleRequest(es[0].id))
  {
    var body := ReportBody(es);
    assert StartsWith(body, SAVED_HINT) by {
      assert body[..|SAVED_HINT|] == (SAVED_HINT + EntryLine(es[0]))[..|SAVED_HINT|];
    }
    AffixesInFront("\n" + banner, body, SAVED_HINT, ExampleRequest(es[0].id));
    assert "\n" + banner + SAVED_HINT == ("\n" + banner) + SAVED_HINT;
    "\n" + banner + body
  }

  /** What follows the banner: the hint, the lines and the example. */
  function ReportBody(es: seq<SavedEntry>): (r: string)
    requires |es| > 0
    ensures StartsWith(r, SAVED_HINT + EntryLine(es[0]))
    ensures EndsWith(r, ExampleRequest(es[0].id))
  {
    var lines := EntryLines(es);
    var example := ExampleRequest(es[0].id);
    assert EntryLines(es) == EntryLine(es[0]) + ("\n" + EntryLines(es[1..]));
    assert StartsWith(lines + example, EntryLine(es[0])) by {
      assert (lines + example)[..|EntryLine(es[0])|] == lines[..|EntryLine(es[0])|];
    }
    assert EndsWith(lines + example, example);
    AffixesInFront(SAVED_HINT, lines + example, EntryLine(es[0]), example);
    SAVED_HINT + (lines + example)
  }

  /** The example closing the report: the detail request for `id`, quoted. */
  function ExampleRequest(id: string): (r: string)
    ensures EndsWith(r, DETAIL_REQUEST + id + EXAMPLE_TAIL)
  {
    assert EXAMPLE_HEAD == "\n**مثال:** «" + DETAIL_REQUEST;
    EXAMPLE_HEAD + (id + EXAMPLE_TAIL)
  }

  /** The request quoted in the example reads back the stored id it names. */
  lemma ExampleRequestReadsBack(id: string)
    requires IsUuidText(id)
    ensures var quoted := DETAIL_REQUEST + id + EXAMPLE_TAIL;
            EndsWith(ExampleRequest(id), quoted) && DetailId(quoted) == Some(id)
  {
    assert !IdScan.IsIdChar(EXAMPLE_TAIL[0]);
    DetailRequestRoundTrip(id, EXAMPLE_TAIL);
  }

  /** A report whose shown names hold no identifier-shaped run. */
  ghost predicate Listable(es: seq<SavedEntry>) {
    forall k :: 0 <= k < |es| ==> IsUuidText(es[k].id) && IdScan.FindIds(Take(es[k].name, NAME_SHOWN)) == []
  }

  /** The fixed texts of a report hold no identifier character. */
  lemma ReportTextsPlain()
    ensures IdScan.Plain(SAVED_BANNER) && IdScan.Plain(SAVED_HINT) && IdScan.Plain(EXAMPLE_HEAD)
    ensures IdScan.Plain(ChatDisplay.SAVED_NOTICE)
  {
    HintPlain();
    BannersPlain();
    HeadPlain();
  }

  lemma HintPlain()
    ensures IdScan.Plain(SAVED_HINT)
  {
    var a := " برای مشاهده جزئیات بیشتر";
    var b := " از این شناسه\U{200C}ها استفاده کنید:\n";
    assert IdScan.Plain(a);
    assert IdScan.Plain(b);
    assert SAVED_HINT == a + b;
  }

  lemma BannersPlain()
    ensures IdScan.Plain(SAVED_BANNER) && IdScan.Plain(ChatDisplay.SAVED_NOTICE)
  {
    assert IdScan.Plain(SAVED_BANNER);
  }

  lemma HeadPlain()
    ensures IdScan.Plain(EXAMPLE_HEAD)
  {
  }

  /** A report line yields its id to the identifier scan, and nothing
      else. */
  lemma {:induction false} EntryLineIds(e: SavedEntry)
    requires IsUuidText(e.id) && IdScan.FindIds(Take(e.name, NAME_SHOWN)) == []
    ensures IdScan.FindIds(EntryLine(e)) == [e.id]
  {
    var n := Take(e.name, NAME_SHOWN);
    assert IdScan.Plain("• ") && IdScan.Plain("...: `") && IdScan.Plain("`");
    IdScan.SkipPlain("• ", n + ("...: `" + (e.id + "`")));
    IdScan.SplitAtPlain(n, "...: `", e.id + "`");
    assert e.id + "`" == e.id + ("`" + []);
    IdScan.SplitAtPlain(e.id, "`", []);
    IdScan.OneId(e.id);
  }

  lemma {:induction false} EntryLinesIds(es: seq<SavedEntry>)
    requires Listable(es)
    ensures IdScan.FindIds(EntryLines(es)) == IdsOf(es)
    decreases |es|
  {
    if |es| > 0 {
      EntryLineIds(es[0]);
      assert Listable(es[1..]) by {
        forall k | 0 <= k < |es[1..]|
          ensures IsUuidText(es[1..][k].id) && IdScan.FindIds(Take(es[1..][k].name, NAME_SHOWN)) == []
        {
          assert es[1..][k] == es[k + 1];
        }
      }
      EntryLinesIds(es[1..]);
      assert IdScan.Plain("\n");
      IdScan.SplitAtPlain(EntryLine(es[0]), "\n", EntryLines(es[1..]));
      assert IdsOf(es) == [es[0].id] + IdsOf(es[1..]);
    }
  }

  /** The identifier scan of a report finds every stored id in order, and
      then the first one again, from the example request. */
  lemma {:induction false} ReportIds(banner: string, es: seq<SavedEntry>)
    requires |es| > 0 && IdScan.Plain(banner) && Listable(es)
    ensures IdScan.FindIds(SavedReport(banner, es)) == IdsOf(es) + [es[0].id]
  {
    ReportTextsPlain();
    assert IdScan.Plain("\n" + banner);
    IdScan.SkipPlain("\n" + banner, ReportBody(es));
    BodyIds(es);
  }

  /** After the banner the scan finds the listed ids, then the first again. */
  lemma {:induction false} BodyIds(es: seq<SavedEntry>)
    requires |es| > 0 && Listable(es)
    ensures IdScan.FindIds(ReportBody(es)) == IdsOf(es) + [es[0].id]
  {
    var id := es[0].id;
    ReportTextsPlain();
    IdScan.SkipPlain(SAVED_HINT, EntryLines(es) + ExampleRequest(id));
    IdScan.SplitAtPlain(EntryLines(es), EXAMPLE_HEAD, id + EXAMPLE_TAIL);
    EntryLinesIds(es);
    assert IdScan.Plain(EXAMPLE_TAIL);
    assert id + EXAMPLE_TAIL == id + (EXAMPLE_TAIL + []);
    IdScan.SplitAtPlain(id, EXAMPLE_TAIL, []);
    IdScan.OneId(id);
  }

  /** No report line shows the floppy-disk sign unless a name or an id
      holds it. */
  lemma {:induction false} NoDiskInLines(es: seq<SavedEntry>)
    requires forall k :: 0 <= k < |es| ==> '💾' !in es[k].name && IsUuidText(es[k].id)
    ensures '💾' !in EntryLines(es)
    decreases |es|
  {
    if |es| > 0 {
      var e := es[0];
      assert '💾' !in Take(e.name, NAME_SHOWN);
      assert '💾' !in e.id by {
        assert forall i :: 0 <= i < |e.id| ==> IdScan.IsIdChar(e.id[i]);
      }
      assert '💾' !in EntryLine(e);
      NoDiskInLines(es[1..]);
    }
  }

  /** After the banner, the report shows the floppy-disk sign nowhere. */
  lemma {:induction false} NoDiskInBody(es: seq<SavedEntry>)
    requires |es| > 0
    requires forall k :: 0 <= k < |es| ==> '💾' !in es[k].name && IsUuidText(es[k].id)
    ensures '💾' !in ReportBody(es)
  {
    var disk := '💾';
    TextsWithoutDisk();
    NoDiskInLines(es);
    assert disk !in es[0].id by {
      assert forall i :: 0 <= i < |es[0].id| ==> IdScan.IsIdChar(es[0].id[i]);
    }
    assert disk !in ExampleRequest(es[0].id);
  }

  /** Only the banners show the floppy-disk sign, at their start. */
  lemma TextsWithoutDisk()
    ensures '💾' !in SAVED_BANNER[1..] && '💾' !in SAVED_HINT
    ensures '💾' !in EXAMPLE_HEAD && '💾' !in EXAMPLE_TAIL
  {
    HintWithoutDisk();
    assert '💾' !in SAVED_BANNER[1..];
  }

  lemma HintWithoutDisk()
    ensures '💾' !in SAVED_HINT
  {
    var a := " برای مشاهده جزئیات بیشتر";
    var b := " از این شناسه\U{200C}ها استفاده کنید:\n";
    assert '💾' !in a;
    assert '💾' !in b;
    assert SAVED_HINT == a + b;
  }

  /** The report as chat.py writes it never carries the banner the front end
      looks for: the bold markers stand between the sign and the words. So,
      for a search answer that does not show the sign itself, the front end
      never announces the stored products. */
  lemma {:induction false} BoldReportNotAnnounced(listing: string, es: seq<SavedEntry>)
    requires |es| > 0 && '💾' !in listing
    requires forall k :: 0 <= k < |es| ==> '💾' !in es[k].name && IsUuidText(es[k].id)
    ensures !Contains(listing + SavedReport(SAVED_BANNER, es), ChatDisplay.SAVED_NOTICE)
    ensures ChatDisplay.AnnouncedCount(listing + SavedReport(SAVED_BANNER, es)).None?
  {
    var disk := '💾';
    var notice := ChatDisplay.SAVED_NOTICE;
    var a := listing + "\n";
    var marks := SAVED_BANNER[1..];
    var b := marks + ReportBody(es);
    assert SAVED_BANNER == [disk] + marks;
    assert listing + SavedReport(SAVED_BANNER, es) == a + [disk] + b;
    NoDiskInBody(es);
    TextsWithoutDisk();
    assert disk !in a && disk !in b;
    assert b[1] == marks[1] == '*';
    assert |notice| > 2 && notice[0] == disk && notice[2] != '*';
    SignOnlyOnce(a, disk, b, notice);
  }

  /** A report written with the banner the front end looks for is noticed,
      and its ids are scanned as the stored ids followed by the first one
      again, when the search answer above it shows no identifier. */
  lemma {:induction false} NoticedReportIds(listing: string, es: seq<SavedEntry>)
    requires |es| > 0 && IdScan.FindIds(listing) == [] && Listable(es)
    ensures Contains(listing + SavedReport(ChatDisplay.SAVED_NOTICE, es), ChatDisplay.SAVED_NOTICE)
    ensures IdScan.FindIds(listing + SavedReport(ChatDisplay.SAVED_NOTICE, es)) == IdsOf(es) + [es[0].id]
  {
    var notice := ChatDisplay.SAVED_NOTICE;
    var body := ReportBody(es);
    assert SavedReport(notice, es) == "\n" + notice + body;
    NoticeFollowsListing(listing, notice, body);
    ListingThenReportIds(listing, es);
  }

  /** The identifier scan skips a listing without identifiers and then
      reads the report's ids. */
  lemma {:induction false} ListingThenReportIds(listing: string, es: seq<SavedEntry>)
    requires |es| > 0 && IdScan.FindIds(listing) == [] && Listable(es)
    ensures IdScan.FindIds(listing + SavedReport(ChatDisplay.SAVED_NOTICE, es)) == IdsOf(es) + [es[0].id]
  {
    var notice := ChatDisplay.SAVED_NOTICE;
    ReportTextsPlain();
    assert IdScan.Plain("\n" + notice);
    IdScan.SplitAtPlain(listing, "\n" + notice, ReportBody(es));
    BodyIds(es);
  }

  lemma {:induction false} NoticeFollowsListing(listing: string, notice: string, body: string)
    ensures Contains(listing + ("\n" + notice + body), notice)
  {
    assert listing + ("\n" + notice + body) == (listing + "\n") + notice + body;
    ContainsPrefix(notice, notice);
    ContainsInfix(listing + "\n", notice, body, notice);
  }

  /** Even with the banner the front end looks for, the count it shows
      takes the example request's id for one more stored product. */
  lemma {:induction false} ExampleCountedTwice(listing: string, es: seq<SavedEntry>)
    requires |es| > 0 && IdScan.FindIds(listing) == [] && Listable(es)
    ensures ChatDisplay.AnnouncedCount(listing + SavedReport(ChatDisplay.SAVED_NOTICE, es)) == Some(|es| + 1)
  {
    NoticedReportIds(listing, es);
  }

  /** The intended notice: with the banner the front end looks for, and each
      id counted once, the count shown is the number of products stored. */
  lemma {:induction false} CorrectedReportAnnounced(listing: string, es: seq<SavedEntry>)
    requires |es| > 0 && IdScan.FindIds(listing) == [] && Listable(es)
    requires forall i, j :: 0 <= i < j < |es| ==> es[i].id != es[j].id
    ensures ChatDisplay.AnnouncedDistinct(listing + SavedReport(ChatDisplay.SAVED_NOTICE, es)) == Some(|es|)
  {
    NoticedReportIds(listing, es);
    var ids := IdsOf(es);
    assert ids[0] == es[0].id;
    Seqs.DedupRepeatFirst(ids);
    Seqs.DedupDistinct(ids);
  }

  // ---- Ids in user requests ----

  /** The word the detail request pattern looks for. */
  const ID_WORD: string := "شناسه"
  /** The request the chat suggests for reading a stored product back. */
  const DETAIL_REQUEST: string := "جزئیات محصول شناسه: "

  /** `[:\s]` */
  predicate IsIdGap(c: char) {
    c == ':' || IsSpace(c)
  }

  /** `شناسه[:\s]*([a-f0-9-]+)` tried at `p`, giving group 1. Backtracking
      cannot help: a shorter gap leaves a `:` or space where an identifier
      character is needed. */
  function DetailIdAt(s: string, p: nat): (r: Option<string>)
    requires p <= |s|
    ensures r.Some? ==> OccursAt(s, ID_WORD, p) && |r.value| > 0 && IdScan.AllIdChars(r.value)
  {
    if !OccursAt(s, ID_WORD, p) then None
    else
      var g := p + |ID_WORD| + LeadingRun(s[p + |ID_WORD|..], IsIdGap);
      var n := LeadingRun(s[g..], IdScan.IsIdChar);
      if n == 0 then None else Some(s[g..g + n])
  }

  /** What the pattern does at one position, backtracking included: it
      fails exactly when the word is missing or no stop inside the gap is
      followed by an identifier character, and otherwise group 1 is the
      whole identifier run behind the whole gap. */
  lemma {:induction false} DetailIdAtMeans(s: string, p: nat)
    requires p <= |s|
    ensures DetailIdAt(s, p).None? <==>
              !OccursAt(s, ID_WORD, p) || forall g :: GapBefore(s, p, g) ==> g == |s| || !IdScan.IsIdChar(s[g])
    ensures DetailIdAt(s, p).Some? ==>
              var id := DetailIdAt(s, p).value;
              exists g :: GapBefore(s, p, g) && g < |s| && !IsIdGap(s[g]) &&
                g + |id| <= |s| && s[g..g + |id|] == id &&
                (g + |id| == |s| || !IdScan.IsIdChar(s[g + |id|]))
  {
    if OccursAt(s, ID_WORD, p) {
      var g := p + |ID_WORD| + LeadingRun(s[p + |ID_WORD|..], IsIdGap);
      var n := LeadingRun(s[g..], IdScan.IsIdChar);
      assert DetailIdAt(s, p) == if n == 0 then None else Some(s[g..g + n]);
      GapEndsOnce(s, p, g);
      if n > 0 {
        RunBehindGap(s, p, g, n);
      } else {
        assert g == |s| || s[g..][0] == s[g];
      }
    }
  }

  /** The identifier run read behind the gap starts on a character that
      ends the gap and stops where identifier characters stop. */
  lemma {:induction false} RunBehindGap(s: string, p: nat, g: nat, n: nat)
    requires GapBefore(s, p, g) && 0 < n && g + n <= |s|
    requires forall i :: 0 <= i < n ==> IdScan.IsIdChar(s[g..][i])
    requires n == |s[g..]| || !IdScan.IsIdChar(s[g..][n])
    ensures g < |s| && IdScan.IsIdChar(s[g]) && !IsIdGap(s[g])
    ensures g + n == |s| || !IdScan.IsIdChar(s[g + n])
  {
    assert s[g..][0] == s[g];
    if g + n < |s| {
      assert s[g..][n] == s[g + n];
    }
  }

  /** The word occurs at `p` and `[:\s]*` can stop at `g`: everything
      between the word and `g` is a colon or a space. */
  ghost predicate GapBefore(s: string, p: nat, g: int) {
    OccursAt(s, ID_WORD, p) && p + |ID_WORD| <= g <= |s| &&
    forall i :: p + |ID_WORD| <= i < g ==> IsIdGap(s[i])
  }

  /** The maximal gap ends at `g`; any other stop is inside it, on a gap
      character, which is no identifier character. */
  lemma {:induction false} GapEndsOnce(s: string, p: nat, g: nat)
    requires OccursAt(s, ID_WORD, p)
    requires g == p + |ID_WORD| + LeadingRun(s[p + |ID_WORD|..], IsIdGap)
    ensures GapBefore(s, p, g)
    ensures forall h :: GapBefore(s, p, h) && h != g ==> h < g && !IdScan.IsIdChar(s[h])
  {
    var w := p + |ID_WORD|;
    forall h | GapBefore(s, p, h) && h != g
      ensures h < g && !IdScan.IsIdChar(s[h])
    {
      assert s[w..][h - w] == s[h];
    }
  }

  function SearchDetailId(s: string, p: nat): (r: Option<string>)
    requires p <= |s|
    ensures r.Some? ==> |r.value| > 0 && IdScan.AllIdChars(r.value)
    decreases |s| - p
  {
    match DetailIdAt(s, p)
    case Some(id) => Some(id)
    case None => if p == |s| then None else SearchDetailId(s, p + 1)
  }

  /** The search from `p` gives the match at the first position from `p`
      where the pattern matches, and nothing only when it matches at no
      position from `p`. */
  lemma {:induction false} SearchDetailIdMeans(s: string, p: nat)
    requires p <= |s|
    ensures SearchDetailId(s, p).None? ==> forall j :: p <= j <= |s| ==> DetailIdAt(s, j).None?
    ensures SearchDetailId(s, p).Some? ==>
              exists j :: p <= j <= |s| && DetailIdAt(s, j) == SearchDetailId(s, p) &&
                forall k :: p <= k < j ==> DetailIdAt(s, k).None?
    decreases |s| - p
  {
    if DetailIdAt(s, p).Some? {
      assert DetailIdAt(s, p) == SearchDetailId(s, p);
    } else if p < |s| {
      assert SearchDetailId(s, p) == SearchDetailId(s, p + 1);
      SearchDetailIdMeans(s, p + 1);
      SearchStep(s, p, SearchDetailId(s, p + 1));
    }
  }

  /** A search from `p` where nothing matches goes on from `p + 1`. */
  lemma {:induction false} SearchStep(s: string, p: nat, r: Option<string>)
    requires p < |s| && DetailIdAt(s, p).None?
    requires r.None? ==> forall j :: p + 1 <= j <= |s| ==> DetailIdAt(s, j).None?
    requires r.Some? ==> exists j :: p + 1 <= j <= |s| && DetailIdAt(s, j) == r &&
                           forall k :: p + 1 <= k < j ==> DetailIdAt(s, k).None?
    ensures r.None? ==> forall j :: p <= j <= |s| ==> DetailIdAt(s, j).None?
    ensures r.Some? ==> exists j :: p <= j <= |s| && DetailIdAt(s, j) == r &&
                          forall k :: p <= k < j ==> DetailIdAt(s, k).None?
  {
    if r.Some? {
      var j :| p + 1 <= j <= |s| && DetailIdAt(s, j) == r && forall k :: p + 1 <= k < j ==> DetailIdAt(s, k).None?;
      assert forall k :: p <= k < j ==> DetailIdAt(s, k).None?;
    }
  }

  /** `re.search` of the detail pattern: group 1 at the first position that
      matches, or nothing when no position does. */
  function DetailId(s: string): (r: Option<string>)
    ensures r.Some? ==> |r.value| > 0 && IdScan.AllIdChars(r.value)
    ensures r.None? ==> forall j :: 0 <= j <= |s| ==> DetailIdAt(s, j).None?
    ensures r.Some? ==> exists j :: 0 <= j <= |s| && DetailIdAt(s, j) == r &&
                          forall k :: 0 <= k < j ==> DetailIdAt(s, k).None?
  {
    SearchDetailIdMeans(s, 0);
    SearchDetailId(s, 0)
  }

  lemma {:induction false} SearchSkips(s: string, p: nat, k: nat)
    requires p <= k <= |s|
    requires forall j :: p <= j < k ==> DetailIdAt(s, j).None?
    ensures SearchDetailId(s, p) == SearchDetailId(s, k)
    decreases k - p
  {
    if p < k {
      assert SearchDetailId(s, p) == SearchDetailId(s, p + 1);
      SearchSkips(s, p + 1, k);
    }
  }

  /** Where the word starts in the suggested detail request. */
  const WORD_START: nat := 13

  /** The words before "شناسه" in the suggested request hold no `ن`, so the
      pattern cannot start there. */
  lemma DetailRequestSkips(s: string)
    requires StartsWith(s, DETAIL_REQUEST)
    ensures forall j :: 0 <= j < WORD_START ==> DetailIdAt(s, j).None?
  {
    var lead := DETAIL_REQUEST[..WORD_START];
    assert 'ن' !in lead;
    forall j | 0 <= j < WORD_START
      ensures !OccursAt(s, ID_WORD, j)
    {
      if j + |ID_WORD| <= |s| {
        if j + 1 < WORD_START {
          assert s[j + 1] == lead[j + 1];
          assert lead[j + 1] in lead;
          assert s[j..j + |ID_WORD|][1] == s[j + 1];
        } else {
          assert s[j] == ' ';
          assert s[j..j + |ID_WORD|][0] == s[j];
        }
      }
    }
  }

  /** At the word, the gap ": " is skipped and the identifier is read up
      to the first character that cannot continue it. */
  lemma {:induction false} DetailRequestMatch(id: string, rest: string)
    requires |id| > 0 && IdScan.AllIdChars(id)
    requires rest == "" || !IdScan.IsIdChar(rest[0])
    ensures DetailIdAt(DETAIL_REQUEST + id + rest, WORD_START) == Some(id)
  {
    var s := DETAIL_REQUEST + id + rest;
    var w := WORD_START + |ID_WORD|;
    RequestShape(id, rest);
    var after := s[w..];
    GapOfTwo(id + rest);
    assert after == ": " + (id + rest);
    assert LeadingRun(after, IsIdGap) == 2;
    var g := w + 2;
    assert s[g..] == after[2..] == id + rest;
    IdRun(id, rest);
    assert LeadingRun(s[g..], IdScan.IsIdChar) == |id|;
    assert s[g..g + |id|] == s[g..][..|id|] == id;
    assert DetailIdAt(s, WORD_START) == Some(s[g..g + |id|]);
  }

  /** The suggested request is two words, the identifier word and ": ". */
  lemma {:induction false} RequestShape(id: string, rest: string)
    ensures OccursAt(DETAIL_REQUEST + id + rest, ID_WORD, WORD_START)
    ensures (DETAIL_REQUEST + id + rest)[WORD_START + |ID_WORD|..] == ": " + id + rest
  {
    var lead := "جزئیات محصول ";
    assert DETAIL_REQUEST == lead + ID_WORD + ": ";
    assert |lead| == WORD_START;
    var s := lead + ID_WORD + (": " + id + rest);
    assert s == DETAIL_REQUEST + id + rest;
    assert s[WORD_START..WORD_START + |ID_WORD|] == ID_WORD;
    assert s[WORD_START + |ID_WORD|..] == ": " + id + rest;
  }

  /** The gap ": " before an identifier is two characters long. */
  lemma {:induction false} GapOfTwo(t: string)
    requires |t| > 0 && IdScan.IsIdChar(t[0])
    ensures LeadingRun(": " + t, IsIdGap) == 2
  {
    var u := ": " + t;
    LeadingRunCovers(u, IsIdGap, 2);
    assert u[2] == t[0];
  }

  /** An identifier followed by a character outside the class is read
      whole. */
  lemma {:induction false} IdRun(id: string, rest: string)
    requires |id| > 0 && IdScan.AllIdChars(id)
    requires rest == "" || !IdScan.IsIdChar(rest[0])
    ensures LeadingRun(id + rest, IdScan.IsIdChar) == |id|
    ensures (id + rest)[..|id|] == id
  {
    var t := id + rest;
    LeadingRunCovers(t, IdScan.IsIdChar, |id|);
    if |rest| > 0 {
      assert t[|id|] == rest[0];
    }
  }

  /** The suggested detail request, followed by anything that does not
      continue the identifier, reads back exactly the identifier. */
  lemma {:induction false} DetailRequestRoundTrip(id: string, rest: string)
    requires |id| > 0 && IdScan.AllIdChars(id)
    requires rest == "" || !IdScan.IsIdChar(rest[0])
    ensures DetailId(DETAIL_REQUEST + id + rest) == Some(id)
  {
    var s := DETAIL_REQUEST + id + rest;
    assert StartsWith(s, DETAIL_REQUEST);
    DetailRequestSkips(s);
    SearchSkips(s, 0, WORD_START);
    DetailRequestMatch(id, rest);
  }

  /** The comparison route: at least two identifiers, and at most the
      first three are compared. */
  const MAX_COMPARED: nat := 3

  function ComparisonIds(text: string): (r: Option<seq<string>>)
    ensures r.Some? <==> |IdScan.FindIds(text)| >= 2
    ensures r.Some? ==> 2 <= |r.value| <= MAX_COMPARED
    ensures r.Some? ==> |r.value| <= |IdScan.FindIds(text)| && r.value == IdScan.FindIds(text)[..|r.value|]
    ensures r.Some? ==> |r.value| == if |IdScan.FindIds(text)| < MAX_COMPARED then |IdScan.FindIds(text)| else MAX_COMPARED
  {
    var ids := IdScan.FindIds(text);
    if |ids| >= 2 then Some(Take(ids, MAX_COMPARED)) else None
  }

  /** Two stored ids written after a word and separated by a space are
      compared in the order written. */
  lemma TwoIdsCompared(word: string, a: string, b: string)
    requires |word| < IdScan.ID_LENGTH
    requires IsUuidText(a) && IsUuidText(b)
    ensures ComparisonIds(word + " " + a + " " + b) == Some([a, b])
  {
    IdScan.FindIdsSplit(a, ' ', b);
    IdScan.FindIdsInRun(a);
    IdScan.FindIdsInRun(b);
    assert a[IdScan.ID_LENGTH..] == [] && b[IdScan.ID_LENGTH..] == [];
    assert a[..IdScan.ID_LENGTH] == a && b[..IdScan.ID_LENGTH] == b;
    assert IdScan.FindIds(a + [' '] + b) == [a, b];
    assert word + " " + a + " " + b == word + [' '] + (a + [' '] + b);
    IdScan.FindIdsSplit(word, ' ', a + [' '] + b);
    assert IdScan.FindIds(word) == [];
    assert IdScan.FindIds(word + " " + a + " " + b) == [a, b];
  }

  // ---- format_product_comparison ----

  const ERROR_MARK: string := "❌ "

  datatype PriceSummary = PriceSummary(cheapest: real, dearest: real, spread: real)

  /** What the comparison shows: a refusal message, or the product table
      with a price summary when there are prices; formatting a price that
      is not a number raises. */
  datatype ComparisonView =
    | Refused(message: string)
    | Table(count: nat, summary: Option<PriceSummary>)
    | PriceNotANumber

  /** Python numbers (bool counts as int). */
  function AsNumber(v: Value): Option<real> {
    match v
    case Int(i) => Some(i as real)
    case Real(r) => Some(r)
    case Bool(b) => Some(if b then 1.0 else 0.0)
    case _ => None
  }

  predicate AllNumbers(vs: seq<Value>) {
    forall i :: 0 <= i < |vs| ==> AsNumber(vs[i]).Some?
  }

  function Numbers(vs: seq<Value>): (xs: seq<real>)
    requires AllNumbers(vs)
    ensures |xs| == |vs| && forall i :: 0 <= i < |vs| ==> xs[i] == AsNumber(vs[i]).value
  {
    seq(|vs|, i requires 0 <= i < |vs| => AsNumber(vs[i]).value)
  }

  function MinOf(xs: seq<real>): (m: real)
    requires |xs| > 0
    ensures m in xs && forall i :: 0 <= i < |xs| ==> m <= xs[i]
    decreases |xs|
  {
    if |xs| == 1 then xs[0]
    else
      var rest := MinOf(xs[1..]);
      if xs[0] <= rest then xs[0] else rest
  }

  function MaxOf(xs: seq<real>): (m: real)
    requires |xs| > 0
    ensures m in xs && forall i :: 0 <= i < |xs| ==> xs[i] <= m
    decreases |xs|
  {
    if |xs| == 1 then xs[0]
    else
      var rest := MaxOf(xs[1..]);
      if rest <= xs[0] then xs[0] else rest
  }

  /** format_product_comparison: both refusals begin with the error mark;
      the summary's cheapest and dearest are prices of the comparison and
      bound all of them, so the spread is never negative. */
  function FormatProductComparison(c: ProductManager.Comparison): (r: ComparisonView)
    ensures c.CompareError? ==> r == Refused(ERROR_MARK + c.error)
    ensures c.Compared? && |c.products| < 2 ==> r == Refused(ERROR_MARK + ProductManager.TOO_FEW)
    ensures r.Refused? ==> StartsWith(r.message, ERROR_MARK)
    ensures r.Table? ==> c.Compared? && r.count == |c.products| >= 2 && AllNumbers(c.prices)
    ensures r.Table? ==> (r.summary.None? <==> c.prices == [])
    ensures r.Table? && r.summary.Some? ==>
              var xs := Numbers(c.prices);
              var p := r.summary.value;
              && p.cheapest in xs && p.dearest in xs
              && (forall i :: 0 <= i < |xs| ==> p.cheapest <= xs[i] <= p.dearest)
              && p.spread == p.dearest - p.cheapest && p.spread >= 0.0
    ensures r == PriceNotANumber <==> c.Compared? && |c.products| >= 2 && !AllNumbers(c.prices)
  {
    match c
    case CompareError(e) => Refused(ERROR_MARK + e)
    case Compared(products, prices, _, _, _) =>
      if |products| < 2 then Refused(ERROR_MARK + ProductManager.TOO_FEW)
      else if |prices| == 0 then Table(|products|, None)
      else if !AllNumbers(prices) then PriceNotANumber
      else
        var xs := Numbers(prices);
        var lo := MinOf(xs);
        var hi := MaxOf(xs);
        Table(|products|, Some(PriceSummary(lo, hi, hi - lo)))
  }

  /** A comparison from the store of products with integer prices has a
      summary whose bounds are the smallest and largest stored price. */
  lemma StoreComparisonSummary(db: ProductManager.Db, ids: seq<string>)
    requires ProductManager.CompareProducts(db, ids).Compared?
    requires forall i :: 0 <= i < |ProductManager.CompareProducts(db, ids).products| ==>
               ProductManager.CompareProducts(db, ids).products[i].price.Int?
    ensures var c := ProductManager.CompareProducts(db, ids);
            var r := FormatProductComparison(c);
            && r.Table? && r.count == |c.products| && r.summary.Some?
            && forall i :: 0 <= i < |c.products| ==>
                 r.summary.value.cheapest <= c.products[i].price.i as real <= r.summary.value.dearest
  {
    var c := ProductManager.CompareProducts(db, ids);
    IntPricesTabled(c);
  }

  lemma IntPricesTabled(c: ProductManager.Comparison)
    requires c.Compared? && |c.products| >= 2 && |c.prices| == |c.products|
    requires forall i :: 0 <= i < |c.products| ==> c.prices[i] == c.products[i].price && c.prices[i].Int?
    ensures var r := FormatProductComparison(c);
            && r.Table? && r.count == |c.products| && r.summary.Some?
            && forall i :: 0 <= i < |c.products| ==>
                 r.summary.value.cheapest <= c.products[i].price.i as real <= r.summary.value.dearest
  {
    assert AllNumbers(c.prices);
    var xs := Numbers(c.prices);
    assert forall i :: 0 <= i < |c.products| ==> xs[i] == c.products[i].price.i as real;
  }

  // ---- Review excerpts of format_detailed_product ----

  const MAX_EXCERPTS: nat := 3
  const EXCERPT_LENGTH: nat := 100
  const ELLIPSIS: string := "..."

  /** The first three reviews, each cut to 100 characters and followed by
      an ellipsis whether or not anything was cut. */
  function ReviewExcerpts(reviews: seq<string>): (r: seq<string>)
    ensures |r| == if |reviews| < MAX_EXCERPTS then |reviews| else MAX_EXCERPTS
    ensures forall i :: 0 <= i < |r| ==>
              && EndsWith(r[i], ELLIPSIS) && |r[i]| <= EXCERPT_LENGTH + |ELLIPSIS|
              && StartsWith(reviews[i], r[i][..|r[i]| - |ELLIPSIS|])
    ensures forall i :: 0 <= i < |r| && |reviews[i]| <= EXCERPT_LENGTH ==> r[i] == reviews[i] + ELLIPSIS
    ensures forall i :: 0 <= i < |r| && |reviews[i]| > EXCERPT_LENGTH ==> |r[i]| == EXCERPT_LENGTH + |ELLIPSIS|
  {
    var shown := Take(reviews, MAX_EXCERPTS);
    seq(|shown|, i requires 0 <= i < |shown| => Take(shown[i], EXCERPT_LENGTH) + ELLIPSIS)
  }

  /** An excerpt without its trailing ellipsis: the text shown of the review. */
  function Shown(excerpt: string): (r: string)
    requires EndsWith(excerpt, ELLIPSIS)
    ensures r + ELLIPSIS == excerpt
  {
    excerpt[..|excerpt| - |ELLIPSIS|]
  }

  /** Excerpting is idempotent: the shown texts of the excerpts, excerpted
      again, give the same excerpts; and reviews after the third never
      change them. */
  lemma ExcerptsAreStable(reviews: seq<string>, more: seq<string>)
    ensures var r := ReviewExcerpts(reviews);
            ReviewExcerpts(seq(|r|, i requires 0 <= i < |r| => Shown(r[i]))) == r
    ensures |reviews| >= MAX_EXCERPTS ==> ReviewExcerpts(reviews + more) == ReviewExcerpts(reviews)
  {
  }
}

=== FILE: chat_display.dfy ===
/** The two pieces of logic in the chat front end (app.py) that decide what
    is shown rather than how: the image-URL check, and the parser that finds
    product blocks in an assistant message and turns them into cards. */
module ChatDisplay {

  import opened Wrappers
  import opened Text
  import opened Seqs
  import IdScan

  // ---- is_valid_image_url ----

  /** The alternatives of `\.(jpg|jpeg|png|gif|bmp)$`. */
  const EXTENSIONS: seq<string> := ["jpg", "jpeg", "png", "gif", "bmp"]

  /** A pattern letter under IGNORECASE: the text character lowered, plus
      the one extra equivalence the regular-expression engine applies to
      these letters, the dotted capital I and the dotless i matching `i`. */
  predicate FoldMatches(c: char, lit: char) {
    LowerChar(c) == lit || (lit == 'i' && (c == '\U{0130}' || c == '\U{0131}'))
  }

  predicate ExtensionAt(s: string, p: nat, e: string) {
    p + |e| <= |s| && forall j :: 0 <= j < |e| ==> FoldMatches(s[p + j], e[j])
  }

  /** `$` without MULTILINE: the end, or just before a final newline. */
  predicate EndAt(s: string, p: nat) {
    p == |s| || (p + 1 == |s| && s[p] == '\n')
  }

  /** `\.(jpg|jpeg|png|gif|bmp)$` matches at position `p`. */
  predicate TailAt(s: string, p: nat) {
    && p < |s| && s[p] == '.'
    && exists i :: 0 <= i < |EXTENSIONS| && ExtensionAt(s, p + 1, EXTENSIONS[i])
                   && EndAt(s, p + 1 + |EXTENSIONS[i]|)
  }

  predicate NotNewline(c: char) {
    c != '\n'
  }

  /** `.*` first takes the longest newline-free prefix, then gives back one
      character at a time until the rest of the pattern matches. */
  predicate Backtrack(s: string, k: nat)
    decreases k
  {
    TailAt(s, k) || (k > 0 && Backtrack(s, k - 1))
  }

  /** The text without one final newline. */
  function Body(s: string): (b: string)
    ensures b == s || b + "\n" == s
  {
    if |s| > 0 && s[|s| - 1] == '\n' then s[..|s| - 1] else s
  }

  predicate EndsWithExtension(b: string, e: string) {
    |e| < |b| && b[|b| - |e| - 1] == '.' && ExtensionAt(b, |b| - |e|, e)
  }

  /** What the check accepts: a newline-free name ending in a dot and one
      of the extensions in any letter case, optionally followed by a single
      newline. */
  predicate ImageName(s: string) {
    var b := Body(s);
    '\n' !in b && exists i :: 0 <= i < |EXTENSIONS| && EndsWithExtension(b, EXTENSIONS[i])
  }

  /** is_valid_image_url: false for None and the empty text, otherwise
      `re.match` of the pattern. */
  function IsValidImageUrl(url: Option<string>): (ok: bool)
    ensures ok <==> url.Some? && ImageName(url.value)
  {
    match url
    case None => false
    case Some(u) =>
      MatchMeansImageName(u);
      u != "" && Backtrack(u, LeadingRun(u, NotNewline))
  }

  lemma {:induction false} BacktrackMeans(s: string, k: nat)
    ensures Backtrack(s, k) <==> exists j :: 0 <= j <= k && TailAt(s, j)
    decreases k
  {
    if k > 0 {
      BacktrackMeans(s, k - 1);
    }
  }

  lemma ExtensionsHaveNoNewline()
    ensures forall i, j :: 0 <= i < |EXTENSIONS| && 0 <= j < |EXTENSIONS[i]| ==> EXTENSIONS[i][j] != '\n'
    ensures forall i :: 0 <= i < |EXTENSIONS| ==> |EXTENSIONS[i]| > 0
  {
  }

  /** The backtracking match accepts exactly the image names. */
  lemma MatchMeansImageName(s: string)
    ensures (s != "" && Backtrack(s, LeadingRun(s, NotNewline))) <==> ImageName(s)
  {
    if ImageName(s) {
      ImageNameMatches(s);
    }
    if s != "" && Backtrack(s, LeadingRun(s, NotNewline)) {
      MatchIsImageName(s);
    }
  }

  lemma ImageNameMatches(s: string)
    requires ImageName(s)
    ensures s != "" && Backtrack(s, LeadingRun(s, NotNewline))
  {
    var n := LeadingRun(s, NotNewline);
    var b := Body(s);
    var i :| 0 <= i < |EXTENSIONS| && EndsWithExtension(b, EXTENSIONS[i]);
    var e := EXTENSIONS[i];
    var j := |b| - |e| - 1;
    assert forall x :: 0 <= x < |b| ==> s[x] == b[x];
    forall x | 0 <= x < |b|
      ensures NotNewline(s[x])
    {
      assert b[x] in b;
    }
    LeadingRunCovers(s, NotNewline, |b|);
    assert ExtensionAt(s, j + 1, e);
    assert EndAt(s, j + 1 + |e|);
    assert TailAt(s, j);
    BacktrackMeans(s, n);
  }

  lemma MatchIsImageName(s: string)
    requires s != "" && Backtrack(s, LeadingRun(s, NotNewline))
    ensures ImageName(s)
  {
    var n := LeadingRun(s, NotNewline);
    BacktrackMeans(s, n);
    var j :| 0 <= j <= n && TailAt(s, j);
    TailMeansImageName(s, j);
  }

  /** A match of the tail after a newline-free prefix makes an image name. */
  lemma TailMeansImageName(s: string, j: nat)
    requires TailAt(s, j)
    requires forall x :: 0 <= x < j ==> NotNewline(s[x])
    ensures ImageName(s)
  {
    var i :| 0 <= i < |EXTENSIONS| && ExtensionAt(s, j + 1, EXTENSIONS[i]) && EndAt(s, j + 1 + |EXTENSIONS[i]|);
    var e := EXTENSIONS[i];
    ExtensionsHaveNoNewline();
    ExtensionNoNewline(s, j + 1, e);
    var q := j + 1 + |e|;
    assert s[q - 1] != '\n';
    BodyAtEnd(s, q);
    TailIsImageName(s, j, q, e);
  }

  lemma BodyAtEnd(s: string, q: nat)
    requires 0 < q <= |s| && EndAt(s, q) && s[q - 1] != '\n'
    ensures Body(s) == s[..q]
  {
  }

  /** The characters an extension match covers are not newlines. */
  lemma ExtensionNoNewline(s: string, p: nat, e: string)
    requires ExtensionAt(s, p, e)
    requires forall x :: 0 <= x < |e| ==> e[x] != '\n'
    ensures forall x :: p <= x < p + |e| ==> s[x] != '\n'
  {
    forall x | p <= x < p + |e|
      ensures s[x] != '\n'
    {
      assert FoldMatches(s[p + (x - p)], e[x - p]);
    }
  }

  lemma TailIsImageName(s: string, j: nat, q: nat, e: string)
    requires j < q <= |s| && q == j + 1 + |e| && s[j] == '.'
    requires forall x :: 0 <= x < j ==> NotNewline(s[x])
    requires forall x :: j < x < q ==> s[x] != '\n'
    requires ExtensionAt(s, j + 1, e)
    ensures '\n' !in s[..q] && EndsWithExtension(s[..q], e)
  {
    var b := s[..q];
    forall c | c in b
      ensures c != '\n'
    {
      var x :| 0 <= x < |b| && b[x] == c;
      assert b[x] == s[x];
    }
    forall x | 0 <= x < |e|
      ensures FoldMatches(b[j + 1 + x], e[x])
    {
      assert b[j + 1 + x] == s[j + 1 + x];
    }
  }

  // ---- The product-block parser ----

  /** The guard: the parser runs only on messages containing this text. */
  const NAME_MARK: string := "نام کالا"

  /** The keys of `product_data`. */
  datatype Field = Name | Price | City | Link | Image

  function Label(f: Field): string {
    match f
    case Name => "نام کالا:"
    case Price => "قیمت:"
    case City => "شهر فروشنده:"
    case Link => "لینک:"
    case Image => "تصویر:"
  }

  /** The field a line sets, the labels checked in turn; no two labels start
      alike, so at most one can match. */
  function LabelOf(line: string): (f: Option<Field>)
    ensures forall g :: f == Some(g) <==> StartsWith(line, Label(g))
  {
    LabelsExclusive(line);
    if StartsWith(line, Label(Name)) then Some(Name)
    else if StartsWith(line, Label(Price)) then Some(Price)
    else if StartsWith(line, Label(City)) then Some(City)
    else if StartsWith(line, Label(Link)) then Some(Link)
    else if StartsWith(line, Label(Image)) then Some(Image)
    else None
  }

  function Initial(f: Field): char {
    match f
    case Name => 'ن'
    case Price => 'ق'
    case City => 'ش'
    case Link => 'ل'
    case Image => 'ت'
  }

  /** The labels begin with five different letters. */
  lemma LabelsExclusive(line: string)
    ensures forall f, g :: StartsWith(line, Label(f)) && StartsWith(line, Label(g)) ==> f == g
  {
    forall f | StartsWith(line, Label(f))
      ensures line[0] == Initial(f)
    {
      assert Label(f)[0] == Initial(f);
      assert line[..|Label(f)|][0] == line[0];
    }
  }

  /** `line.replace(label, "").strip()` */
  function FieldValue(line: string, f: Field): string {
    Strip(ReplaceAll(line, Label(f), ""))
  }

  /** What one line sets, if anything: its field and that field's value. */
  datatype Setting = Set(field: Field, value: string) | Skip

  function SettingOf(line: string): (st: Setting)
    ensures st.Set? <==> LabelOf(line).Some?
    ensures st.Set? ==> st.field == LabelOf(line).value && st.value == FieldValue(line, st.field)
  {
    match LabelOf(line)
    case Some(f) => Set(f, FieldValue(line, f))
    case None => Skip
  }

  function Settings(lines: seq<string>): (ss: seq<Setting>)
    ensures |ss| == |lines| && forall i :: 0 <= i < |lines| ==> ss[i] == SettingOf(lines[i])
  {
    seq(|lines|, i requires 0 <= i < |lines| => SettingOf(lines[i]))
  }

  /** `product_data[key] = value` for a line that sets a field. */
  function ReadSetting(d: map<Field, string>, st: Setting): map<Field, string> {
    match st
    case Set(f, v) => d[f := v]
    case Skip => d
  }

  function ReadAll(d: map<Field, string>, ss: seq<Setting>): map<Field, string>
    decreases |ss|
  {
    if |ss| == 0 then d else ReadAll(ReadSetting(d, ss[0]), ss[1..])
  }

  predicate NonEmpty(s: string) {
    s != ""
  }

  /** The stripped, non-empty lines of a stripped piece. */
  function BlockLines(piece: string): seq<string> {
    Filter(StripAll(SplitOn(Strip(piece), '\n')), NonEmpty)
  }

  predicate Sets(st: Setting, f: Field) {
    st.Set? && st.field == f
  }

  /** The index of the last line that sets `f`. */
  function LastSetting(ss: seq<Setting>, f: Field): (r: Option<nat>)
    ensures r.Some? ==> r.value < |ss| && Sets(ss[r.value], f)
    ensures r.Some? ==> forall j :: r.value < j < |ss| ==> !Sets(ss[j], f)
    ensures r.None? ==> forall j :: 0 <= j < |ss| ==> !Sets(ss[j], f)
    decreases |ss|
  {
    if |ss| == 0 then None
    else match LastSetting(ss[1..], f)
      case Some(j) => Some(j + 1)
      case None => if Sets(ss[0], f) then Some(0) else None
  }

  /** Later lines overwrite earlier ones. */
  lemma {:induction false} ReadAllLastWins(d: map<Field, string>, ss: seq<Setting>, f: Field)
    ensures f in ReadAll(d, ss) <==> f in d || LastSetting(ss, f).Some?
    ensures LastSetting(ss, f).Some? ==> ReadAll(d, ss)[f] == ss[LastSetting(ss, f).value].value
    ensures LastSetting(ss, f).None? && f in d ==> ReadAll(d, ss)[f] == d[f]
    decreases |ss|
  {
    if |ss| > 0 {
      ReadAllLastWins(ReadSetting(d, ss[0]), ss[1..], f);
      match LastSetting(ss[1..], f)
      case Some(j) =>
        assert ss[j + 1] == ss[1..][j];
      case None =>
    }
  }

  /** The fields of one block: present exactly when some line carries the
      label, with the value of the last such line. */
  function ParseBlock(piece: string): (d: map<Field, string>)
    ensures forall f :: f in d <==> LastSetting(Settings(BlockLines(piece)), f).Some?
    ensures forall f :: f in d ==>
              var k := LastSetting(Settings(BlockLines(piece)), f).value;
              LabelOf(BlockLines(piece)[k]) == Some(f) && d[f] == FieldValue(BlockLines(piece)[k], f)
  {
    var lines := BlockLines(piece);
    var ss := Settings(lines);
    forall f
      ensures f in ReadAll(map[], ss) <==> LastSetting(ss, f).Some?
      ensures f in ReadAll(map[], ss) ==> ReadAll(map[], ss)[f] == ss[LastSetting(ss, f).value].value
    {
      ReadAllLastWins(map[], ss, f);
    }
    ReadAll(map[], ss)
  }

  /** An expander shown under the message. */
  datatype Card = Card(name: string, price: string, city: string, link: string, image: Option<string>)

  /** A block becomes a card only with a name, a price, a city and a link;
      its image is shown only when it passes the image check. */
  function CardOf(d: map<Field, string>): (c: Option<Card>)
    ensures c.Some? <==> Name in d && Price in d && City in d && Link in d
    ensures c.Some? ==> c.value.name == d[Name] && c.value.price == d[Price]
                        && c.value.city == d[City] && c.value.link == d[Link]
    ensures c.Some? ==> (c.value.image.Some? <==> Image in d && IsValidImageUrl(Some(d[Image])))
    ensures c.Some? && c.value.image.Some? ==> c.value.image.value == d[Image]
  {
    if Name in d && Price in d && City in d && Link in d then
      var image := if Image in d && d[Image] != "" && IsValidImageUrl(Some(d[Image])) then Some(d[Image]) else None;
      Some(Card(d[Name], d[Price], d[City], d[Link], image))
    else None
  }

  /** `[-—]` */
  predicate IsDash(c: char) {
    c == '-' || c == '\U{2014}'
  }

  ghost predicate NoDash(s: string) {
    forall i :: 0 <= i < |s| ==> !IsDash(s[i])
  }

  ghost predicate CardNoDash(c: Card) {
    NoDash(c.name) && NoDash(c.price) && NoDash(c.city) && NoDash(c.link)
  }

  /** The card of one block, if it has one. */
  function PieceCard(piece: string): Option<Card> {
    CardOf(ParseBlock(piece))
  }

  /** The cards of the pieces, in order. */
  function Shown(pieces: seq<string>): (cards: seq<Card>)
    ensures |cards| <= |pieces|
    ensures forall c :: c in cards <==> exists i :: 0 <= i < |pieces| && PieceCard(pieces[i]) == Some(c)
  {
    Cards(pieces, PieceCard)
  }

  /** The cards the pieces give, in the order of the pieces; CardsConcat
      states the order. */
  function Cards(pieces: seq<string>, card: string -> Option<Card>): (cards: seq<Card>)
    ensures |cards| <= |pieces|
    ensures forall c :: c in cards <==> exists i :: 0 <= i < |pieces| && card(pieces[i]) == Some(c)
    decreases |pieces|
  {
    if |pieces| == 0 then []
    else
      var rest := Cards(pieces[1..], card);
      forall c | c !in rest && (exists i :: 0 <= i < |pieces| && card(pieces[i]) == Some(c))
        ensures card(pieces[0]) == Some(c)
      {
        var i :| 0 <= i < |pieces| && card(pieces[i]) == Some(c);
      }
      forall c | c in rest
        ensures exists i :: 0 <= i < |pieces| && card(pieces[i]) == Some(c)
      {
        var i :| 0 <= i < |pieces[1..]| && card(pieces[1..][i]) == Some(c);
        assert pieces[i + 1] == pieces[1..][i];
      }
      (match card(pieces[0]) case Some(c) => [c] case None => []) + rest
  }

  /** The cards of consecutive pieces follow one another. */
  lemma {:induction false} CardsConcat(a: seq<string>, b: seq<string>, card: string -> Option<Card>)
    ensures Cards(a + b, card) == Cards(a, card) + Cards(b, card)
    decreases |a|
  {
    if |a| == 0 {
      assert a + b == b;
    } else {
      assert (a + b)[0] == a[0] && (a + b)[1..] == a[1..] + b;
      CardsConcat(a[1..], b, card);
    }
  }

  lemma {:induction false} CardsNoDash(pieces: seq<string>, card: string -> Option<Card>)
    requires forall i :: 0 <= i < |pieces| ==> NoDash(pieces[i])
    requires forall p :: NoDash(p) && card(p).Some? ==> CardNoDash(card(p).value)
    ensures forall i :: 0 <= i < |Cards(pieces, card)| ==> CardNoDash(Cards(pieces, card)[i])
    decreases |pieces|
  {
    if |pieces| > 0 {
      var rest := Cards(pieces[1..], card);
      assert forall i :: 0 <= i < |pieces[1..]| ==> NoDash(pieces[1..][i]);
      CardsNoDash(pieces[1..], card);
      match card(pieces[0])
      case Some(c) =>
        assert Cards(pieces, card) == [c] + rest;
        forall i | 0 <= i < |Cards(pieces, card)|
          ensures CardNoDash(Cards(pieces, card)[i])
        {
          if i > 0 {
            assert Cards(pieces, card)[i] == rest[i - 1];
          }
        }
      case None =>
        assert Cards(pieces, card) == rest;
    }
  }

  lemma ShownNoDash(pieces: seq<string>)
    requires forall i :: 0 <= i < |pieces| ==> NoDash(pieces[i])
    ensures forall i :: 0 <= i < |Shown(pieces)| ==> CardNoDash(Shown(pieces)[i])
  {
    forall p | NoDash(p) && PieceCard(p).Some?
      ensures CardNoDash(PieceCard(p).value)
    {
      NoDashValues(p);
      CardOfNoDash(ParseBlock(p));
    }
    CardsNoDash(pieces, PieceCard);
  }

  lemma CardOfNoDash(d: map<Field, string>)
    requires forall f :: f in d ==> NoDash(d[f])
    ensures CardOf(d).Some? ==> CardNoDash(CardOf(d).value)
  {
  }

  /** The product cards under an assistant message: the text is split at
      runs of dashes, the first piece is never a block, and every shown
      value is free of dashes. */
  function ProductCards(content: string): (cards: seq<Card>)
    ensures !Contains(content, NAME_MARK) ==> cards == []
    ensures |cards| < |SplitRuns(content, IsDash)|
    ensures forall i :: 0 <= i < |cards| ==> CardNoDash(cards[i])
    ensures Contains(content, NAME_MARK) ==>
              forall c :: c in cards <==>
                exists i :: 1 <= i < |SplitRuns(content, IsDash)| && PieceCard(SplitRuns(content, IsDash)[i]) == Some(c)
  {
    if Contains(content, NAME_MARK) then
      var all := SplitRuns(content, IsDash);
      var pieces := all[1..];
      assert forall i :: 0 <= i < |pieces| ==> pieces[i] == all[i + 1];
      assert forall i :: 0 <= i < |pieces| ==> NoDash(pieces[i]);
      DropFirstPiece(all);
      ShownNoDash(pieces);
      Shown(pieces)
    else []
  }

  /** The pieces after the first are those at positions 1 and later. */
  lemma DropFirstPiece(all: seq<string>)
    requires |all| >= 1
    ensures forall c :: (exists i :: 0 <= i < |all[1..]| && PieceCard(all[1..][i]) == Some(c))
                        <==> (exists i :: 1 <= i < |all| && PieceCard(all[i]) == Some(c))
  {
    forall c | exists i :: 1 <= i < |all| && PieceCard(all[i]) == Some(c)
      ensures exists i :: 0 <= i < |all[1..]| && PieceCard(all[1..][i]) == Some(c)
    {
      var i :| 1 <= i < |all| && PieceCard(all[i]) == Some(c);
      assert all[1..][i - 1] == all[i];
    }
  }

  /** A run of dashes. */
  ghost predicate DashRun(gap: string) {
    gap != "" && forall i :: 0 <= i < |gap| ==> IsDash(gap[i])
  }

  /** The text before the first dash run never gives a card: the cards are
      those of what follows the run, whatever the first piece holds. */
  lemma FirstPieceIgnored(head: string, gap: string, rest: string)
    requires NoDash(head) && DashRun(gap) && (rest == "" || !IsDash(rest[0]))
    requires Contains(head + (gap + rest), NAME_MARK)
    ensures ProductCards(head + (gap + rest)) == Shown(SplitRuns(rest, IsDash))
  {
    SplitRunsCons(head, gap, rest, IsDash);
    assert ([head] + SplitRuns(rest, IsDash))[1..] == SplitRuns(rest, IsDash);
  }

  /** A complete block in front of the only dash run shows nothing. */
  lemma FirstBlockHidden(block: string, gap: string)
    requires NoDash(block) && DashRun(gap) && Contains(block + (gap + ""), NAME_MARK)
    ensures ProductCards(block + (gap + "")) == []
  {
    FirstPieceIgnored(block, gap, "");
    assert SplitRuns("", IsDash) == [""];
    assert BlockLines("") == [];
  }

  /** A block after the first dash run shows its card, when it has one. */
  lemma BlockAfterDashShown(head: string, gap: string, block: string)
    requires NoDash(head) && DashRun(gap) && NoDash(block)
    requires Contains(head + (gap + block), NAME_MARK)
    ensures ProductCards(head + (gap + block)) == if PieceCard(block).Some? then [PieceCard(block).value] else []
  {
    FirstPieceIgnored(head, gap, block);
    SplitRunsNone(block, IsDash);
    CardsOne(block, PieceCard);
  }

  lemma CardsOne(piece: string, card: string -> Option<Card>)
    ensures Cards([piece], card) == if card(piece).Some? then [card(piece).value] else []
  {
    assert [piece][1..] == [];
  }

  lemma StripNoDash(s: string)
    requires NoDash(s)
    ensures NoDash(Strip(s))
  {
    StripChars(s);
  }

  /** Every line of a dash-free piece is dash-free. */
  lemma LinesNoDash(piece: string)
    requires NoDash(piece)
    ensures forall i :: 0 <= i < |BlockLines(piece)| ==> NoDash(BlockLines(piece)[i])
  {
    StripNoDash(piece);
    var t := Strip(piece);
    var parts := SplitOn(t, '\n');
    SplitOnChars(t, '\n');
    forall i | 0 <= i < |parts|
      ensures NoDash(parts[i])
    {
      forall j | 0 <= j < |parts[i]|
        ensures !IsDash(parts[i][j])
      {
        assert parts[i][j] in t;
      }
    }
    var stripped := StripAll(parts);
    forall i | 0 <= i < |stripped|
      ensures NoDash(stripped[i])
    {
      StripNoDash(parts[i]);
    }
    forall i | 0 <= i < |BlockLines(piece)|
      ensures NoDash(BlockLines(piece)[i])
    {
      assert BlockLines(piece)[i] in stripped;
    }
  }

  lemma FieldValueNoDash(line: string, f: Field)
    requires NoDash(line)
    ensures NoDash(FieldValue(line, f))
  {
    var r := ReplaceAll(line, Label(f), "");
    ReplaceAllChars(line, Label(f), "");
    forall j | 0 <= j < |r|
      ensures !IsDash(r[j])
    {
      assert r[j] in r;
    }
    StripNoDash(r);
  }

  /** A value read from a dash-free piece is dash-free. */
  lemma NoDashValues(piece: string)
    requires NoDash(piece)
    ensures forall f :: f in ParseBlock(piece) ==> NoDash(ParseBlock(piece)[f])
  {
    var lines := BlockLines(piece);
    LinesNoDash(piece);
    forall f | f in ParseBlock(piece)
      ensures NoDash(ParseBlock(piece)[f])
    {
      FieldValueNoDash(lines[LastSetting(Settings(lines), f).value], f);
    }
  }

  /** Without a dash the whole message is the ignored first piece: a single
      product block with no separator before it is never shown. */
  lemma NoSeparatorNoCards(content: string)
    requires forall i :: 0 <= i < |content| ==> !IsDash(content[i])
    ensures ProductCards(content) == []
  {
    SplitRunsNone(content, IsDash);
  }

  // ---- The saved-products notice ----

  /** The banner whose presence in an assistant message makes the front end
      report how many products were stored. */
  const SAVED_NOTICE: string := "💾 محصولات ذخیره شدند!"

  /** The notice as written: for a message holding the banner and at least
      one identifier-shaped run, the number of runs found, repeats
      included; nothing otherwise. */
  function AnnouncedCount(content: string): (r: Option<nat>)
    ensures r.Some? <==> Contains(content, SAVED_NOTICE) && |IdScan.FindIds(content)| > 0
    ensures r.Some? ==> 0 < r.value && r.value * IdScan.ID_LENGTH <= |content|
    ensures r.Some? ==> r.value == |IdScan.FindIds(content)|
  {
    if Contains(content, SAVED_NOTICE) then
      var ids := IdScan.FindIds(content);
      if |ids| > 0 then Some(|ids|) else None
    else None
  }

  /** The notice counting every identifier once, as `len(set(product_ids))`
      would. */
  function AnnouncedDistinct(content: string): (r: Option<nat>)
    ensures r.Some? <==> Contains(content, SAVED_NOTICE) && |IdScan.FindIds(content)| > 0
    ensures r.Some? ==> 0 < r.value
    ensures r.Some? ==> r.value == |Dedup(IdScan.FindIds(content))|
    ensures r.Some? ==> r.value == |Elements(IdScan.FindIds(content))|
  {
    if Contains(content, SAVED_NOTICE) then
      var ids := IdScan.FindIds(content);
      if |ids| > 0 then
        assert ids[0] in Dedup(ids);
        DedupCard(ids);
        Some(|Dedup(ids)|)
      else None
    else None
  }
}

=== FILE: crawler.dfy ===
/** The product-page crawler of tools/product_crawler.py. Fetching and HTML
    selection are outside the model: a page is given as the results of the
    CSS selectors the crawler asks for, each element already reduced to its
    stripped text or attributes. What is modelled is how those results
    become the crawl record: price normalisation, the specification table,
    the image list, the review list and the two result shapes. */
module Crawler {

  import opened Wrappers
  import opened Text
  import opened Seqs

  const FETCH_ERROR_PREFIX: string := "خطا در دریافت صفحه: "
  const PROCESS_ERROR_PREFIX: string := "خطا در پردازش صفحه: "
  const MAX_REVIEWS: nat := 5
  const MIN_REVIEW_LENGTH: nat := 10
  const MAX_BATCH: nat := 10
  const IMAGE_HOST: string := "basalam"

  /** A `.specification-item` or `.product-specs tr` element: the texts of
      its `.spec-key` and `.spec-value` descendants and of its `td` cells. */
  datatype SpecItem = SpecItem(keys: seq<string>, values: seq<string>, cells: seq<string>)

  /** An `img` element's `src` and `data-src` attributes. */
  datatype Img = Img(src: Option<string>, dataSrc: Option<string>)

  /** The selector results the crawler reads. Single elements are options;
      `rating` is the number the rating regular expression parsed, 0.0 when
      there was none. */
  datatype Page = Page(
    name: Option<string>,
    priceText: Option<string>,
    description: Option<string>,
    specItems: seq<SpecItem>,
    specRows: seq<SpecItem>,
    hostImages: seq<Img>,
    galleryImages: seq<Img>,
    reviewItems: seq<string>,
    commentItems: seq<string>,
    rating: real,
    vendorName: Option<string>,
    sellerName: Option<string>)

  /** What the HTTP request and the parser produce. */
  datatype Fetch = Fetched(page: Page) | RequestFailed(reason: string) | ProcessingFailed(reason: string)

  datatype Crawl =
    | Crawled(url: string, name: string, price: nat, priceText: string, description: string,
              specifications: map<string, string>, additionalImages: seq<string>,
              reviews: seq<string>, rating: real, vendorName: string)
    | CrawlFailed(url: string, error: string)

  /** `crawled_successfully` */
  predicate Succeeded(c: Crawl) {
    c.Crawled?
  }

  /** `soup.select(a) or soup.select(b)` */
  function Primary<T>(first: seq<T>, fallback: seq<T>): (r: seq<T>)
    ensures |first| > 0 ==> r == first
    ensures |first| == 0 ==> r == fallback
  {
    if |first| > 0 then first else fallback
  }

  /** `soup.select_one(a) or soup.select_one(b)` */
  function PrimaryOne<T>(first: Option<T>, fallback: Option<T>): (r: Option<T>)
    ensures first.Some? ==> r == first
    ensures first.None? ==> r == fallback
  {
    if first.Some? then first else fallback
  }

  // ---- Price ----

  /** Index of the first digit of `t`, or |t|. */
  function FirstDigit(t: string): (i: nat)
    ensures i <= |t|
    ensures forall j :: 0 <= j < i ==> !IsDigit(t[j])
    ensures i < |t| ==> IsDigit(t[i])
    decreases |t|
  {
    if |t| == 0 || IsDigit(t[0]) then 0 else 1 + FirstDigit(t[1..])
  }

  /** The first maximal run of digits of `t`, as `re.findall(r'[\d,]+', t)[0]`
      finds it in text without commas. */
  function FirstDigitRun(t: string): (r: Option<string>)
    ensures r.None? <==> forall j :: 0 <= j < |t| ==> !IsDigit(t[j])
    ensures r.Some? ==>
              var i := FirstDigit(t);
              && |r.value| > 0 && AllDigits(r.value)
              && OccursAt(t, r.value, i)
              && (i + |r.value| == |t| || !IsDigit(t[i + |r.value|]))
  {
    var i := FirstDigit(t);
    if i == |t| then None
    else
      var n := LeadingRun(t[i..], IsDigit);
      Some(t[i..i + n])
  }

  /** The numeric price: commas removed, the first run of digits read as a
      decimal number, 0 when the text is empty or has no digit. */
  function NormalizePrice(priceText: string): (n: nat)
    ensures (forall j :: 0 <= j < |priceText| ==> !IsDigit(priceText[j])) ==> n == 0
    ensures FirstDigitRun(RemoveChar(priceText, ',')).Some? ==>
              n == DigitsValue(FirstDigitRun(RemoveChar(priceText, ',')).value)
  {
    var t := RemoveChar(priceText, ',');
    RemovedKeepsNoDigit(priceText);
    if priceText == "" then 0
    else
      match FirstDigitRun(t)
      case None => 0
      case Some(run) => DigitsValue(run)
  }

  lemma RemovedKeepsNoDigit(s: string)
    ensures (forall j :: 0 <= j < |s| ==> !IsDigit(s[j])) ==>
              forall j :: 0 <= j < |RemoveChar(s, ',')| ==> !IsDigit(RemoveChar(s, ',')[j])
  {
    var t := RemoveChar(s, ',');
    forall j | 0 <= j < |t| && IsDigit(t[j])
      ensures exists i :: 0 <= i < |s| && IsDigit(s[i])
    {
      assert t[j] in s;
      var i :| 0 <= i < |s| && s[i] == t[j];
    }
  }

  /** A price written with thousands separators reads as the number with
      the separators left out. */
  lemma GroupedDigits(priceText: string)
    requires forall j :: 0 <= j < |priceText| ==> IsDigit(priceText[j]) || priceText[j] == ','
    requires exists j :: 0 <= j < |priceText| && IsDigit(priceText[j])
    ensures AllDigits(RemoveChar(priceText, ','))
    ensures NormalizePrice(priceText) == DigitsValue(RemoveChar(priceText, ','))
  {
    var t := RemoveChar(priceText, ',');
    assert AllDigits(t) by {
      forall j | 0 <= j < |t|
        ensures IsDigit(t[j])
      {
        assert t[j] in priceText;
        var i :| 0 <= i < |priceText| && priceText[i] == t[j];
      }
    }
    var j :| 0 <= j < |priceText| && IsDigit(priceText[j]);
    assert priceText[j] in t;
    WholeRun(t);
  }

  /** A non-empty text of digits is its own first run. */
  lemma WholeRun(t: string)
    requires |t| > 0 && AllDigits(t)
    ensures FirstDigitRun(t) == Some(t)
  {
    assert FirstDigit(t) == 0;
    assert t[0..] == t;
    var n := LeadingRun(t[0..], IsDigit);
    assert n == |t|;
    assert t[0..0 + n] == t;
  }

  /** A concrete Persian price: "۱۲۵,۰۰۰" reads as 125000. */
  lemma PersianPrice()
    ensures NormalizePrice("۱۲۵,۰۰۰") == 125000
  {
    var s := "۱۲۵,۰۰۰";
    var t := "۱۲۵۰۰۰";
    CommaRemoved(s, t);
    assert IsDigit(s[0]);
    GroupedDigits(s);
    DigitsExample(t);
  }

  lemma CommaRemoved(s: string, t: string)
    requires s == "۱۲۵,۰۰۰" && t == "۱۲۵۰۰۰"
    ensures RemoveChar(s, ',') == t
  {
    var a, b := "۱۲۵", "۰۰۰";
    assert s == (a + ",") + b;
    RemoveCharConcat(a + ",", b, ',');
    RemoveCharConcat(a, ",", ',');
    RemoveCharAbsent(a, ',');
    RemoveCharAbsent(b, ',');
  }

  lemma DigitsExample(t: string)
    requires t == "۱۲۵۰۰۰"
    ensures AllDigits(t) && DigitsValue(t) == 125000
  {
    assert DigitsValue(t[..1]) == 1;
    assert t[..2][..1] == t[..1];
    assert DigitsValue(t[..2]) == 12;
    assert t[..3][..2] == t[..2];
    assert DigitsValue(t[..3]) == 125;
    assert t[..4][..3] == t[..3];
    assert DigitsValue(t[..4]) == 1250;
    assert t[..5][..4] == t[..4];
    assert DigitsValue(t[..5]) == 12500;
    assert t[..6][..5] == t[..5];
  }

  // ---- Specifications ----

  /** The pair one element contributes: its first key and value elements,
      or else its two cells; nothing otherwise. */
  function SpecPair(item: SpecItem): Option<(string, string)> {
    if |item.keys| > 0 && |item.values| > 0 then Some((item.keys[0], item.values[0]))
    else if |item.cells| == 2 then Some((item.cells[0], item.cells[1]))
    else None
  }

  function SpecPairs(items: seq<SpecItem>): (ps: seq<(string, string)>)
    ensures forall i :: 0 <= i < |ps| ==> exists j :: 0 <= j < |items| && SpecPair(items[j]) == Some(ps[i])
    decreases |items|
  {
    if |items| == 0 then []
    else
      var rest := SpecPairs(items[1..]);
      assert forall i :: 0 <= i < |rest| ==> exists j :: 0 <= j < |items[1..]| && SpecPair(items[1..][j]) == Some(rest[i]);
      match SpecPair(items[0])
      case Some(pair) => [pair] + rest
      case None => rest
  }

  /** `specifications[key] = value` for each pair in turn. */
  function Assign(m: map<string, string>, ps: seq<(string, string)>): map<string, string>
    decreases |ps|
  {
    if |ps| == 0 then m else Assign(m[ps[0].0 := ps[0].1], ps[1..])
  }

  /** Index of the last pair for `k`, if any. */
  function LastFor(ps: seq<(string, string)>, k: string): (r: Option<nat>)
    ensures r.Some? ==> r.value < |ps| && ps[r.value].0 == k
    ensures r.Some? ==> forall j :: r.value < j < |ps| ==> ps[j].0 != k
    ensures r.None? ==> forall j :: 0 <= j < |ps| ==> ps[j].0 != k
    decreases |ps|
  {
    if |ps| == 0 then None
    else match LastFor(ps[1..], k)
      case Some(j) => Some(j + 1)
      case None => if ps[0].0 == k then Some(0) else None
  }

  /** Later pairs overwrite earlier ones. */
  lemma {:induction false} AssignLastWins(m: map<string, string>, ps: seq<(string, string)>, k: string)
    ensures k in Assign(m, ps) <==> k in m || LastFor(ps, k).Some?
    ensures LastFor(ps, k).Some? ==> Assign(m, ps)[k] == ps[LastFor(ps, k).value].1
    ensures LastFor(ps, k).None? && k in m ==> Assign(m, ps)[k] == m[k]
    decreases |ps|
  {
    if |ps| > 0 {
      AssignLastWins(m[ps[0].0 := ps[0].1], ps[1..], k);
      match LastFor(ps[1..], k)
      case Some(j) =>
        assert ps[j + 1] == ps[1..][j];
      case None =>
    }
  }

  /** The specification table: a key is present exactly when some element
      gives a pair for it, with the value of the last such pair. */
  function Specifications(items: seq<SpecItem>): (m: map<string, string>)
    ensures forall k :: k in m <==> LastFor(SpecPairs(items), k).Some?
    ensures forall k :: k in m ==> m[k] == SpecPairs(items)[LastFor(SpecPairs(items), k).value].1
  {
    var ps := SpecPairs(items);
    forall k
      ensures k in Assign(map[], ps) <==> LastFor(ps, k).Some?
      ensures k in Assign(map[], ps) ==> Assign(map[], ps)[k] == ps[LastFor(ps, k).value].1
    {
      AssignLastWins(map[], ps, k);
    }
    Assign(map[], ps)
  }

  // ---- Images ----

  /** `img.get('src') or img.get('data-src')`, with "" for no value. */
  function ImageUrl(img: Img): string {
    if img.src.Some? && img.src.value != "" then img.src.value else img.dataSrc.GetOr("")
  }

  predicate Wanted(u: string) {
    u != "" && Contains(u, IMAGE_HOST)
  }

  function WantedAndNew(seen: seq<string>): string -> bool {
    (u: string) => Wanted(u) && u !in seen
  }

  function Urls(imgs: seq<Img>): (us: seq<string>)
    ensures |us| == |imgs|
    ensures forall i :: 0 <= i < |imgs| ==> us[i] == ImageUrl(imgs[i])
  {
    seq(|imgs|, i requires 0 <= i < |imgs| => ImageUrl(imgs[i]))
  }

  /** The image loop: append a wanted URL not yet in the list. */
  function Gather(seen: seq<string>, us: seq<string>): seq<string>
    decreases |us|
  {
    if |us| == 0 then seen
    else if Wanted(us[0]) && us[0] !in seen then Gather(seen + [us[0]], us[1..])
    else Gather(seen, us[1..])
  }

  /** The loop keeps the wanted URLs not yet seen, each once, at its first
      occurrence. */
  lemma {:induction false} GatherIsDedup(seen: seq<string>, us: seq<string>)
    ensures Gather(seen, us) == seen + Dedup(Filter(us, WantedAndNew(seen)))
    decreases |us|
  {
    if |us| > 0 {
      var u := us[0];
      var f := Filter(us, WantedAndNew(seen));
      var tail := Filter(us[1..], WantedAndNew(seen));
      if Wanted(u) && u !in seen {
        GatherIsDedup(seen + [u], us[1..]);
        assert f == [u] + tail;
        assert f[1..] == tail;
        FilterFilter(us[1..], WantedAndNew(seen), Differs(u), WantedAndNew(seen + [u]));
        assert Dedup(f) == [u] + Dedup(Filter(us[1..], WantedAndNew(seen + [u])));
      } else {
        GatherIsDedup(seen, us[1..]);
        assert f == tail;
      }
    }
  }

  /** The additional images: the wanted URLs of the elements, without
      repeats, in order of first occurrence. */
  function AdditionalImages(imgs: seq<Img>): (r: seq<string>)
    ensures r == Dedup(Filter(Urls(imgs), Wanted))
    ensures forall i :: 0 <= i < |r| ==> r[i] != "" && Contains(r[i], IMAGE_HOST)
    ensures forall i, j :: 0 <= i < j < |r| ==> r[i] != r[j]
  {
    var us := Urls(imgs);
    GatherIsDedup([], us);
    FilterSame(us, WantedAndNew([]), Wanted);
    assert [] + Dedup(Filter(us, Wanted)) == Dedup(Filter(us, Wanted));
    var r := Gather([], us);
    forall i | 0 <= i < |r|
      ensures r[i] != "" && Contains(r[i], IMAGE_HOST)
    {
      assert r[i] in Filter(us, Wanted);
    }
    r
  }

  // ---- Reviews ----

  predicate LongEnough(text: string) {
    |text| > MIN_REVIEW_LENGTH
  }

  /** The first five review elements, keeping texts longer than ten
      characters. */
  function Reviews(texts: seq<string>): (r: seq<string>)
    ensures |r| <= MAX_REVIEWS
    ensures forall i :: 0 <= i < |r| ==> |r[i]| > MIN_REVIEW_LENGTH && r[i] in Take(texts, MAX_REVIEWS)
    ensures forall i :: 0 <= i < |texts| && i < MAX_REVIEWS && LongEnough(texts[i]) ==> texts[i] in r
    ensures forall x :: multiset(r)[x] == if LongEnough(x) then multiset(Take(texts, MAX_REVIEWS))[x] else 0
  {
    FilterCounts(Take(texts, MAX_REVIEWS), LongEnough);
    Filter(Take(texts, MAX_REVIEWS), LongEnough)
  }

  /** The reviews read element by element: among the first five, a long
      text is appended after those before it, a short one is skipped, and
      nothing after the fifth element is looked at. */
  lemma {:induction false} ReviewsSnoc(texts: seq<string>, t: string)
    ensures |texts| < MAX_REVIEWS ==>
              Reviews(texts + [t]) == Reviews(texts) + if LongEnough(t) then [t] else []
    ensures |texts| >= MAX_REVIEWS ==> Reviews(texts + [t]) == Reviews(texts)
  {
    if |texts| < MAX_REVIEWS {
      assert Take(texts + [t], MAX_REVIEWS) == texts + [t];
      assert Take(texts, MAX_REVIEWS) == texts;
      FilterConcat(texts, [t], LongEnough);
      assert Filter([t], LongEnough) == if LongEnough(t) then [t] else [] by {
        assert [t][1..] == [];
      }
    } else {
      assert Take(texts + [t], MAX_REVIEWS) == Take(texts, MAX_REVIEWS);
    }
  }

  // ---- The crawl ----

  /** The record built from a fetched page. */
  function Extract(url: string, page: Page): (c: Crawl)
    ensures c.Crawled? && c.url == url
  {
    var priceText := page.priceText.GetOr("");
    Crawled(
      url,
      page.name.GetOr(""),
      NormalizePrice(priceText),
      priceText,
      page.description.GetOr(""),
      Specifications(Primary(page.specItems, page.specRows)),
      AdditionalImages(Primary(page.hostImages, page.galleryImages)),
      Reviews(Primary(page.reviewItems, page.commentItems)),
      page.rating,
      PrimaryOne(page.vendorName, page.sellerName).GetOr(""))
  }

  /** crawl_product_page: a fetched page always succeeds; a failed request or
      a failure while processing gives only the message and the URL. */
  function CrawlProductPage(url: string, fetch: string -> Fetch): (c: Crawl)
    ensures c.url == url
    ensures Succeeded(c) <==> fetch(url).Fetched?
    ensures fetch(url).RequestFailed? ==> c.error == FETCH_ERROR_PREFIX + fetch(url).reason
    ensures fetch(url).ProcessingFailed? ==> c.error == PROCESS_ERROR_PREFIX + fetch(url).reason
  {
    match fetch(url)
    case Fetched(page) => Extract(url, page)
    case RequestFailed(reason) => CrawlFailed(url, FETCH_ERROR_PREFIX + reason)
    case ProcessingFailed(reason) => CrawlFailed(url, PROCESS_ERROR_PREFIX + reason)
  }

  /** A page where no selector matched still counts as a success, with
      empty values. */
  lemma EmptyPageSucceeds(url: string)
    ensures Extract(url, Page(None, None, None, [], [], [], [], [], [], 0.0, None, None))
            == Crawled(url, "", 0, "", "", map[], [], [], 0.0, "")
  {
  }

  /** Whatever the page, the record keeps its caps and filters. */
  lemma ExtractBounds(url: string, page: Page)
    ensures var c := Extract(url, page);
            && |c.reviews| <= MAX_REVIEWS
            && (forall i :: 0 <= i < |c.reviews| ==> |c.reviews[i]| > MIN_REVIEW_LENGTH)
            && (forall i, j :: 0 <= i < j < |c.additionalImages| ==> c.additionalImages[i] != c.additionalImages[j])
            && (forall i :: 0 <= i < |c.additionalImages| ==> Contains(c.additionalImages[i], IMAGE_HOST))
  {
  }

  /** batch_crawl_products: one result per URL of the first ten, in order. */
  function BatchCrawlProducts(urls: seq<string>, fetch: string -> Fetch): (r: seq<Crawl>)
    ensures |r| == if |urls| < MAX_BATCH then |urls| else MAX_BATCH
    ensures forall i :: 0 <= i < |r| ==> r[i] == CrawlProductPage(urls[i], fetch) && r[i].url == urls[i]
  {
    var first := Take(urls, MAX_BATCH);
    seq(|first|, i requires 0 <= i < |first| => CrawlProductPage(first[i], fetch))
  }
}

=== FILE: expander.dfy ===
/** The parser of the query expander's reply (tools/eco_search.py): the
    language model's text is read line by line by a small state machine that
    collects `-` bullets after the components marker and the text after the
    strategy marker. The model reply itself is an input. */
module Expander {

  import opened Wrappers
  import opened Text

  const COMPONENTS_MARKER: string := "اجزاء مرتبط:"
  const STRATEGY_MARKER: string := "استراتژی جستجو:"
  const DEFAULT_STRATEGY: string := "جستجوی گسترده برای یافتن تمام اجزاء مرتبط"
  const MAX_COMPONENTS: nat := 10

  /** The tool's output record. */
  datatype Expansion = Expansion(originalQuery: string, components: seq<string>, strategy: string)

  /** The state of the line loop. */
  datatype Parser = Parser(components: seq<string>, strategy: string, inComponents: bool, inStrategy: bool)

  const START: Parser := Parser([], "", false, false)

  /** A bullet line with every `-` removed, then stripped. */
  function Bullet(line: string): (c: string)
    ensures '-' !in c
  {
    var r := ReplaceAll(line, "-", "");
    ReplaceCharIsRemove(line, '-');
    StripChars(r);
    Strip(r)
  }

  /** The text of a strategy line after the marker, stripped. */
  function MarkerRest(line: string): string {
    Strip(ReplaceAll(line, STRATEGY_MARKER, ""))
  }

  /** What the loop's tests find in a stripped line, in the order it makes
      them: the components marker first, then the strategy marker; any other
      line is kept, with its cleaned bullet when it starts with `-`. */
  datatype LineKind =
    | ComponentsMark
    | StrategyMark(rest: string)
    | Plain(line: string, bullet: Option<string>)

  function Classify(line: string): (k: LineKind)
    ensures k.ComponentsMark? <==> Contains(line, COMPONENTS_MARKER)
    ensures k.StrategyMark? <==> !Contains(line, COMPONENTS_MARKER) && Contains(line, STRATEGY_MARKER)
    ensures k.Plain? ==> k.line == line && (k.bullet.Some? <==> StartsWith(line, "-"))
    ensures k.Plain? && k.bullet.Some? ==> '-' !in k.bullet.value
  {
    if Contains(line, COMPONENTS_MARKER) then ComponentsMark
    else if Contains(line, STRATEGY_MARKER) then StrategyMark(MarkerRest(line))
    else Plain(line, if StartsWith(line, "-") then Some(Bullet(line)) else None)
  }

  /** One iteration of the loop. */
  function Step(p: Parser, k: LineKind): Parser {
    match k
    case ComponentsMark => p.(inComponents := true)
    case StrategyMark(rest) => p.(inComponents := false, inStrategy := true, strategy := rest)
    case Plain(line, bullet) =>
      if p.inStrategy then p.(strategy := p.strategy + " " + line)
      else if p.inComponents && bullet.Some? then
        if bullet.value != "" then p.(components := p.components + [bullet.value]) else p
      else p
  }

  /** The loop over all the lines: the component list never shrinks and
      grows by at most one entry per line. */
  function Run(p: Parser, ks: seq<LineKind>): (r: Parser)
    ensures |p.components| <= |r.components| <= |p.components| + |ks|
    decreases |ks|
  {
    if |ks| == 0 then p else Run(Step(p, ks[0]), ks[1..])
  }

  /** The lines the loop reads: the stripped reply split at newlines, each
      stripped again. */
  function Lines(content: string): seq<string> {
    StripAll(SplitOn(Strip(content), '\n'))
  }

  function Kinds(lines: seq<string>): (ks: seq<LineKind>)
    ensures |ks| == |lines| && forall i :: 0 <= i < |lines| ==> ks[i] == Classify(lines[i])
  {
    seq(|lines|, i requires 0 <= i < |lines| => Classify(lines[i]))
  }

  // ---- An independent description of what the loop collects ----

  /** Index of the first components-marker line, or |ks|. */
  function FirstComponentsLine(ks: seq<LineKind>): (n: nat)
    ensures n <= |ks|
    ensures forall i :: 0 <= i < n ==> !ks[i].ComponentsMark?
    ensures n < |ks| ==> ks[n].ComponentsMark?
    decreases |ks|
  {
    if |ks| == 0 || ks[0].ComponentsMark? then 0 else 1 + FirstComponentsLine(ks[1..])
  }

  /** Index of the first strategy line, or |ks|. */
  function FirstStrategyLine(ks: seq<LineKind>): (n: nat)
    ensures n <= |ks|
    ensures forall i :: 0 <= i < n ==> !ks[i].StrategyMark?
    ensures n < |ks| ==> ks[n].StrategyMark?
    decreases |ks|
  {
    if |ks| == 0 || ks[0].StrategyMark? then 0 else 1 + FirstStrategyLine(ks[1..])
  }

  /** Index of the last strategy line, if there is one. */
  function LastStrategyLine(ks: seq<LineKind>): (r: Option<nat>)
    ensures r.Some? ==> r.value < |ks| && ks[r.value].StrategyMark?
    ensures r.Some? ==> forall i :: r.value < i < |ks| ==> !ks[i].StrategyMark?
    ensures r.None? ==> forall i :: 0 <= i < |ks| ==> !ks[i].StrategyMark?
    decreases |ks|
  {
    if |ks| == 0 then None
    else match LastStrategyLine(ks[1..])
      case Some(j) => Some(j + 1)
      case None => if ks[0].StrategyMark? then Some(0) else None
  }

  /** The component a line adds when the loop is collecting: its cleaned
      bullet, if it has a non-empty one. */
  function Item(k: LineKind): (c: seq<string>)
    ensures |c| <= 1 && forall i :: 0 <= i < |c| ==> c[i] != ""
  {
    if k.Plain? && k.bullet.Some? && k.bullet.value != "" then [k.bullet.value] else []
  }

  /** The non-empty cleaned bullets of `ks`, in order. */
  function Bullets(ks: seq<LineKind>): (cs: seq<string>)
    ensures |cs| <= |ks|
    ensures forall i :: 0 <= i < |cs| ==> cs[i] != ""
    decreases |ks|
  {
    if |ks| == 0 then []
    else Item(ks[0]) + Bullets(ks[1..])
  }

  /** The components: the bullets strictly between the first components
      marker and the first strategy line; none when no marker comes first. */
  function ComponentsOf(ks: seq<LineKind>): (cs: seq<string>)
    ensures forall i :: 0 <= i < |cs| ==> cs[i] != ""
  {
    var c := FirstComponentsLine(ks);
    var f := FirstStrategyLine(ks);
    if c < f then Bullets(ks[c + 1..f]) else []
  }

  /** `" " + line` for every line that is not a components-marker line. */
  function Continuation(ks: seq<LineKind>): string
    decreases |ks|
  {
    if |ks| == 0 then ""
    else (if ks[0].Plain? then " " + ks[0].line else "") + Continuation(ks[1..])
  }

  /** The strategy: the rest of the last strategy line, continued by every
      later line other than a components marker; empty without a strategy
      line. */
  function StrategyOf(ks: seq<LineKind>): string {
    match LastStrategyLine(ks)
    case Some(s) => ks[s].rest + Continuation(ks[s + 1..])
    case None => ""
  }

  /** concept_components_expand after the model call. */
  function ParseExpansion(query: string, content: string): (e: Expansion)
    ensures e.originalQuery == query
    ensures e.components == Take(ComponentsOf(Kinds(Lines(content))), MAX_COMPONENTS)
    ensures |e.components| <= MAX_COMPONENTS
    ensures forall i :: 0 <= i < |e.components| ==> e.components[i] != "" && '-' !in e.components[i]
    ensures e.strategy != ""
  {
    ParseLines(query, Lines(content))
  }

  /** The loop and the output record, over the stripped lines: at most ten
      components, each non-empty and free of `-`, taken from the bullets
      between the markers; the strategy, or the default when it is empty. */
  function ParseLines(query: string, lines: seq<string>): (e: Expansion)
    ensures e.originalQuery == query
    ensures e.components == Take(ComponentsOf(Kinds(lines)), MAX_COMPONENTS)
    ensures |e.components| <= MAX_COMPONENTS
    ensures forall i :: 0 <= i < |e.components| ==> e.components[i] != "" && '-' !in e.components[i]
    ensures e.strategy != ""
    ensures StrategyOf(Kinds(lines)) != "" ==> e.strategy == StrategyOf(Kinds(lines))
    ensures StrategyOf(Kinds(lines)) == "" ==> e.strategy == DEFAULT_STRATEGY
  {
    var ks := Kinds(lines);
    var p := Run(START, ks);
    RunIsDescribed(ks);
    KindsBulletsClean(ks, lines);
    var cs := Take(p.components, MAX_COMPONENTS);
    assert forall i :: 0 <= i < |cs| ==> cs[i] == ComponentsOf(ks)[i];
    Expansion(query, cs, if p.strategy != "" then p.strategy else DEFAULT_STRATEGY)
  }

  /** The loop from its initial state computes the description. */
  lemma RunIsDescribed(ks: seq<LineKind>)
    ensures Run(START, ks).components == ComponentsOf(ks)
    ensures Run(START, ks).strategy == StrategyOf(ks)
  {
    ComponentsBeforeMarker(START, ks);
    StrategyAfterMarker(START, ks);
    assert START.components + ComponentsOf(ks) == ComponentsOf(ks);
  }

  // ---- The loop computes the description ----

  /** Once in the strategy part, the components never change again. */
  lemma {:induction false} StrategyPartKeepsComponents(p: Parser, ks: seq<LineKind>)
    requires p.inStrategy
    ensures Run(p, ks).components == p.components
    decreases |ks|
  {
    if |ks| > 0 {
      StrategyPartKeepsComponents(Step(p, ks[0]), ks[1..]);
    }
  }

  /** Inside the components part, every bullet up to the first strategy line
      is collected. */
  lemma {:induction false} CollectsUntilStrategy(p: Parser, ks: seq<LineKind>)
    requires p.inComponents && !p.inStrategy
    ensures Run(p, ks).components == p.components + Bullets(ks[..FirstStrategyLine(ks)])
    decreases |ks|
  {
    if |ks| > 0 {
      var q := Step(p, ks[0]);
      if ks[0].StrategyMark? {
        StrategyPartKeepsComponents(q, ks[1..]);
        assert ks[..FirstStrategyLine(ks)] == [];
      } else {
        StepInComponents(p, ks[0]);
        CollectsUntilStrategy(q, ks[1..]);
        BulletsBeforeStrategyStep(ks);
        assert Run(p, ks) == Run(q, ks[1..]);
      }
    }
  }

  /** Inside the components part, a line other than a strategy line adds
      its item and stays inside. */
  lemma StepInComponents(p: Parser, k: LineKind)
    requires p.inComponents && !p.inStrategy && !k.StrategyMark?
    ensures Step(p, k).components == p.components + Item(k)
    ensures Step(p, k).inComponents && !Step(p, k).inStrategy
  {
  }

  /** The bullets before the first strategy line, one line at a time. */
  lemma BulletsBeforeStrategyStep(ks: seq<LineKind>)
    requires |ks| > 0 && !ks[0].StrategyMark?
    ensures FirstStrategyLine(ks) == 1 + FirstStrategyLine(ks[1..])
    ensures Bullets(ks[..FirstStrategyLine(ks)]) == Item(ks[0]) + Bullets(ks[1..][..FirstStrategyLine(ks[1..])])
  {
    var f := FirstStrategyLine(ks);
    var rest := ks[1..][..f - 1];
    assert ks[..f] == [ks[0]] + rest;
    assert ([ks[0]] + rest)[1..] == rest;
  }

  /** From outside both parts, the loop collects exactly `ComponentsOf`. */
  lemma {:induction false} ComponentsBeforeMarker(p: Parser, ks: seq<LineKind>)
    requires !p.inComponents && !p.inStrategy
    ensures Run(p, ks).components == p.components + ComponentsOf(ks)
    decreases |ks|
  {
    if |ks| > 0 {
      var q := Step(p, ks[0]);
      if ks[0].ComponentsMark? {
        CollectsUntilStrategy(q, ks[1..]);
        assert ks[1..FirstStrategyLine(ks)] == ks[1..][..FirstStrategyLine(ks[1..])];
      } else if ks[0].StrategyMark? {
        StrategyPartKeepsComponents(q, ks[1..]);
      } else {
        ComponentsBeforeMarker(q, ks[1..]);
        var c := FirstComponentsLine(ks[1..]);
        var f := FirstStrategyLine(ks[1..]);
        if c < f {
          ShiftedSlice(ks, c, f);
        }
      }
    }
  }

  lemma ShiftedSlice<T>(s: seq<T>, c: nat, f: nat)
    requires c < f < |s|
    ensures s[c + 2..f + 1] == s[1..][c + 1..f]
  {
    var a := s[c + 2..f + 1];
    var b := s[1..][c + 1..f];
    forall i | 0 <= i < |a|
      ensures a[i] == b[i]
    {
      assert s[1..][c + 1 + i] == s[c + 2 + i];
    }
  }

  /** The strategy after running from any state. */
  function StrategyFrom(p: Parser, ks: seq<LineKind>): string {
    match LastStrategyLine(ks)
    case Some(s) => ks[s].rest + Continuation(ks[s + 1..])
    case None => if p.inStrategy then p.strategy + Continuation(ks) else p.strategy
  }

  lemma {:induction false} StrategyAfterMarker(p: Parser, ks: seq<LineKind>)
    ensures Run(p, ks).strategy == StrategyFrom(p, ks)
    decreases |ks|
  {
    if |ks| > 0 {
      var q := Step(p, ks[0]);
      StrategyAfterMarker(q, ks[1..]);
      match LastStrategyLine(ks[1..])
      case Some(j) =>
        LaterStrategyLine(ks, j);
      case None =>
        NoLaterStrategyLine(p, ks);
    }
  }

  /** A strategy line after the first line decides the strategy alone. */
  lemma LaterStrategyLine(ks: seq<LineKind>, j: nat)
    requires |ks| > 0 && LastStrategyLine(ks[1..]) == Some(j)
    ensures LastStrategyLine(ks) == Some(j + 1)
    ensures ks[j + 1] == ks[1..][j] && ks[j + 2..] == ks[1..][j + 1..]
  {
  }

  /** Without a later strategy line, the first step decides how the
      continuation is added. */
  lemma NoLaterStrategyLine(p: Parser, ks: seq<LineKind>)
    requires |ks| > 0 && LastStrategyLine(ks[1..]).None?
    ensures StrategyFrom(Step(p, ks[0]), ks[1..]) == StrategyFrom(p, ks)
  {
    var rest := Continuation(ks[1..]);
    assert Continuation(ks) == (if ks[0].Plain? then " " + ks[0].line else "") + rest;
    match ks[0]
    case ComponentsMark =>
      assert Continuation(ks) == rest;
    case StrategyMark(r) =>
      assert LastStrategyLine(ks) == Some(0);
      assert ks[1..] == ks[0 + 1..];
    case Plain(line, bullet) =>
      if p.inStrategy {
        assert p.strategy + " " + line + rest == p.strategy + (" " + line + rest);
      }
  }

  /** The bullets of classified lines never hold a `-`. */
  lemma {:induction false} BulletsClean(ks: seq<LineKind>)
    requires forall i :: 0 <= i < |ks| && ks[i].Plain? && ks[i].bullet.Some? ==> '-' !in ks[i].bullet.value
    ensures forall i :: 0 <= i < |Bullets(ks)| ==> '-' !in Bullets(ks)[i]
    decreases |ks|
  {
    if |ks| > 0 {
      BulletsClean(ks[1..]);
      assert Bullets(ks) == Item(ks[0]) + Bullets(ks[1..]);
    }
  }

  lemma KindsBulletsClean(ks: seq<LineKind>, lines: seq<string>)
    requires ks == Kinds(lines)
    ensures forall i :: 0 <= i < |ComponentsOf(ks)| ==> '-' !in ComponentsOf(ks)[i]
  {
    var c := FirstComponentsLine(ks);
    var f := FirstStrategyLine(ks);
    if c < f {
      var mid := ks[c + 1..f];
      forall i | 0 <= i < |mid| && mid[i].Plain? && mid[i].bullet.Some?
        ensures '-' !in mid[i].bullet.value
      {
        assert mid[i] == Classify(lines[c + 1 + i]);
      }
      BulletsClean(mid);
    }
  }

  // ---- Consequences ----

  /** Without a components marker no component is found, and nothing fails. */
  lemma NoMarkerNoComponents(query: string, content: string)
    requires forall i :: 0 <= i < |Lines(content)| ==> !Contains(Lines(content)[i], COMPONENTS_MARKER)
    ensures ParseExpansion(query, content).components == []
  {
    var ks := Kinds(Lines(content));
    assert FirstComponentsLine(ks) == |ks|;
  }

  /** A line carrying both markers opens the components part and leaves the
      strategy alone. */
  lemma BothMarkersMeanComponents(p: Parser, line: string)
    requires Contains(line, COMPONENTS_MARKER) && Contains(line, STRATEGY_MARKER)
    ensures Step(p, Classify(line)) == p.(inComponents := true)
  {
  }
}

=== FILE: id_scan.dfy ===
/** The scan for stored-product identifiers in chat text, used by app.py to
    count the ids of a "saved" message and by chat.py to pick the products
    of a comparison request: `re.findall(r'[a-f0-9-]{36}', text)`, the shape
    of the UUID text the catalog hands out. */
module IdScan {

  const ID_LENGTH: nat := 36

  /** `[a-f0-9-]`: lower-case hexadecimal digits and the dash. */
  predicate IsIdChar(c: char) {
    ('a' <= c <= 'f') || ('0' <= c <= '9') || c == '-'
  }

  ghost predicate AllIdChars(s: string) {
    forall i :: 0 <= i < |s| ==> IsIdChar(s[i])
  }

  /** The pattern matches at position `p`. */
  predicate IdAt(s: string, p: nat) {
    p + ID_LENGTH <= |s| && forall i :: p <= i < p + ID_LENGTH ==> IsIdChar(s[i])
  }

  /** `re.findall`: the match is tried at each position from the left, and
      after a match the scan resumes right behind it, so matches never
      overlap. Every result is 36 identifier characters taken from `s`. */
  function FindIds(s: string): (ids: seq<string>)
    ensures forall i :: 0 <= i < |ids| ==> |ids[i]| == ID_LENGTH && AllIdChars(ids[i])
    ensures |ids| * ID_LENGTH <= |s|
    decreases |s|
  {
    if |s| < ID_LENGTH then []
    else if IdAt(s, 0) then [s[..ID_LENGTH]] + FindIds(s[ID_LENGTH..])
    else FindIds(s[1..])
  }

  /** Consecutive 36-character pieces of `s` from its start; a shorter rest
      is dropped. */
  function Chunks(s: string): (cs: seq<string>)
    ensures |cs| == |s| / ID_LENGTH
    decreases |s|
  {
    if |s| < ID_LENGTH then [] else [s[..ID_LENGTH]] + Chunks(s[ID_LENGTH..])
  }

  /** Inside a run of identifier characters the matches are the run's
      consecutive 36-character pieces. */
  lemma {:induction false} FindIdsInRun(s: string)
    requires AllIdChars(s)
    ensures FindIds(s) == Chunks(s)
    decreases |s|
  {
    if |s| >= ID_LENGTH {
      assert IdAt(s, 0);
      FindIdsInRun(s[ID_LENGTH..]);
    }
  }

  /** A text shorter than an identifier, followed by a separator, hides
      nothing: the scan continues after the separator. */
  lemma {:induction false} SkipShortPrefix(a: string, c: char, b: string)
    requires |a| < ID_LENGTH && !IsIdChar(c)
    ensures FindIds(a + [c] + b) == FindIds(b)
    decreases |a|
  {
    var s := a + [c] + b;
    if |s| >= ID_LENGTH {
      assert s[|a|] == c;
      assert !IdAt(s, 0);
      if |a| == 0 {
        assert s[1..] == b;
      } else {
        assert s[1..] == a[1..] + [c] + b;
        SkipShortPrefix(a[1..], c, b);
      }
    }
  }

  /** A character outside the class separates the text: no match spans
      it, and the matches on either side are found independently. */
  lemma {:induction false} FindIdsSplit(a: string, c: char, b: string)
    requires !IsIdChar(c)
    ensures FindIds(a + [c] + b) == FindIds(a) + FindIds(b)
    decreases |a|
  {
    var s := a + [c] + b;
    if |a| < ID_LENGTH {
      SkipShortPrefix(a, c, b);
    } else {
      assert s[..ID_LENGTH] == a[..ID_LENGTH];
      if IdAt(a, 0) {
        assert IdAt(s, 0);
        assert s[ID_LENGTH..] == a[ID_LENGTH..] + [c] + b;
        FindIdsSplit(a[ID_LENGTH..], c, b);
      } else {
        assert !IdAt(s, 0);
        assert s[1..] == a[1..] + [c] + b;
        FindIdsSplit(a[1..], c, b);
      }
    }
  }

  /** Text with no identifier character at all. */
  predicate Plain(s: string) {
    forall i :: 0 <= i < |s| ==> !IsIdChar(s[i])
  }

  /** A text without identifier characters holds no identifier. */
  lemma {:induction false} PlainHasNoIds(a: string)
    requires Plain(a)
    ensures FindIds(a) == []
    decreases |a|
  {
    if |a| >= ID_LENGTH {
      assert !IsIdChar(a[0]);
      assert !IdAt(a, 0);
      PlainHasNoIds(a[1..]);
    }
  }

  /** A non-empty text without identifier characters in front of `b` hides
      nothing and joins nothing to `b`. */
  lemma {:induction false} SkipPlain(a: string, b: string)
    requires |a| > 0 && Plain(a)
    ensures FindIds(a + b) == FindIds(b)
  {
    var c := a[|a| - 1];
    var front := a[..|a| - 1];
    assert a + b == front + [c] + b;
    FindIdsSplit(front, c, b);
    PlainHasNoIds(front);
  }

  /** An identifier standing alone is found once. */
  lemma {:induction false} OneId(id: string)
    requires |id| == ID_LENGTH && AllIdChars(id)
    ensures FindIds(id) == [id]
  {
    FindIdsInRun(id);
    assert id[..ID_LENGTH] == id && id[ID_LENGTH..] == [];
  }

  /** A plain separator splits the scan into the scans of either side. */
  lemma {:induction false} SplitAtPlain(a: string, m: string, b: string)
    requires |m| > 0 && Plain(m)
    ensures FindIds(a + (m + b)) == FindIds(a) + FindIds(b)
  {
    assert a + (m + b) == a + [m[0]] + (m[1..] + b);
    FindIdsSplit(a, m[0], m[1..] + b);
    if |m| > 1 {
      SkipPlain(m[1..], b);
    } else {
      assert m[1..] + b == b;
    }
  }
}

=== FILE: intent.dfy ===
/** The intent detector of tools/intent_detector.py after the model call:
    the reply, stripped and lower-cased, is searched for the labels in a
    fixed order. */
module Intent {

  import opened Text

  datatype Intent = SearchProduct | ContactSeller | Other

  const SEARCH_LABEL: string := "search_product"
  const CONTACT_LABEL: string := "contact_seller"
  const OTHER_LABEL: string := "other"

  function Label(i: Intent): string {
    match i
    case SearchProduct => SEARCH_LABEL
    case ContactSeller => CONTACT_LABEL
    case Other => OTHER_LABEL
  }

  /** detect_intent on the model's reply `content`. */
  function DetectIntent(content: string): (i: Intent)
    ensures var c := Lower(Strip(content));
            && (i == SearchProduct <==> Contains(c, SEARCH_LABEL))
            && (i == ContactSeller <==> !Contains(c, SEARCH_LABEL) && Contains(c, CONTACT_LABEL))
            && (i == Other <==> !Contains(c, SEARCH_LABEL) && !Contains(c, CONTACT_LABEL))
  {
    var c := Lower(Strip(content));
    if Contains(c, SEARCH_LABEL) then SearchProduct
    else if Contains(c, CONTACT_LABEL) then ContactSeller
    else Other
  }

  /** A reply that is exactly a label, in any ASCII case and with white
      space around it, is classified as that label. */
  lemma LabelsRecognised(i: Intent, content: string)
    requires Lower(Strip(content)) == Label(i)
    ensures DetectIntent(content) == i
  {
    match i
    case SearchProduct =>
      ContainsAt(Label(i), SEARCH_LABEL, 0);
    case ContactSeller =>
      assert !OccursAt(CONTACT_LABEL, SEARCH_LABEL, 0) by {
        assert CONTACT_LABEL[0] != SEARCH_LABEL[0];
      }
      ContainsAt(Label(i), CONTACT_LABEL, 0);
    case Other =>
  }

  /** A label written in capitals anywhere in the reply still counts. */
  lemma UpperCaseLabel(content: string, i: nat)
    requires OccursAt(Strip(content), "SEARCH_PRODUCT", i)
    ensures DetectIntent(content) == SearchProduct
  {
    var s := Strip(content);
    LowerSlice(s, i, i + 14);
    LowerUpperLabel();
    ContainsAt(Lower(s), SEARCH_LABEL, i);
  }

  lemma LowerSlice(s: string, i: nat, j: nat)
    requires i <= j <= |s|
    ensures Lower(s)[i..j] == Lower(s[i..j])
  {
  }

  lemma LowerUpperLabel()
    ensures Lower("SEARCH_PRODUCT") == SEARCH_LABEL
  {
  }
}

=== FILE: legacy_search.dfy ===
/** The earlier search tool at the repository root (basalam_search.py): the
    same cleaning as the marketplace search tool, but the price limit is sent
    unconverted and the only client-side filter drops records without a
    price. */
module LegacySearch {

  import opened Wrappers
  import opened Seqs
  import Sorting
  import opened ListingSearch

  /** The parameters sent: the limit, when truthy, exactly as given. */
  function LegacyParams(query: string, maxPrice: Option<int>): (r: SearchParams)
    ensures r.q == query && r.minRating.None? && r.vendorCity.None?
    ensures r.maxPrice.Some? <==> IntSet(maxPrice)
    ensures r.maxPrice.Some? ==> r.maxPrice == maxPrice
  {
    SearchParams(query, if IntSet(maxPrice) then maxPrice else None, None, None)
  }

  function LegacySearchBasalam(query: string, maxPrice: Option<int>, api: SearchParams -> ApiResponse)
    : (r: Result<seq<Listing>, string>)
    ensures var resp := api(LegacyParams(query, maxPrice));
            && (r.Failure? <==> resp.status != 200 || AnyNullObject(resp.products))
            && (resp.status != 200 ==> r == Failure(SEARCH_ERROR))
            && (resp.status == 200 && AnyNullObject(resp.products) ==> r == Failure(NULL_GET_ERROR))
            && (r.Success? ==>
                  && Sorting.StableSortOf(r.value, Filter(CleanAll(resp.products), HasPrice), PriceKey)
                  && multiset(r.value) == multiset(Filter(CleanAll(resp.products), HasPrice)))
  {
    var resp := api(LegacyParams(query, maxPrice));
    if resp.status != 200 then Failure(SEARCH_ERROR)
    else if AnyNullObject(resp.products) then Failure(NULL_GET_ERROR)
    else Success(Sorting.SortBy(Filter(CleanAll(resp.products), HasPrice), PriceKey))
  }

  /** With no rating or city filter the newer tool keeps the same records and
      orders them the same way: the two differ only in what they send. */
  lemma {:induction false} SameFilterWithoutOptions(ls: seq<Listing>)
    ensures Filter(ls, (l: Listing) => Keep(l, None, None)) == Filter(ls, HasPrice)
    decreases |ls|
  {
    if |ls| > 0 {
      SameFilterWithoutOptions(ls[1..]);
    }
  }

  /** Given the same API answer, the legacy search and the newer one without
      rating and city options return the same list. */
  lemma AgreesWithNewerSearch(query: string, maxPrice: Option<int>, api: SearchParams -> ApiResponse)
    requires api(LegacyParams(query, maxPrice)) == api(BuildParams(query, maxPrice, None, None))
    ensures LegacySearchBasalam(query, maxPrice, api) == SearchBasalam(query, maxPrice, None, None, api)
  {
    var resp := api(LegacyParams(query, maxPrice));
    if resp.status == 200 && !AnyNullObject(resp.products) {
      SameFilterWithoutOptions(CleanAll(resp.products));
      var r := SearchBasalam(query, maxPrice, None, None, api);
      Sorting.StableSortUnique(r.value, Filter(CleanAll(resp.products), HasPrice), PriceKey);
    }
  }

  /** The newer tool sends ten times the limit the legacy tool sends. */
  lemma LimitScaled(query: string, maxPrice: Option<int>)
    requires IntSet(maxPrice)
    ensures BuildParams(query, maxPrice, None, None).maxPrice.value
            == 10 * LegacyParams(query, maxPrice).maxPrice.value
  {
  }
}

=== FILE: listing_search.dfy ===
/** The marketplace search tool of tools/basalam_search.py: build the query
    parameters, call the search API (a parameter of the model), clean each
    returned product, drop records by the three client-side filters and sort
    by price. */
module ListingSearch {

  import opened Wrappers
  import opened Text
  import opened Seqs
  import Sorting

  /** One product of the API's JSON response, as far as the cleaning reads
      it; None stands for a missing key or a JSON null. The identifier is
      kept as the text f-string formatting gives it. `nullObject` says that
      `photo`, `rating`, `vendor` or `vendor.owner` is present but JSON null,
      so that the chained `.get` of the cleaning raises on it. */
  datatype ApiProduct = ApiProduct(
    name: Option<string>,
    price: Option<int>,
    photoMedium: Option<string>,
    ratingAverage: Option<real>,
    ratingCount: Option<int>,
    vendorName: Option<string>,
    vendorCity: Option<string>,
    id: Option<string>,
    nullObject: bool)

  datatype ApiResponse = ApiResponse(status: int, products: seq<ApiProduct>)

  /** The query string sent to the API; None means the parameter is not sent. */
  datatype SearchParams = SearchParams(
    q: string, maxPrice: Option<int>, minRating: Option<real>, vendorCity: Option<string>)

  /** A cleaned search record: prices in Toman, link to the product page. */
  datatype Listing = Listing(
    name: Option<string>,
    price: int,
    image: Option<string>,
    rating: Option<real>,
    ratingCount: Option<int>,
    vendorName: Option<string>,
    vendorCity: Option<string>,
    productId: Option<string>,
    link: string)

  const SEARCH_ERROR: string := "خطا در جستجوی باسلام"
  const PRODUCT_LINK: string := "https://basalam.com/p/"
  /** The text of the AttributeError `None.get(...)` raises. */
  const NULL_GET_ERROR: string := "'NoneType' object has no attribute 'get'"

  /** Python truthiness of optional arguments and fields. */
  predicate IntSet(o: Option<int>) { o.Some? && o.value != 0 }
  predicate RealSet(o: Option<real>) { o.Some? && o.value != 0.0 }
  predicate TextSet(o: Option<string>) { o.Some? && o.value != "" }

  /** `rial // 10`: Python's floor division (Dafny's `/` agrees with it for
      a positive divisor). */
  function ToToman(rial: int): (toman: int)
    ensures toman * 10 <= rial < toman * 10 + 10
  {
    rial / 10
  }

  /** `f"{product.get('id')}"` */
  function IdText(id: Option<string>): string {
    match id
    case Some(s) => s
    case None => "None"
  }

  /** `f"https://basalam.com/p/{product.get('id')}"` */
  function ProductLink(id: Option<string>): (link: string)
    ensures StartsWith(link, PRODUCT_LINK) && link[|PRODUCT_LINK|..] == IdText(id)
  {
    PRODUCT_LINK + IdText(id)
  }

  /** The per-product cleaning of the search loop. */
  function Clean(p: ApiProduct): (l: Listing)
    ensures l.price * 10 <= p.price.GetOr(0) < l.price * 10 + 10
    ensures l.productId == p.id && l.link == ProductLink(p.id)
    ensures l.name == p.name && l.image == p.photoMedium && l.rating == p.ratingAverage
    ensures l.ratingCount == p.ratingCount
    ensures l.vendorName == p.vendorName && l.vendorCity == p.vendorCity
  {
    Listing(p.name, ToToman(p.price.GetOr(0)), p.photoMedium, p.ratingAverage, p.ratingCount,
            p.vendorName, p.vendorCity, p.id, ProductLink(p.id))
  }

  /** Some product makes the cleaning loop raise, which ends the search. */
  predicate AnyNullObject(ps: seq<ApiProduct>) {
    exists i :: 0 <= i < |ps| && ps[i].nullObject
  }

  function CleanAll(ps: seq<ApiProduct>): (ls: seq<Listing>)
    ensures |ls| == |ps|
    ensures forall i :: 0 <= i < |ps| ==> ls[i] == Clean(ps[i])
  {
    seq(|ps|, i requires 0 <= i < |ps| => Clean(ps[i]))
  }

  /** The parameters sent: each filter only when truthy, the price limit
      converted from Toman to Rial. */
  function BuildParams(query: string, maxPrice: Option<int>, minRating: Option<real>, vendorCity: Option<string>): (r: SearchParams)
    ensures r.q == query
    ensures r.maxPrice.Some? <==> IntSet(maxPrice)
    ensures r.maxPrice.Some? ==> r.maxPrice.value == 10 * maxPrice.value
    ensures r.minRating.Some? <==> RealSet(minRating)
    ensures r.minRating.Some? ==> r.minRating == minRating
    ensures r.vendorCity.Some? <==> TextSet(vendorCity)
    ensures r.vendorCity.Some? ==> r.vendorCity == vendorCity
  {
    SearchParams(
      query,
      if IntSet(maxPrice) then Some(maxPrice.value * 10) else None,
      if RealSet(minRating) then minRating else None,
      if TextSet(vendorCity) then vendorCity else None)
  }

  predicate HasPrice(l: Listing) {
    l.price != 0
  }

  /** `min_rating and (not rating or rating < min_rating)` */
  predicate FailsRating(l: Listing, minRating: Option<real>) {
    RealSet(minRating) && (!RealSet(l.rating) || l.rating.value < minRating.value)
  }

  /** `vendor_city and city and city.lower() != vendor_city.lower()` */
  predicate FailsCity(l: Listing, vendorCity: Option<string>) {
    TextSet(vendorCity) && TextSet(l.vendorCity) && Lower(l.vendorCity.value) != Lower(vendorCity.value)
  }

  predicate Keep(l: Listing, minRating: Option<real>, vendorCity: Option<string>) {
    HasPrice(l) && !FailsRating(l, minRating) && !FailsCity(l, vendorCity)
  }

  function PriceKey(l: Listing): int {
    l.price
  }

  /** search_basalam. A non-200 status raises, and so does a product with a
      JSON-null nested object; otherwise the result is the stable
      price-ascending arrangement of exactly the cleaned records that pass
      the three filters. No record is checked against max_price. */
  function SearchBasalam(query: string, maxPrice: Option<int>, minRating: Option<real>,
                         vendorCity: Option<string>, api: SearchParams -> ApiResponse): (r: Result<seq<Listing>, string>)
    ensures var resp := api(BuildParams(query, maxPrice, minRating, vendorCity));
            && (r.Failure? <==> resp.status != 200 || AnyNullObject(resp.products))
            && (resp.status != 200 ==> r == Failure(SEARCH_ERROR))
            && (resp.status == 200 && AnyNullObject(resp.products) ==> r == Failure(NULL_GET_ERROR))
            && (r.Success? ==>
                  var kept := Filter(CleanAll(resp.products), (l: Listing) => Keep(l, minRating, vendorCity));
                  && Sorting.StableSortOf(r.value, kept, PriceKey)
                  && multiset(r.value) == multiset(kept)
                  && (forall i :: 0 <= i < |r.value| ==>
                        Keep(r.value[i], minRating, vendorCity) && r.value[i] in CleanAll(resp.products))
                  && (forall i :: 0 <= i < |resp.products| && Keep(Clean(resp.products[i]), minRating, vendorCity) ==>
                        Clean(resp.products[i]) in r.value))
  {
    var resp := api(BuildParams(query, maxPrice, minRating, vendorCity));
    if resp.status != 200 then Failure(SEARCH_ERROR)
    else if AnyNullObject(resp.products) then Failure(NULL_GET_ERROR)
    else
      var cleaned := CleanAll(resp.products);
      var kept := Filter(cleaned, (l: Listing) => Keep(l, minRating, vendorCity));
      var sorted := Sorting.SortBy(kept, PriceKey);
      SortedKept(cleaned, (l: Listing) => Keep(l, minRating, vendorCity), kept, sorted);
      Success(sorted)
  }

  /** Sorting the kept records neither loses nor adds one. */
  lemma SortedKept(cleaned: seq<Listing>, keep: Listing -> bool, kept: seq<Listing>, sorted: seq<Listing>)
    requires kept == Filter(cleaned, keep) && sorted == Sorting.SortBy(kept, PriceKey)
    ensures forall i :: 0 <= i < |sorted| ==> keep(sorted[i]) && sorted[i] in cleaned
    ensures forall i :: 0 <= i < |cleaned| && keep(cleaned[i]) ==> cleaned[i] in sorted
  {
    forall i | 0 <= i < |sorted|
      ensures keep(sorted[i]) && sorted[i] in cleaned
    {
      assert sorted[i] in multiset(kept);
    }
    forall i | 0 <= i < |cleaned| && keep(cleaned[i])
      ensures cleaned[i] in sorted
    {
      assert cleaned[i] in kept;
      assert cleaned[i] in multiset(sorted);
    }
  }

  /** max_price reaches the API and nothing else: for the same API response
      the result is the same whatever the limit, so a record above it is
      returned whenever the API returns it. */
  lemma MaxPriceOnlyForwarded(query: string, m1: Option<int>, m2: Option<int>, minRating: Option<real>,
                              vendorCity: Option<string>, api: SearchParams -> ApiResponse)
    requires api(BuildParams(query, m1, minRating, vendorCity)) == api(BuildParams(query, m2, minRating, vendorCity))
    ensures SearchBasalam(query, m1, minRating, vendorCity, api) == SearchBasalam(query, m2, minRating, vendorCity, api)
  {
  }

  /** A concrete case: asked for at most 100 Toman, an API answer with a
      1,000,000-Toman product comes back unfiltered. */
  lemma AboveMaxPriceReturned()
    ensures var api := (p: SearchParams) =>
              ApiResponse(200, [ApiProduct(None, Some(10_000_000), None, None, None, None, None, Some("7"), false)]);
            var r := SearchBasalam("کیف", Some(100), None, None, api);
            r.Success? && |r.value| == 1 && r.value[0].price == 1_000_000
  {
    var api := (p: SearchParams) =>
      ApiResponse(200, [ApiProduct(None, Some(10_000_000), None, None, None, None, None, Some("7"), false)]);
    var cleaned := CleanAll(api(BuildParams("کیف", Some(100), None, None)).products);
    assert Keep(cleaned[0], None, None);
    var kept := Filter(cleaned, (l: Listing) => Keep(l, None, None));
    assert kept == [cleaned[0]];
  }

  /** A record without a city passes the city filter, and the city
      comparison ignores ASCII case. */
  lemma CityFilterPermissive(l: Listing, vendorCity: Option<string>)
    ensures !TextSet(l.vendorCity) ==> !FailsCity(l, vendorCity)
    ensures (TextSet(l.vendorCity) && Lower(l.vendorCity.value) == Lower(vendorCity.GetOr(""))) ==> !FailsCity(l, vendorCity)
  {
  }
}

=== FILE: product_manager.dfy ===
/** The store-facing tools of tools/product_manager.py: each wraps one
    catalog operation, turns its exceptions into an error value, and
    `compare_products` lines up the fields of several stored products. */
module ProductManager {

  import opened Wrappers
  import opened Values
  import opened Text
  import opened Catalog

  /** The database as a tool sees it: the table, or the message of the
      exception raised while connecting to or querying it. */
  type Db = Result<Table, string>

  const SAVED_PREFIX: string := "محصول با موفقیت ذخیره شد. "
  const ID_LABEL: string := "شناسه: "
  const SAVE_ERROR_PREFIX: string := "خطا در ذخیره محصول: "
  const NOT_FOUND: string := "محصول پیدا نشد"
  const GET_ERROR_PREFIX: string := "خطا در دریافت اطلاعات محصول: "
  const SEARCH_ERROR_PREFIX: string := "خطا در جستجوی محصولات ذخیره شده: "
  const RECENT_ERROR_PREFIX: string := "خطا در دریافت محصولات اخیر: "
  const TOO_FEW: string := "حداقل دو محصول برای مقایسه نیاز است"
  const COMPARE_ERROR_PREFIX: string := "خطا در مقایسه محصولات: "

  /** The message of a successful save. */
  function SavedMessage(id: string): (m: string)
    ensures StartsWith(m, SAVED_PREFIX) && EndsWith(m, ID_LABEL + id)
  {
    SAVED_PREFIX + ID_LABEL + id
  }

  /** save_product_details: the save's outcome as a message, with the
      database after the call (unchanged when the save raised). */
  function SaveProductDetails(db: Db, data: Record, searchQuery: string, freshId: string, now: int): (r: (Db, string))
    ensures r.1 == SavedMessage(freshId) || StartsWith(r.1, SAVE_ERROR_PREFIX)
    ensures StartsWith(r.1, SAVE_ERROR_PREFIX) ==> r.0 == db
    ensures r.1 == SavedMessage(freshId) <==>
              db.Success? && Save(db.value, data, searchQuery, freshId, now).Success?
    ensures r.0.Success? <==> db.Success?
    ensures r.1 == SavedMessage(freshId) ==> r.0 == Success(Save(db.value, data, searchQuery, freshId, now).value.table)
  {
    match db
    case Failure(e) =>
      SavedIsNoError(freshId, e);
      (db, SAVE_ERROR_PREFIX + e)
    case Success(t) =>
      match Save(t, data, searchQuery, freshId, now)
      case Success(s) =>
        SavedIsNoError(freshId, "");
        (Success(s.table), SavedMessage(freshId))
      case Failure(e) =>
        SavedIsNoError(freshId, e);
        (db, SAVE_ERROR_PREFIX + e)
  }

  /** The two messages differ from the third character on. */
  lemma SavedIsNoError(id: string, e: string)
    ensures SavedMessage(id) != SAVE_ERROR_PREFIX + e
    ensures !StartsWith(SavedMessage(id), SAVE_ERROR_PREFIX)
  {
    assert SavedMessage(id)[2] != (SAVE_ERROR_PREFIX + e)[2];
    assert SavedMessage(id)[2] != SAVE_ERROR_PREFIX[2];
  }

  /** What get_product_details returns: the product, or an error dict. */
  datatype Details = Found(product: Product) | ErrorDict(error: string)

  /** get_product_details */
  function GetProductDetails(db: Db, id: string): (r: Details)
    ensures r.Found? ==> db.Success? && r.product.id == id && GetProduct(db.value, id) == Some(r.product)
    ensures r == ErrorDict(NOT_FOUND) <==>
              db.Success? && forall i :: 0 <= i < |db.value| ==> db.value[i].id != id
    ensures db.Failure? ==> r == ErrorDict(GET_ERROR_PREFIX + db.error)
    ensures db.Success? && GetProduct(db.value, id).Some? ==> r == Found(GetProduct(db.value, id).value)
  {
    match db
    case Failure(e) =>
      assert GET_ERROR_PREFIX + e != NOT_FOUND by {
        assert (GET_ERROR_PREFIX + e)[0] != NOT_FOUND[0];
      }
      ErrorDict(GET_ERROR_PREFIX + e)
    case Success(t) =>
      match GetProduct(t, id)
      case Some(p) => Found(p)
      case None => ErrorDict(NOT_FOUND)
  }

  /** An element of the lists search_saved_products and get_recent_products
      return: a product, or the single error dict of a failed call. */
  datatype ListItem = Item(product: Product) | ErrorItem(error: string)

  function Items(ps: seq<Product>): (r: seq<ListItem>)
    ensures |r| == |ps|
    ensures forall i :: 0 <= i < |ps| ==> r[i] == Item(ps[i])
  {
    seq(|ps|, i requires 0 <= i < |ps| => Item(ps[i]))
  }

  /** search_saved_products: the store's matches in the store's order
      (newest first), or one error item when the store fails. */
  function SearchSavedProducts(db: Db, query: string): (r: seq<ListItem>)
    ensures db.Failure? ==> r == [ErrorItem(SEARCH_ERROR_PREFIX + db.error)]
    ensures db.Success? ==> r == Items(SearchStoredProducts(db.value, query))
  {
    match db
    case Failure(e) => [ErrorItem(SEARCH_ERROR_PREFIX + e)]
    case Success(t) => Items(SearchStoredProducts(t, query))
  }

  /** What a successful saved-product search lists: decoded rows whose name
      or description contains the query, every such row, newest first. */
  lemma SavedSearchListsMatches(t: Table, query: string)
    ensures var r := SearchSavedProducts(Success(t), query);
            && (forall i :: 0 <= i < |r| ==>
                  r[i].Item? && exists row :: row in t && NameOrDescriptionLike(row, query) && r[i].product == Decode(row))
            && (forall i :: 0 <= i < |t| && NameOrDescriptionLike(t[i], query) ==> Item(Decode(t[i])) in r)
            && (forall i, j :: 0 <= i < j < |r| ==> r[i].product.createdAt >= r[j].product.createdAt)
  {
    var ps := SearchStoredProducts(t, query);
    ItemsMirror(ps);
  }

  /** Listing products as items keeps each product at its place. */
  lemma ItemsMirror(ps: seq<Product>)
    ensures forall i :: 0 <= i < |Items(ps)| ==> Items(ps)[i].Item? && Items(ps)[i].product == ps[i]
    ensures forall p :: p in ps ==> Item(p) in Items(ps)
  {
    var r := Items(ps);
    forall p | p in ps
      ensures Item(p) in r
    {
      var j :| 0 <= j < |ps| && ps[j] == p;
      assert r[j] == Item(p);
    }
  }

  /** get_recent_products: the store's `limit` newest products in its order,
      every product when the limit is negative, or one error item when the
      store fails. */
  function GetRecentProducts(db: Db, limit: int): (r: seq<ListItem>)
    ensures db.Failure? ==> r == [ErrorItem(RECENT_ERROR_PREFIX + db.error)]
    ensures db.Success? ==> r == Items(GetAllProducts(db.value, limit))
    ensures db.Success? ==> |r| == if 0 <= limit < |db.value| then limit else |db.value|
    ensures db.Success? ==> forall i :: 0 <= i < |r| ==> r[i].Item?
    ensures db.Success? ==> forall i, j :: 0 <= i < j < |r| ==> r[i].product.createdAt >= r[j].product.createdAt
  {
    match db
    case Failure(e) => [ErrorItem(RECENT_ERROR_PREFIX + e)]
    case Success(t) => Items(GetAllProducts(t, limit))
  }

  /** The products the ids resolve to, in the order of the ids; ids with no
      row are dropped and repeated ids are kept. */
  function Resolve(t: Table, ids: seq<string>): (ps: seq<Product>)
    ensures |ps| <= |ids|
    ensures forall i :: 0 <= i < |ps| ==> ps[i].id in ids
    decreases |ids|
  {
    if |ids| == 0 then []
    else Lookup(t, ids[0]) + Resolve(t, ids[1..])
  }

  /** The product stored under `id`, if any, as a list of at most one. */
  function Lookup(t: Table, id: string): (ps: seq<Product>)
    ensures |ps| <= 1 && forall i :: 0 <= i < |ps| ==> ps[i].id == id
  {
    match GetProduct(t, id) case Some(p) => [p] case None => []
  }

  /** Resolving a concatenation resolves each part in turn: order is kept and
      nothing is deduplicated. */
  lemma {:induction false} ResolveConcat(t: Table, a: seq<string>, b: seq<string>)
    ensures Resolve(t, a + b) == Resolve(t, a) + Resolve(t, b)
    decreases |a|
  {
    var ab := a + b;
    if |a| == 0 {
      assert ab == b;
    } else {
      assert ab[0] == a[0] && ab[1..] == a[1..] + b;
      ResolveConcat(t, a[1..], b);
      var h := Lookup(t, a[0]);
      calc {
        Resolve(t, ab);
        h + Resolve(t, a[1..] + b);
        h + (Resolve(t, a[1..]) + Resolve(t, b));
        (h + Resolve(t, a[1..])) + Resolve(t, b);
        Resolve(t, a) + Resolve(t, b);
      }
    }
  }

  /** One id resolves to its product, or to nothing when no row has it. */
  lemma ResolveOne(t: Table, id: string)
    ensures Resolve(t, [id]) == match GetProduct(t, id) case Some(p) => [p] case None => []
  {
    assert [id][1..] == [];
  }

  datatype Comparison =
    | Compared(products: seq<Product>, prices: seq<Value>, ratings: seq<Value>,
               vendors: seq<Value>, cities: seq<Value>)
    | CompareError(error: string)

  /** compare_products: an empty id list never reaches the store and is
      refused as too few; otherwise a failing store gives the error text. */
  function CompareProducts(db: Db, ids: seq<string>): (r: Comparison)
    ensures db.Failure? && |ids| > 0 ==> r == CompareError(COMPARE_ERROR_PREFIX + db.error)
    ensures r == CompareError(TOO_FEW) <==> |ids| == 0 || (db.Success? && |Resolve(db.value, ids)| < 2)
    ensures db.Success? && |Resolve(db.value, ids)| >= 2 ==> r.Compared?
    ensures r.Compared? ==>
              && db.Success? && r.products == Resolve(db.value, ids) && |r.products| >= 2
              && |r.prices| == |r.products| && |r.ratings| == |r.products|
              && |r.vendors| == |r.products| && |r.cities| == |r.products|
              && forall i :: 0 <= i < |r.products| ==>
                   && r.prices[i] == r.products[i].price
                   && r.ratings[i] == r.products[i].rating
                   && r.vendors[i] == r.products[i].vendorName
                   && r.cities[i] == r.products[i].vendorCity
  {
    if |ids| == 0 then CompareError(TOO_FEW)
    else match db
    case Failure(e) =>
      assert COMPARE_ERROR_PREFIX + e != TOO_FEW by {
        assert (COMPARE_ERROR_PREFIX + e)[0] != TOO_FEW[0];
      }
      CompareError(COMPARE_ERROR_PREFIX + e)
    case Success(t) =>
      var ps := Resolve(t, ids);
      if |ps| < 2 then CompareError(TOO_FEW)
      else
        Compared(ps,
                 seq(|ps|, i requires 0 <= i < |ps| => ps[i].price),
                 seq(|ps|, i requires 0 <= i < |ps| => ps[i].rating),
                 seq(|ps|, i requires 0 <= i < |ps| => ps[i].vendorName),
                 seq(|ps|, i requires 0 <= i < |ps| => ps[i].vendorCity))
  }
}

=== FILE: product_urls.dfy ===
/** The link rewriting of tools/product_utils.py: a short product link
    `https://basalam.com/p/<id>` becomes the vendor's product page
    `https://basalam.com/<vendor>/product/<id>`. */
module ProductUrls {

  import opened Wrappers
  import opened Text
  import ListingSearch

  /** The pattern `https://basalam.com/p/(\d+)` in pieces: the unescaped `.`
      matches any character except a newline. */
  const HOST_PART: string := "https://basalam"
  const PATH_PART: string := "com/p/"
  const ID_START: nat := 22
  const FULL_PREFIX: string := "https://basalam.com/"
  const PRODUCT_PART: string := "/product/"

  /** `re.match(pattern, url)`, giving group 1: the match is anchored at the
      start and the digit run is as long as possible. */
  function MatchShortUrl(url: string): (r: Option<string>)
    ensures r.Some? ==> && |url| > ID_START && StartsWith(url, HOST_PART) && url[15] != '\n'
                        && url[16..ID_START] == PATH_PART
    ensures r.Some? ==> && |r.value| > 0 && AllDigits(r.value) && StartsWith(url[ID_START..], r.value)
                        && (ID_START + |r.value| == |url| || !IsDigit(url[ID_START + |r.value|]))
    ensures r.None? ==> || |url| <= ID_START || !StartsWith(url, HOST_PART) || url[15] == '\n'
                        || url[16..ID_START] != PATH_PART || !IsDigit(url[ID_START])
  {
    if |url| > ID_START && StartsWith(url, HOST_PART) && url[15] != '\n' && url[16..ID_START] == PATH_PART
       && IsDigit(url[ID_START]) then
      var n := LeadingRun(url[ID_START..], IsDigit);
      Some(url[ID_START..ID_START + n])
    else None
  }

  /** fix_basalam_product_url */
  function FixBasalamProductUrl(shortUrl: string, vendorName: string): (r: string)
    ensures vendorName == "" ==> r == shortUrl
    ensures MatchShortUrl(shortUrl).None? ==> r == shortUrl
    ensures MatchShortUrl(shortUrl).Some? && vendorName != "" ==>
              r == FULL_PREFIX + vendorName + PRODUCT_PART + MatchShortUrl(shortUrl).value
  {
    match MatchShortUrl(shortUrl)
    case Some(id) => if vendorName != "" then FULL_PREFIX + vendorName + PRODUCT_PART + id else shortUrl
    case None => shortUrl
  }

  /** The link the search tool builds for a numeric id, followed by anything
      that does not start with a digit, becomes the vendor's page for the
      same id. */
  lemma {:induction false} SearchLinkRoundTrip(id: string, rest: string, vendorName: string)
    requires |id| > 0 && AllDigits(id)
    requires rest == "" || !IsDigit(rest[0])
    requires vendorName != ""
    ensures FixBasalamProductUrl(ListingSearch.ProductLink(Some(id)) + rest, vendorName)
            == FULL_PREFIX + vendorName + PRODUCT_PART + id
  {
    var url := ListingSearch.ProductLink(Some(id)) + rest;
    assert url == ListingSearch.PRODUCT_LINK + id + rest;
    ShortLinkMatches(url, id, rest);
  }

  lemma ShortLinkMatches(url: string, id: string, rest: string)
    requires url == ListingSearch.PRODUCT_LINK + id + rest
    requires |id| > 0 && AllDigits(id)
    requires rest == "" || !IsDigit(rest[0])
    ensures MatchShortUrl(url) == Some(id)
  {
    assert |ListingSearch.PRODUCT_LINK| == ID_START;
    assert url[..ID_START] == ListingSearch.PRODUCT_LINK;
    assert url[..15] == HOST_PART;
    assert url[15] == '.';
    assert url[16..ID_START] == PATH_PART;
    var tail := url[ID_START..];
    assert tail == id + rest;
    assert url[ID_START] == id[0];
    var n := LeadingRun(tail, IsDigit);
    LeadingRunCovers(tail, IsDigit, |id|);
    if |rest| > 0 {
      assert tail[|id|] == rest[0];
    }
    assert n == |id|;
    assert url[ID_START..ID_START + n] == tail[..n] == id;
  }

  /** Because the dot is not escaped, any character may stand between
      "basalam" and "com". */
  lemma DotMatchesAnyCharacter()
    ensures FixBasalamProductUrl("https://basalamXcom/p/42", "shop") == "https://basalam.com/shop/product/42"
  {
    var url := "https://basalamXcom/p/42";
    assert url[..15] == HOST_PART;
    assert url[16..ID_START] == PATH_PART;
    var tail := url[ID_START..];
    assert tail == "42";
    assert LeadingRun(tail[2..], IsDigit) == 0;
    assert LeadingRun(tail, IsDigit) == 2;
    assert url[15] != '\n' && IsDigit(url[ID_START]);
    assert url[ID_START..ID_START + 2] == tail;
    assert MatchShortUrl(url) == Some("42");
  }
}

=== FILE: seqs.dfy ===
/** List comprehensions with a condition, `[x for x in s if p(x)]`, and the
    facts about them the rest of the model uses. */
module Seqs {

  function Filter<T>(s: seq<T>, p: T -> bool): (r: seq<T>)
    ensures |r| <= |s|
    ensures forall i :: 0 <= i < |r| ==> r[i] in s && p(r[i])
    ensures forall i :: 0 <= i < |s| && p(s[i]) ==> s[i] in r
    ensures multiset(r) <= multiset(s)
    decreases |s|
  {
    if |s| == 0 then []
    else
      assert s == [s[0]] + s[1..];
      (if p(s[0]) then [s[0]] else []) + Filter(s[1..], p)
  }

  lemma {:induction false} FilterConcat<T>(a: seq<T>, b: seq<T>, p: T -> bool)
    ensures Filter(a + b, p) == Filter(a, p) + Filter(b, p)
    decreases |a|
  {
    if |a| == 0 {
      assert a + b == b;
    } else {
      assert (a + b)[0] == a[0];
      assert (a + b)[1..] == a[1..] + b;
      FilterConcat(a[1..], b, p);
    }
  }

  /** The comprehension keeps each passing element as often as `s` holds
      it, and no other element. */
  lemma {:induction false} FilterCounts<T>(s: seq<T>, p: T -> bool)
    ensures forall x :: multiset(Filter(s, p))[x] == if p(x) then multiset(s)[x] else 0
    decreases |s|
  {
    if |s| > 0 {
      FilterCounts(s[1..], p);
      assert s == [s[0]] + s[1..];
    }
  }

  /** Nothing is dropped when every element passes. */
  lemma {:induction false} FilterAllPass<T>(s: seq<T>, p: T -> bool)
    requires forall i :: 0 <= i < |s| ==> p(s[i])
    ensures Filter(s, p) == s
    decreases |s|
  {
    if |s| > 0 {
      FilterAllPass(s[1..], p);
    }
  }

  /** Everything is dropped when no element passes. */
  lemma {:induction false} FilterNonePass<T>(s: seq<T>, p: T -> bool)
    requires forall i :: 0 <= i < |s| ==> !p(s[i])
    ensures Filter(s, p) == []
    decreases |s|
  {
    if |s| > 0 {
      FilterNonePass(s[1..], p);
    }
  }

  /** A relation that holds between every earlier and later element of `s`
      holds between those of any filtered sub-sequence. */
  lemma {:induction false} FilterPairwise<T>(s: seq<T>, p: T -> bool, rel: (T, T) -> bool)
    requires forall i, j :: 0 <= i < j < |s| ==> rel(s[i], s[j])
    ensures forall i, j :: 0 <= i < j < |Filter(s, p)| ==> rel(Filter(s, p)[i], Filter(s, p)[j])
    decreases |s|
  {
    if |s| > 0 {
      FilterPairwise(s[1..], p, rel);
      var rest := Filter(s[1..], p);
      forall j | 0 <= j < |rest|
        ensures rel(s[0], rest[j])
      {
        assert rest[j] in s[1..];
      }
    }
  }

  /** Filtering twice is filtering once by both conditions. */
  lemma {:induction false} FilterFilter<T>(s: seq<T>, p: T -> bool, q: T -> bool, both: T -> bool)
    requires forall x :: both(x) == (p(x) && q(x))
    ensures Filter(Filter(s, p), q) == Filter(s, both)
    decreases |s|
  {
    if |s| > 0 {
      var x := s[0];
      var rest := Filter(s[1..], p);
      FilterFilter(s[1..], p, q, both);
      assert Filter(s, both) == (if both(x) then [x] else []) + Filter(s[1..], both);
      if p(x) {
        assert Filter(s, p) == [x] + rest;
        assert ([x] + rest)[1..] == rest;
        assert Filter([x] + rest, q) == (if q(x) then [x] else []) + Filter(rest, q);
      } else {
        assert Filter(s, p) == rest;
      }
    }
  }

  /** Filtering by two conditions that agree everywhere gives the same. */
  lemma {:induction false} FilterSame<T>(s: seq<T>, p: T -> bool, q: T -> bool)
    requires forall x :: p(x) == q(x)
    ensures Filter(s, p) == Filter(s, q)
    decreases |s|
  {
    if |s| > 0 {
      FilterSame(s[1..], p, q);
    }
  }

  function Differs<T(==)>(y: T): T -> bool {
    (x: T) => x != y
  }

  /** The elements of `s` without repeats, each at its first occurrence. */
  function Dedup<T(==)>(s: seq<T>): (r: seq<T>)
    ensures forall i :: 0 <= i < |r| ==> r[i] in s
    ensures forall i :: 0 <= i < |s| ==> s[i] in r
    ensures forall i, j :: 0 <= i < j < |r| ==> r[i] != r[j]
    decreases |s|
  {
    if |s| == 0 then []
    else
      var f := Filter(s[1..], Differs(s[0]));
      var rest := Dedup(f);
      DedupStep(s, f, rest);
      [s[0]] + rest
  }

  /** Putting the first element in front of the deduplicated remainder,
      from which it was filtered out, keeps the three promises. */
  lemma DedupStep<T>(s: seq<T>, f: seq<T>, rest: seq<T>)
    requires |s| > 0 && f == Filter(s[1..], Differs(s[0]))
    requires forall i :: 0 <= i < |rest| ==> rest[i] in f
    requires forall i :: 0 <= i < |f| ==> f[i] in rest
    requires forall i, j :: 0 <= i < j < |rest| ==> rest[i] != rest[j]
    ensures forall i :: 0 <= i < |[s[0]] + rest| ==> ([s[0]] + rest)[i] in s
    ensures forall i :: 0 <= i < |s| ==> s[i] in [s[0]] + rest
    ensures forall i, j :: 0 <= i < j < |[s[0]] + rest| ==> ([s[0]] + rest)[i] != ([s[0]] + rest)[j]
  {
    var r := [s[0]] + rest;
    forall i | 0 <= i < |rest|
      ensures rest[i] != s[0] && rest[i] in s
    {
      var x := rest[i];
      assert x in f;
      assert Differs(s[0])(x);
      var k :| 0 <= k < |s[1..]| && s[1..][k] == x;
      assert s[k + 1] == x;
    }
    forall i | 0 <= i < |r|
      ensures r[i] in s
    {
      if i > 0 {
        assert r[i] == rest[i - 1];
      }
    }
    forall i | 0 <= i < |s|
      ensures s[i] in r
    {
      if i > 0 && s[i] != s[0] {
        assert s[1..][i - 1] == s[i];
        assert Differs(s[0])(s[i]);
        assert s[i] in f;
      }
    }
    forall i, j | 0 <= i < j < |r|
      ensures r[i] != r[j]
    {
      assert r[j] == rest[j - 1];
      if i > 0 {
        assert r[i] == rest[i - 1];
      }
    }
  }

  /** A list without repeats is its own deduplication. */
  lemma {:induction false} DedupDistinct<T>(s: seq<T>)
    requires forall i, j :: 0 <= i < j < |s| ==> s[i] != s[j]
    ensures Dedup(s) == s
    decreases |s|
  {
    if |s| > 0 {
      var d := Differs(s[0]);
      forall i | 0 <= i < |s[1..]|
        ensures d(s[1..][i])
      {
        assert s[1..][i] == s[i + 1];
      }
      FilterAllPass(s[1..], d);
      DedupDistinct(s[1..]);
      DedupUnfold(s);
    }
  }

  /** Repeating the first element at the end adds nothing to the
      deduplication. */
  lemma {:induction false} DedupRepeatFirst<T>(s: seq<T>)
    requires |s| > 0
    ensures Dedup(s + [s[0]]) == Dedup(s)
  {
    var t := s + [s[0]];
    var d := Differs(s[0]);
    assert t[0] == s[0] && t[1..] == s[1..] + [s[0]];
    FilterDropsLast(s[1..], s[0], d);
    DedupUnfold(t);
    DedupUnfold(s);
  }

  lemma {:induction false} FilterDropsLast<T>(a: seq<T>, x: T, p: T -> bool)
    requires !p(x)
    ensures Filter(a + [x], p) == Filter(a, p)
  {
    FilterConcat(a, [x], p);
    FilterNonePass([x], p);
  }

  lemma {:induction false} DedupUnfold<T>(s: seq<T>)
    requires |s| > 0
    ensures Dedup(s) == [s[0]] + Dedup(Filter(s[1..], Differs(s[0])))
  {
  }

  /** The set of the elements of `s`, as `set(s)` builds it. */
  function Elements<T>(s: seq<T>): set<T> {
    set x | x in s
  }

  /** A list without repeats has as many elements as its set. */
  lemma {:induction false} DistinctCard<T>(s: seq<T>)
    requires forall i, j :: 0 <= i < j < |s| ==> s[i] != s[j]
    ensures |Elements(s)| == |s|
    decreases |s|
  {
    if |s| > 0 {
      var t := s[1..];
      DistinctCard(t);
      assert Elements(s) == {s[0]} + Elements(t);
      assert s[0] !in Elements(t);
    }
  }

  /** Deduplicating leaves one element per distinct value: as many as
      `len(set(s))`. */
  lemma DedupCard<T>(s: seq<T>)
    ensures |Dedup(s)| == |Elements(s)|
  {
    DistinctCard(Dedup(s));
    assert Elements(Dedup(s)) == Elements(s);
  }

  /** Deduplication read left to right: a new element goes to the end, a
      repeated one adds nothing. So the result lists the distinct elements
      in the order of their first occurrences. */
  lemma {:induction false} DedupSnoc<T>(s: seq<T>, x: T)
    ensures Dedup(s + [x]) == if x in s then Dedup(s) else Dedup(s) + [x]
    decreases |s|
  {
    if |s| == 0 {
      assert s + [x] == [x];
      DedupUnfold([x]);
    } else if x == s[0] {
      DedupSnocFirst(s, x);
    } else {
      DedupSnocOther(s, x, Filter(s[1..], Differs(s[0])));
    }
  }

  /** Appending the first element again changes nothing. */
  lemma DedupSnocFirst<T>(s: seq<T>, x: T)
    requires |s| > 0 && x == s[0]
    ensures Dedup(s + [x]) == Dedup(s)
  {
    var t := s + [x];
    var d := Differs(s[0]);
    SnocParts(s, x);
    FilterDropsLast(s[1..], x, d);
    assert Filter(t[1..], d) == Filter(s[1..], d);
    DedupUnfold(t);
    DedupUnfold(s);
  }

  lemma {:induction false} DedupSnocOther<T>(s: seq<T>, x: T, f: seq<T>)
    requires |s| > 0 && x != s[0] && f == Filter(s[1..], Differs(s[0]))
    ensures Dedup(s + [x]) == if x in s then Dedup(s) else Dedup(s) + [x]
    decreases |s|, 0
  {
    var t := s + [x];
    var d := Differs(s[0]);
    SnocParts(s, x);
    FilterConcat(s[1..], [x], d);
    FilterAllPass([x], d);
    assert Filter(t[1..], d) == f + [x];
    DedupUnfold(t);
    DedupUnfold(s);
    assert Dedup(t) == [s[0]] + Dedup(f + [x]);
    DedupSnoc(f, x);
    FilterKeeps(s[1..], d, x);
    InTail(s, x);
    if x in s {
      assert Dedup(f + [x]) == Dedup(f);
    } else {
      assert Dedup(f + [x]) == Dedup(f) + [x];
      ConsSnoc(s[0], Dedup(f), x);
    }
  }

  /** The head and the tail of a list with one more element at the end. */
  lemma SnocParts<T>(s: seq<T>, x: T)
    requires |s| > 0
    ensures (s + [x])[0] == s[0] && (s + [x])[1..] == s[1..] + [x]
  {
  }

  lemma ConsSnoc<T>(a: T, m: seq<T>, x: T)
    ensures [a] + (m + [x]) == ([a] + m) + [x]
  {
  }

  /** An element other than the first is in the list iff it is in the tail. */
  lemma InTail<T>(s: seq<T>, x: T)
    requires |s| > 0 && x != s[0]
    ensures x in s <==> x in s[1..]
  {
    if x in s {
      var k :| 0 <= k < |s| && s[k] == x;
      assert s[1..][k - 1] == x;
    }
  }

  /** A passing element is in the comprehension iff it is in the list. */
  lemma FilterKeeps<T>(s: seq<T>, p: T -> bool, x: T)
    requires p(x)
    ensures x in Filter(s, p) <==> x in s
  {
    if x in s {
      var k :| 0 <= k < |s| && s[k] == x;
    }
  }
}

=== FILE: sorting.dfy ===
/** Python's `sorted(xs, key=k)` / `xs.sort(key=k)` for an integer key:
    a stable sort. Used for the price ordering of search results and of the
    aggregated pool, and (on the negated timestamp) for the newest-first
    listings of the catalog. */
module Sorting {

  ghost predicate SortedBy<T>(s: seq<T>, key: T -> int) {
    forall i, j :: 0 <= i < j < |s| ==> key(s[i]) <= key(s[j])
  }

  /** The elements of `s` whose key is `k`, in their order in `s`. */
  function WithKey<T>(s: seq<T>, key: T -> int, k: int): seq<T>
    decreases |s|
  {
    if |s| == 0 then []
    else (if key(s[0]) == k then [s[0]] else []) + WithKey(s[1..], key, k)
  }

  /** A stable sort of `s`: sorted by key, and the elements sharing a key
      keep their relative order. */
  ghost predicate StableSortOf<T>(r: seq<T>, s: seq<T>, key: T -> int) {
    && SortedBy(r, key)
    && forall k :: WithKey(r, key, k) == WithKey(s, key, k)
  }

  /** Places `x` in front of the first element whose key is not smaller. */
  function Insert<T>(x: T, s: seq<T>, key: T -> int): seq<T>
    decreases |s|
  {
    if |s| == 0 then [x]
    else if key(x) <= key(s[0]) then [x] + s
    else [s[0]] + Insert(x, s[1..], key)
  }

  function SortBy<T>(s: seq<T>, key: T -> int): (r: seq<T>)
    ensures |r| == |s|
    ensures multiset(r) == multiset(s)
    ensures StableSortOf(r, s, key)
    decreases |s|
  {
    if |s| == 0 then []
    else
      var rest := SortBy(s[1..], key);
      SortStep(s, rest, key);
      Insert(s[0], rest, key)
  }

  /** Inserting the head into a stable sort of the tail stably sorts the
      whole. */
  lemma SortStep<T>(s: seq<T>, rest: seq<T>, key: T -> int)
    requires |s| > 0 && |rest| == |s| - 1
    requires multiset(rest) == multiset(s[1..])
    requires StableSortOf(rest, s[1..], key)
    ensures |Insert(s[0], rest, key)| == |s|
    ensures multiset(Insert(s[0], rest, key)) == multiset(s)
    ensures StableSortOf(Insert(s[0], rest, key), s, key)
  {
    var r := Insert(s[0], rest, key);
    InsertKeepsOrder(s[0], rest, key);
    InsertWithKey(s[0], rest, key);
    assert s == [s[0]] + s[1..];
    forall k
      ensures WithKey(r, key, k) == WithKey(s, key, k)
    {
      WithKeyUnfold(s, key, k);
    }
  }

  lemma WithKeyUnfold<T>(s: seq<T>, key: T -> int, k: int)
    requires |s| > 0
    ensures WithKey(s, key, k) == (if key(s[0]) == k then [s[0]] else []) + WithKey(s[1..], key, k)
  {
  }

  lemma {:induction false} InsertKeepsOrder<T>(x: T, s: seq<T>, key: T -> int)
    requires SortedBy(s, key)
    ensures SortedBy(Insert(x, s, key), key)
    ensures multiset(Insert(x, s, key)) == multiset(s) + multiset{x}
    ensures |Insert(x, s, key)| == |s| + 1
    decreases |s|
  {
    InsertMultiset(x, s, key);
    if |s| > 0 && key(x) > key(s[0]) {
      InsertKeepsOrder(x, s[1..], key);
      var t := Insert(x, s[1..], key);
      InsertLowerBound(x, s[1..], key, key(s[0]));
      assert Insert(x, s, key) == [s[0]] + t;
    }
  }

  lemma {:induction false} InsertMultiset<T>(x: T, s: seq<T>, key: T -> int)
    ensures multiset(Insert(x, s, key)) == multiset(s) + multiset{x}
    decreases |s|
  {
    if |s| > 0 && key(x) > key(s[0]) {
      InsertMultiset(x, s[1..], key);
      assert s == [s[0]] + s[1..];
    }
  }

  lemma {:induction false} InsertLowerBound<T>(x: T, s: seq<T>, key: T -> int, b: int)
    requires key(x) >= b
    requires forall i :: 0 <= i < |s| ==> key(s[i]) >= b
    ensures forall i :: 0 <= i < |Insert(x, s, key)| ==> key(Insert(x, s, key)[i]) >= b
    decreases |s|
  {
    if |s| > 0 && key(x) > key(s[0]) {
      InsertLowerBound(x, s[1..], key, b);
    }
  }

  /** `x` lands in front of every element with its own key, and after every
      element with a smaller key: the per-key order of `s` is kept. */
  lemma {:induction false} InsertWithKey<T>(x: T, s: seq<T>, key: T -> int)
    ensures forall k :: WithKey(Insert(x, s, key), key, k)
                        == (if key(x) == k then [x] else []) + WithKey(s, key, k)
    decreases |s|
  {
    if |s| > 0 && key(x) > key(s[0]) {
      InsertWithKey(x, s[1..], key);
      forall k
        ensures WithKey(Insert(x, s, key), key, k)
                == (if key(x) == k then [x] else []) + WithKey(s, key, k)
      {
        var t := Insert(x, s, key);
        assert t[1..] == Insert(x, s[1..], key);
        if key(s[0]) == k {
          assert key(x) != k;
        }
      }
    } else if |s| > 0 {
      forall k
        ensures WithKey(Insert(x, s, key), key, k)
                == (if key(x) == k then [x] else []) + WithKey(s, key, k)
      {
        assert ([x] + s)[1..] == s;
      }
    }
  }

  lemma {:induction false} WithKeyHead<T>(r: seq<T>, key: T -> int, k: int)
    requires SortedBy(r, key)
    requires WithKey(r, key, k) != []
    ensures |r| > 0 && key(r[0]) <= k
    decreases |r|
  {
    if key(r[0]) != k {
      WithKeyHead(r[1..], key, k);
    }
  }

  /** There is only one stable sort: any sequence that is sorted by key and
      keeps the per-key order of `s` is `SortBy(s, key)`. */
  lemma StableSortUnique<T>(r: seq<T>, s: seq<T>, key: T -> int)
    requires StableSortOf(r, s, key)
    ensures r == SortBy(s, key)
  {
    StableSortsAgree(r, SortBy(s, key), key);
  }

  lemma {:induction false} StableSortsAgree<T>(a: seq<T>, b: seq<T>, key: T -> int)
    requires SortedBy(a, key) && SortedBy(b, key)
    requires forall k :: WithKey(a, key, k) == WithKey(b, key, k)
    ensures a == b
    decreases |a|
  {
    if |a| > 0 {
      HeadsAgree(a, b, key);
      forall k
        ensures WithKey(a[1..], key, k) == WithKey(b[1..], key, k)
      {
        TailsAgree(a, b, key, k);
      }
      SortedTail(a, key);
      SortedTail(b, key);
      StableSortsAgree(a[1..], b[1..], key);
      assert a == [a[0]] + a[1..];
      assert b == [b[0]] + b[1..];
    } else if |b| > 0 {
      assert WithKey(b, key, key(b[0])) != [];
    }
  }

  /** Two sorted sequences with the same per-key order start alike. */
  lemma HeadsAgree<T>(a: seq<T>, b: seq<T>, key: T -> int)
    requires |a| > 0
    requires SortedBy(a, key) && SortedBy(b, key)
    requires forall k :: WithKey(a, key, k) == WithKey(b, key, k)
    ensures |b| > 0 && a[0] == b[0]
  {
    var m := key(a[0]);
    WithKeyUnfold(a, key, m);
    assert WithKey(a, key, m) != [];
    WithKeyHead(b, key, m);
    WithKeyUnfold(b, key, key(b[0]));
    assert WithKey(b, key, key(b[0])) != [];
    WithKeyHead(a, key, key(b[0]));
    assert key(b[0]) == m;
    WithKeyUnfold(b, key, m);
    assert WithKey(a, key, m)[0] == a[0];
    assert WithKey(b, key, m)[0] == b[0];
  }

  lemma TailsAgree<T>(a: seq<T>, b: seq<T>, key: T -> int, k: int)
    requires |a| > 0 && |b| > 0 && a[0] == b[0]
    requires WithKey(a, key, k) == WithKey(b, key, k)
    ensures WithKey(a[1..], key, k) == WithKey(b[1..], key, k)
  {
    WithKeyUnfold(a, key, k);
    WithKeyUnfold(b, key, k);
    var head := if key(a[0]) == k then [a[0]] else [];
    assert WithKey(a[1..], key, k) == WithKey(a, key, k)[|head|..];
    assert WithKey(b[1..], key, k) == WithKey(b, key, k)[|head|..];
  }

  lemma SortedTail<T>(s: seq<T>, key: T -> int)
    requires |s| > 0 && SortedBy(s, key)
    ensures SortedBy(s[1..], key)
  {
    forall i, j | 0 <= i < j < |s[1..]|
      ensures key(s[1..][i]) <= key(s[1..][j])
    {
      assert s[1..][i] == s[i + 1] && s[1..][j] == s[j + 1];
    }
  }
}

=== FILE: summary.dfy ===
/** The extractive summariser of tools/product_summary_tool.py: the first
    sentences of a product description, where a sentence ends at a run of
    spaces that follows `.`, `!` or `?`. */
module Summary {

  import opened Wrappers
  import opened Text
  import Crawler

  const FETCH_ERROR_LABEL: string := "Error fetching product: "
  const NO_DESCRIPTION: string := "No description available for this product."

  predicate EndsSentence(c: char) {
    c == '.' || c == '!' || c == '?'
  }

  /** A place where `(?<=[.!?]) +` matches: a space right after an end mark. */
  predicate BoundaryAt(s: string, i: int) {
    0 < i < |s| && s[i] == ' ' && EndsSentence(s[i - 1])
  }

  /** The first boundary at or after `k`. */
  function BoundaryFrom(s: string, k: nat): (r: Option<nat>)
    ensures r.Some? ==> k <= r.value && BoundaryAt(s, r.value)
    ensures r.Some? ==> forall j :: k <= j < r.value ==> !BoundaryAt(s, j)
    ensures r.None? ==> forall j :: k <= j ==> !BoundaryAt(s, j)
    decreases |s| - k
  {
    if k >= |s| then None
    else if BoundaryAt(s, k) then Some(k)
    else BoundaryFrom(s, k + 1)
  }

  predicate IsSpaceChar(c: char) {
    c == ' '
  }

  /** `re.split(r'(?<=[.!?]) +', s)`: the pieces between the boundary runs,
      each run being as long as possible. */
  function Sentences(s: string): (parts: seq<string>)
    ensures |parts| >= 1
    ensures |parts[0]| <= |s| && parts[0] == s[..|parts[0]|]
    ensures BoundaryFrom(s, 0).None? ==> parts == [s]
    ensures BoundaryFrom(s, 0).Some? ==> parts[0] == s[..BoundaryFrom(s, 0).value]
    decreases |s|
  {
    match BoundaryFrom(s, 0)
    case None => [s]
    case Some(i) =>
      var n := LeadingRun(s[i..], IsSpaceChar);
      [s[..i]] + Sentences(s[i + n..])
  }

  /** Where the text is cut: no piece holds a boundary, every piece but the
      last ends a sentence, and no piece after the first starts with a
      space, because each run of spaces is cut whole. */
  lemma {:induction false} SentencesShape(s: string)
    ensures SentenceShaped(Sentences(s))
    decreases |s|
  {
    match BoundaryFrom(s, 0)
    case None =>
      assert Sentences(s) == [s];
    case Some(i) =>
      var n := LeadingRun(s[i..], IsSpaceChar);
      var rest := s[i + n..];
      SentencesShape(rest);
      NoBoundaryBefore(s, i);
      SentencesUnfold(s, i, n);
      var head := Sentences(rest)[0];
      assert rest == [] || rest[0] == s[i..][n];
      assert head == "" || head[0] == rest[0];
      ShapedCons(s[..i], Sentences(rest));
  }

  /** A piece without a boundary that ends a sentence, in front of pieces of
      the right shape whose first does not start with a space. */
  lemma ShapedCons(p: string, ps: seq<string>)
    requires BoundaryFrom(p, 0).None? && SentenceShaped(ps) && |ps| > 0
    requires p != "" && EndsSentence(p[|p| - 1])
    requires ps[0] == "" || ps[0][0] != ' '
    ensures SentenceShaped([p] + ps)
  {
    NoBoundariesCons(p, ps);
    EndMarksCons(p, ps);
    NoLeadingSpacesCons(p, ps);
  }

  lemma NoBoundariesCons(p: string, ps: seq<string>)
    requires BoundaryFrom(p, 0).None? && NoBoundaries(ps)
    ensures NoBoundaries([p] + ps)
  {
    var q := [p] + ps;
    forall i | 1 <= i < |q|
      ensures BoundaryFrom(q[i], 0).None?
    {
      assert q[i] == ps[i - 1];
    }
  }

  lemma EndMarksCons(p: string, ps: seq<string>)
    requires p != "" && EndsSentence(p[|p| - 1]) && EndMarks(ps)
    ensures EndMarks([p] + ps)
  {
    var q := [p] + ps;
    forall i | 1 <= i < |q| - 1
      ensures q[i] != "" && EndsSentence(q[i][|q[i]| - 1])
    {
      assert q[i] == ps[i - 1];
    }
  }

  lemma NoLeadingSpacesCons(p: string, ps: seq<string>)
    requires |ps| > 0 && (ps[0] == "" || ps[0][0] != ' ') && NoLeadingSpaces(ps)
    ensures NoLeadingSpaces([p] + ps)
  {
    var q := [p] + ps;
    forall i | 1 <= i < |q|
      ensures q[i] == "" || q[i][0] != ' '
    {
      assert q[i] == ps[i - 1];
    }
  }

  /** The text before the first boundary holds no boundary. */
  lemma NoBoundaryBefore(s: string, i: nat)
    requires BoundaryFrom(s, 0) == Some(i)
    ensures BoundaryFrom(s[..i], 0).None?
  {
    var first := s[..i];
    forall j | 0 <= j < |first|
      ensures !BoundaryAt(first, j)
    {
      if BoundaryAt(first, j) {
        assert BoundaryAt(s, j);
      }
    }
  }

  /** summarize_text: the first `maxSentences` sentences of the stripped text
      joined by single spaces; a negative count drops sentences from the end,
      as a Python slice does. */
  function SummarizeText(text: string, maxSentences: int): (r: string)
    ensures maxSentences == 0 ==> r == ""
    ensures maxSentences >= 1 && BoundaryFrom(Strip(text), 0).None? ==> r == Strip(text)
    ensures maxSentences < 0 && BoundaryFrom(Strip(text), 0).None? ==> r == ""
    ensures |r| <= |Strip(text)|
    ensures maxSentences >= 1 && BoundaryFrom(Strip(text), 0).Some? ==>
              var i := BoundaryFrom(Strip(text), 0).value;
              i <= |r| && r[..i] == Strip(text)[..i] && (maxSentences == 1 ==> r == Strip(text)[..i])
  {
    var s := Strip(text);
    var kept := PyPrefix(Sentences(s), maxSentences);
    assert kept == Take(Sentences(s), |kept|);
    JoinedPrefixShorter(s, |kept|);
    if maxSentences >= 1 && BoundaryFrom(s, 0).Some? then
      var i := BoundaryFrom(s, 0).value;
      SentencesUnfold(s, i, LeadingRun(s[i..], IsSpaceChar));
      assert kept[0] == s[..i];
      JoinStart(" ", kept);
      Join(" ", kept)
    else
      Join(" ", kept)
  }

  /** The summary's own sentences are exactly the sentences it keeps: the
      first `maxSentences` of the text, or all but the last `-maxSentences`
      for a negative count. */
  lemma SummaryKeepsSentences(text: string, maxSentences: int)
    requires |PyPrefix(Sentences(Strip(text)), maxSentences)| >= 1
    ensures Sentences(SummarizeText(text, maxSentences)) == PyPrefix(Sentences(Strip(text)), maxSentences)
  {
    var parts := Sentences(Strip(text));
    var kept := PyPrefix(parts, maxSentences);
    var spaces := seq(|kept| - 1, _ => " ");
    JoinIsWeave(" ", kept);
    assert Runs(spaces, IsSpaceChar) by {
      forall k | 0 <= k < |spaces|
        ensures spaces[k] != [] && All(spaces[k], IsSpaceChar)
      {
        assert spaces[k] == " ";
      }
    }
    SentencesShape(Strip(text));
    ShapedPrefix(parts, |kept|);
    assert parts[..|kept|] == kept;
    SentencesUnique(SummarizeText(text, maxSentences), kept, spaces);
  }

  /** A leading part of the sentences keeps their shape. */
  lemma ShapedPrefix(parts: seq<string>, k: nat)
    requires k <= |parts| && SentenceShaped(parts)
    ensures SentenceShaped(parts[..k])
  {
    assert forall i :: 0 <= i < k ==> parts[..k][i] == parts[i];
  }

  /** Each boundary loses at least one space and the join puts back exactly
      one, so the summary is never longer than the text. */
  lemma {:induction false} JoinedPrefixShorter(s: string, m: nat)
    ensures |Join(" ", Take(Sentences(s), m))| <= |s|
    decreases |s|
  {
    match BoundaryFrom(s, 0)
    case None =>
    case Some(i) =>
      var n := LeadingRun(s[i..], IsSpaceChar);
      var rest := s[i + n..];
      var parts := Sentences(s);
      assert parts == [s[..i]] + Sentences(rest);
      if m >= 2 {
        JoinedPrefixShorter(rest, m - 1);
        var tail := Take(Sentences(rest), m - 1);
        assert Take(parts, m) == [s[..i]] + tail;
        assert ([s[..i]] + tail)[1..] == tail;
        assert Join(" ", Take(parts, m)) == s[..i] + " " + Join(" ", tail);
      }
  }

  /** When every boundary is a single space, joining all the sentences back
      gives the text. */
  lemma {:induction false} SingleSpacesRejoin(s: string)
    requires forall i :: 0 <= i < |s| - 1 && BoundaryAt(s, i) ==> s[i + 1] != ' '
    ensures Join(" ", Sentences(s)) == s
    decreases |s|
  {
    match BoundaryFrom(s, 0)
    case None =>
    case Some(i) =>
      SingleRun(s, i);
      var rest := s[i + 1..];
      SingleAfter(s, i + 1);
      SingleSpacesRejoin(rest);
      SentencesUnfold(s, i, 1);
      JoinCons(s[..i], Sentences(rest));
      assert s[..i] + " " == s[..i + 1] by {
        assert s[i] == ' ';
      }
      assert s[..i + 1] + rest == s;
  }

  /** The single-space condition holds of every suffix. */
  lemma SingleAfter(s: string, k: nat)
    requires k <= |s|
    requires forall i :: 0 <= i < |s| - 1 && BoundaryAt(s, i) ==> s[i + 1] != ' '
    ensures forall j :: 0 <= j < |s[k..]| - 1 && BoundaryAt(s[k..], j) ==> s[k..][j + 1] != ' '
  {
    forall j | 0 <= j < |s[k..]| - 1 && BoundaryAt(s[k..], j)
      ensures s[k..][j + 1] != ' '
    {
      assert BoundaryAt(s, k + j);
    }
  }

  /** At a boundary followed by a non-space, the run is one space long. */
  lemma SingleRun(s: string, i: nat)
    requires BoundaryAt(s, i)
    requires forall i :: 0 <= i < |s| - 1 && BoundaryAt(s, i) ==> s[i + 1] != ' '
    ensures LeadingRun(s[i..], IsSpaceChar) == 1
  {
    if i + 1 < |s| {
      assert s[i..][1] == s[i + 1];
    }
  }

  /** The split at the first boundary, with a run of `n` spaces. */
  lemma SentencesUnfold(s: string, i: nat, n: nat)
    requires BoundaryFrom(s, 0) == Some(i) && n == LeadingRun(s[i..], IsSpaceChar)
    ensures Sentences(s) == [s[..i]] + Sentences(s[i + n..])
    ensures CutRuns(s) == [s[i..i + n]] + CutRuns(s[i + n..])
  {
  }

  lemma JoinCons(a: string, parts: seq<string>)
    requires |parts| >= 1
    ensures Join(" ", [a] + parts) == a + " " + Join(" ", parts)
  {
    assert ([a] + parts)[1..] == parts;
  }

  /** The runs of spaces the split cuts out, in order. */
  function CutRuns(s: string): seq<string>
    decreases |s|
  {
    match BoundaryFrom(s, 0)
    case None => []
    case Some(i) =>
      var n := LeadingRun(s[i..], IsSpaceChar);
      [s[i..i + n]] + CutRuns(s[i + n..])
  }

  /** Nothing but the boundary runs is lost: weaving the sentences with the
      runs cut between them gives the text back. */
  lemma {:induction false} SentencesRejoin(s: string)
    ensures |CutRuns(s)| + 1 == |Sentences(s)| && Runs(CutRuns(s), IsSpaceChar)
    ensures Weave(Sentences(s), CutRuns(s)) == s
    decreases |s|, 1
  {
    match BoundaryFrom(s, 0)
    case None =>
      SentencesWhole(s);
    case Some(i) =>
      RejoinAt(s, i);
  }

  /** The inductive step of `SentencesRejoin`, at the first boundary `i`. */
  lemma {:induction false} RejoinAt(s: string, i: nat)
    requires BoundaryFrom(s, 0) == Some(i)
    ensures |CutRuns(s)| + 1 == |Sentences(s)| && Runs(CutRuns(s), IsSpaceChar)
    ensures Weave(Sentences(s), CutRuns(s)) == s
    decreases |s|, 0
  {
    var n := LeadingRun(s[i..], IsSpaceChar);
    var rest := s[i + n..];
    SentencesRejoin(rest);
    SentencesUnfold(s, i, n);
    SpaceRun(s, i, n);
    RejoinStep(s, i, i + n, Sentences(s), CutRuns(s), Sentences(rest), CutRuns(rest));
  }

  /** Text without a boundary is one sentence and loses no run. */
  lemma SentencesWhole(s: string)
    requires BoundaryFrom(s, 0).None?
    ensures Sentences(s) == [s] && CutRuns(s) == []
  {
  }

  lemma SpaceRun(s: string, i: nat, n: nat)
    requires BoundaryAt(s, i) && n == LeadingRun(s[i..], IsSpaceChar)
    ensures i + n <= |s| && s[i..i + n] != [] && All(s[i..i + n], IsSpaceChar)
  {
    assert s[i..][0] == ' ';
    assert forall k :: 0 <= k < n ==> s[i..i + n][k] == s[i..][k];
  }

  /** A piece and a run put back in front of a weave of the remainder. */
  lemma RejoinStep(s: string, i: nat, j: nat, parts: seq<string>, gaps: seq<string>,
                   ps: seq<string>, gs: seq<string>)
    requires i <= j <= |s| && |gs| + 1 == |ps| && Weave(ps, gs) == s[j..]
    requires s[i..j] != [] && All(s[i..j], IsSpaceChar) && Runs(gs, IsSpaceChar)
    requires parts == [s[..i]] + ps && gaps == [s[i..j]] + gs
    ensures |gaps| + 1 == |parts| && Runs(gaps, IsSpaceChar)
    ensures Weave(parts, gaps) == s
  {
    RunsCons(s[i..j], gs, IsSpaceChar);
    WeaveFront(s[..i], s[i..j], ps, gs);
    SplitThree(s, i, j);
  }

  lemma SplitThree(s: string, i: nat, j: nat)
    requires i <= j <= |s|
    ensures s[..i] + (s[i..j] + s[j..]) == s
  {
    assert s[i..j] + s[j..] == s[i..];
  }

  /** The conditions on a split into sentences: no piece holds a boundary,
      every piece but the last ends a sentence, and no piece after the
      first starts with a space. */
  ghost predicate SentenceShaped(parts: seq<string>) {
    NoBoundaries(parts) && EndMarks(parts) && NoLeadingSpaces(parts)
  }

  /** No piece holds a boundary. */
  ghost predicate NoBoundaries(parts: seq<string>) {
    forall i :: 0 <= i < |parts| ==> BoundaryFrom(parts[i], 0).None?
  }

  /** Every piece but the last ends a sentence. */
  ghost predicate EndMarks(parts: seq<string>) {
    forall i :: 0 <= i < |parts| - 1 ==> parts[i] != "" && EndsSentence(parts[i][|parts[i]| - 1])
  }

  /** No piece after the first starts with a space. */
  ghost predicate NoLeadingSpaces(parts: seq<string>) {
    forall i :: 1 <= i < |parts| ==> parts[i] == "" || parts[i][0] != ' '
  }

  /** The split is the only one of its shape: pieces of that shape woven
      with space runs are the sentences of the woven text. */
  lemma {:induction false} SentencesUnique(s: string, parts: seq<string>, gaps: seq<string>)
    requires |gaps| + 1 == |parts| && Runs(gaps, IsSpaceChar) && Weave(parts, gaps) == s
    requires SentenceShaped(parts)
    ensures Sentences(s) == parts
    decreases |gaps|
  {
    if |gaps| == 0 {
      assert parts == [s];
    } else {
      var w := Weave(parts[1..], gaps[1..]);
      UniqueStep(s, parts, gaps);
      SentencesUnique(w, parts[1..], gaps[1..]);
      assert [parts[0]] + parts[1..] == parts;
    }
  }

  /** One step of the uniqueness: the first sentence is the first piece,
      and the rest is the weave of the others, which keeps the shape. */
  lemma UniqueStep(s: string, parts: seq<string>, gaps: seq<string>)
    requires |gaps| + 1 == |parts| && |gaps| > 0 && Runs(gaps, IsSpaceChar) && Weave(parts, gaps) == s
    requires SentenceShaped(parts)
    ensures Sentences(s) == [parts[0]] + Sentences(Weave(parts[1..], gaps[1..]))
    ensures Runs(gaps[1..], IsSpaceChar) && SentenceShaped(parts[1..])
  {
    var p, g := parts[0], gaps[0];
    var w := Weave(parts[1..], gaps[1..]);
    assert g != [] && All(g, IsSpaceChar);
    RunsTail(gaps, IsSpaceChar);
    ShapedTail(parts);
    WeaveStart(parts[1..], gaps[1..]);
    assert w == [] || w[0] != ' ';
    FirstBoundaryAfter(p, g, w);
    RunOfGap(g, w, IsSpaceChar);
    UnfoldWoven(p, g, w);
  }

  /** The split of `p + (g + w)` at a first boundary `|p|` whose run is `g`. */
  lemma UnfoldWoven(p: string, g: string, w: string)
    requires BoundaryFrom(p + (g + w), 0) == Some(|p|) && LeadingRun(g + w, IsSpaceChar) == |g|
    ensures Sentences(p + (g + w)) == [p] + Sentences(w)
  {
    var s := p + (g + w);
    assert s[|p|..] == g + w;
    assert s[|p| + |g|..] == w;
    assert s[..|p|] == p;
    SentencesUnfold(s, |p|, |g|);
    assert Sentences(s[|p| + |g|..]) == Sentences(w);
  }

  lemma RunsTail(gaps: seq<string>, p: char -> bool)
    requires |gaps| > 0 && Runs(gaps, p)
    ensures Runs(gaps[1..], p)
  {
    assert forall k :: 0 <= k < |gaps[1..]| ==> gaps[1..][k] == gaps[k + 1];
  }

  /** Dropping the first piece keeps the shape. */
  lemma ShapedTail(parts: seq<string>)
    requires |parts| >= 2 && SentenceShaped(parts)
    ensures SentenceShaped(parts[1..])
    ensures parts[0] != "" && EndsSentence(parts[0][|parts[0]| - 1])
    ensures parts[1] == "" ==> |parts| == 2
  {
    assert forall i :: 0 <= i < |parts| - 1 ==> parts[1..][i] == parts[i + 1];
  }

  /** A woven text starts with its first piece, and is that piece alone
      when there are no gaps. */
  lemma WeaveStart(parts: seq<string>, gaps: seq<string>)
    requires |gaps| + 1 == |parts|
    ensures var w := Weave(parts, gaps);
            |parts[0]| <= |w| && w[..|parts[0]|] == parts[0] && (|gaps| == 0 ==> w == parts[0])
  {
  }

  /** The first boundary of `p + (g + w)` is where the gap starts, when `p`
      holds none and ends a sentence and the gap opens with a space. */
  lemma FirstBoundaryAfter(p: string, g: string, w: string)
    requires p != "" && EndsSentence(p[|p| - 1]) && BoundaryFrom(p, 0).None?
    requires g != "" && g[0] == ' '
    ensures BoundaryFrom(p + (g + w), 0) == Some(|p|)
  {
    var s := p + (g + w);
    assert BoundaryAt(s, |p|);
    forall j | 0 <= j < |p|
      ensures !BoundaryAt(s, j)
    {
      assert !BoundaryAt(p, j);
    }
  }

  /** get_product_summary: the summary of a non-empty description; else the
      crawl error; else the fixed message. */
  function GetProductSummary(productUrl: string, maxSentences: int, fetch: string -> Crawler.Fetch): (r: string)
    ensures var d := Crawler.CrawlProductPage(productUrl, fetch);
            && (d.Crawled? && d.description != "" ==> r == SummarizeText(d.description, maxSentences))
            && (d.CrawlFailed? ==> r == FETCH_ERROR_LABEL + d.error)
            && (d.Crawled? && d.description == "" ==> r == NO_DESCRIPTION)
  {
    var details := Crawler.CrawlProductPage(productUrl, fetch);
    if details.Crawled? && details.description != "" then SummarizeText(details.description, maxSentences)
    else if details.CrawlFailed? then FETCH_ERROR_LABEL + details.error
    else NO_DESCRIPTION
  }
}

=== FILE: text.dfy ===
/** The Python string operations the agent relies on, over `seq<char>`:
    `str.strip()`, `in`, `startswith`, `replace`, `split`, `join`,
    `lower()` and the digit class `\d` with `int()`. */
module Text {

  import opened Wrappers

  /** The characters `str.isspace()` accepts; `str.strip()` and the regular
      expression class `\s` use the same set. */
  predicate IsSpace(c: char) {
    || c == ' '
    || ('\t' <= c <= '\r')
    || ('\U{1C}' <= c <= '\U{1F}')
    || c == '\U{85}' || c == '\U{A0}' || c == '\U{1680}'
    || ('\U{2000}' <= c <= '\U{200A}')
    || c == '\U{2028}' || c == '\U{2029}' || c == '\U{202F}'
    || c == '\U{205F}' || c == '\U{3000}'
  }

  ghost predicate AllSpace(s: string) {
    forall i :: 0 <= i < |s| ==> IsSpace(s[i])
  }

  /** `str.lstrip()` */
  function TrimStart(s: string): (r: string)
    ensures |r| <= |s| && r == s[|s| - |r|..]
    ensures r == [] || !IsSpace(r[0])
    ensures AllSpace(s[..|s| - |r|])
    decreases |s|
  {
    if |s| > 0 && IsSpace(s[0]) then
      var r := TrimStart(s[1..]);
      SpacePrefixGrows(s, |s| - |r|);
      r
    else s
  }

  lemma SpacePrefixGrows(s: string, k: nat)
    requires 0 < k <= |s| && IsSpace(s[0]) && AllSpace(s[1..][..k - 1])
    ensures AllSpace(s[..k])
  {
    forall i | 1 <= i < k
      ensures IsSpace(s[i])
    {
      assert s[i] == s[1..][..k - 1][i - 1];
    }
  }

  /** `str.rstrip()` */
  function TrimEnd(s: string): (r: string)
    ensures |r| <= |s| && r == s[..|r|]
    ensures r == [] || !IsSpace(r[|r| - 1])
    ensures AllSpace(s[|r|..])
    decreases |s|
  {
    if |s| > 0 && IsSpace(s[|s| - 1]) then
      var r := TrimEnd(s[..|s| - 1]);
      SpaceSuffixGrows(s, |r|);
      r
    else s
  }

  lemma SpaceSuffixGrows(s: string, k: nat)
    requires k < |s| && IsSpace(s[|s| - 1]) && AllSpace(s[..|s| - 1][k..])
    ensures AllSpace(s[k..])
  {
    forall i | 0 <= i < |s| - 1 - k
      ensures IsSpace(s[k..][i])
    {
      assert s[k..][i] == s[..|s| - 1][k..][i];
    }
    assert s[k..][|s| - 1 - k] == s[|s| - 1];
  }

  /** Where the text `str.strip()` keeps begins. */
  function StripOffset(s: string): (i: nat)
    ensures i <= |s| && AllSpace(s[..i])
  {
    |s| - |TrimStart(s)|
  }

  /** `str.strip()`: `s` is `r` with a run of white space on either side. */
  function Strip(s: string): (r: string)
    ensures r == [] || (!IsSpace(r[0]) && !IsSpace(r[|r| - 1]))
    ensures StripOffset(s) + |r| <= |s| && s[StripOffset(s)..StripOffset(s) + |r|] == r
    ensures AllSpace(s[StripOffset(s) + |r|..])
  {
    var t := TrimStart(s);
    var r := TrimEnd(t);
    InnerSlices(s, |s| - |t|, t, r);
    assert r != [] ==> r[0] == t[0];
    r
  }

  lemma InnerSlices(s: string, i: nat, t: string, r: string)
    requires i <= |s| && t == s[i..] && |r| <= |t| && r == t[..|r|]
    ensures s[i..i + |r|] == r && s[i + |r|..] == t[|r|..]
  {
  }

  /** Stripping text that has no white space at either end changes nothing. */
  lemma StripUnchanged(s: string)
    requires s == [] || (!IsSpace(s[0]) && !IsSpace(s[|s| - 1]))
    ensures Strip(s) == s
  {
  }

  /** Every character of `Strip(s)` is a character of `s`. */
  lemma StripChars(s: string)
    ensures forall j :: 0 <= j < |Strip(s)| ==> Strip(s)[j] in s
  {
    var r := Strip(s);
    var i := StripOffset(s);
    var mid := s[i..i + |r|];
    assert mid == r;
    forall j | 0 <= j < |mid|
      ensures mid[j] in s
    {
      assert mid[j] == s[i + j];
    }
  }

  predicate StartsWith(s: string, prefix: string) {
    |prefix| <= |s| && s[..|prefix|] == prefix
  }

  predicate EndsWith(s: string, suffix: string) {
    |suffix| <= |s| && s[|s| - |suffix|..] == suffix
  }

  predicate OccursAt(s: string, sub: string, i: int) {
    0 <= i && i + |sub| <= |s| && s[i..i + |sub|] == sub
  }

  function IndexFrom(s: string, sub: string, k: nat): (r: Option<nat>)
    requires k <= |s| + 1
    ensures r.Some? ==> k <= r.value && OccursAt(s, sub, r.value)
    ensures r.Some? ==> forall j :: k <= j < r.value ==> !OccursAt(s, sub, j)
    ensures r.None? ==> forall j :: k <= j ==> !OccursAt(s, sub, j)
    decreases |s| + 1 - k
  {
    if k + |sub| > |s| then None
    else if s[k..k + |sub|] == sub then Some(k)
    else IndexFrom(s, sub, k + 1)
  }

  /** The position of the first occurrence of `sub` in `s` (`str.find`). */
  function IndexOf(s: string, sub: string): (r: Option<nat>)
    ensures r.Some? ==> OccursAt(s, sub, r.value)
    ensures r.Some? ==> forall j :: 0 <= j < r.value ==> !OccursAt(s, sub, j)
    ensures r.None? ==> forall j :: !OccursAt(s, sub, j)
  {
    IndexFrom(s, sub, 0)
  }

  /** Python's `sub in s`. */
  predicate Contains(s: string, sub: string) {
    IndexOf(s, sub).Some?
  }

  lemma ContainsAt(s: string, sub: string, i: int)
    requires OccursAt(s, sub, i)
    ensures Contains(s, sub)
  {
  }

  /** Text put in front keeps what a string starts and ends with. */
  lemma AffixesInFront(a: string, b: string, prefix: string, suffix: string)
    requires StartsWith(b, prefix) && EndsWith(b, suffix)
    ensures StartsWith(a + b, a + prefix) && EndsWith(a + b, suffix)
  {
    assert (a + b)[..|a + prefix|] == a + b[..|prefix|];
    assert (a + b)[|a + b| - |suffix|..] == b[|b| - |suffix|..];
  }

  /** A string contains its own prefixes and suffixes. */
  lemma ContainsPrefix(s: string, prefix: string)
    requires StartsWith(s, prefix)
    ensures Contains(s, prefix)
  {
    ContainsAt(s, prefix, 0);
  }

  /** Containment in a part is containment in the whole. */
  lemma ContainsInfix(a: string, b: string, c: string, sub: string)
    requires Contains(b, sub)
    ensures Contains(a + b + c, sub)
  {
    var i := IndexOf(b, sub).value;
    assert (a + b + c)[|a| + i..|a| + i + |sub|] == b[i..i + |sub|];
    ContainsAt(a + b + c, sub, |a| + i);
  }

  /** A text that holds `c` only once cannot contain a pattern that starts
      with `c` and differs from the text two places after it. */
  lemma {:induction false} SignOnlyOnce(a: string, c: char, b: string, sub: string)
    requires c !in a && c !in b
    requires |sub| > 2 && sub[0] == c && |b| > 1 && b[1] != sub[2]
    ensures !Contains(a + [c] + b, sub)
  {
    var s := a + [c] + b;
    forall j | 0 <= j
      ensures !OccursAt(s, sub, j)
    {
      if j + |sub| <= |s| {
        assert s[j..j + |sub|][0] == s[j];
        if j < |a| {
          assert s[j] == a[j];
        } else if j > |a| {
          assert s[j] == b[j - |a| - 1];
        } else {
          assert s[j..j + |sub|][2] == s[j + 2] == b[1];
        }
      }
    }
  }

  /** `s.replace(pat, rep)`: every non-overlapping occurrence of `pat`,
      scanning from the left, is replaced by `rep`. */
  function ReplaceAll(s: string, pat: string, rep: string): string
    requires |pat| > 0
    decreases |s|
  {
    if |s| < |pat| then s
    else if s[..|pat|] == pat then rep + ReplaceAll(s[|pat|..], pat, rep)
    else [s[0]] + ReplaceAll(s[1..], pat, rep)
  }

  /** The characters of `s` other than `c`, in order. */
  function RemoveChar(s: string, c: char): (r: string)
    ensures c !in r
    ensures |r| <= |s|
    ensures forall x :: x in r <==> x in s && x != c
  {
    if |s| == 0 then []
    else if s[0] == c then RemoveChar(s[1..], c)
    else [s[0]] + RemoveChar(s[1..], c)
  }

  lemma {:induction false} RemoveCharAbsent(s: string, c: char)
    requires c !in s
    ensures RemoveChar(s, c) == s
    decreases |s|
  {
    if |s| > 0 {
      RemoveCharAbsent(s[1..], c);
    }
  }

  lemma {:induction false} RemoveCharConcat(a: string, b: string, c: char)
    ensures RemoveChar(a + b, c) == RemoveChar(a, c) + RemoveChar(b, c)
    decreases |a|
  {
    if |a| == 0 {
      assert a + b == b;
    } else {
      assert (a + b)[1..] == a[1..] + b;
      RemoveCharConcat(a[1..], b, c);
    }
  }

  /** Replacing never introduces a character that is in neither the text
      nor the replacement. */
  lemma {:induction false} ReplaceAllChars(s: string, pat: string, rep: string)
    requires |pat| > 0
    ensures forall c :: c in ReplaceAll(s, pat, rep) ==> c in s || c in rep
    decreases |s|
  {
    if |s| >= |pat| {
      if s[..|pat|] == pat {
        ReplaceAllChars(s[|pat|..], pat, rep);
        assert forall c :: c in s[|pat|..] ==> c in s;
      } else {
        ReplaceAllChars(s[1..], pat, rep);
        assert forall c :: c in s[1..] ==> c in s;
      }
    }
  }

  /** Replacing a one-character string by nothing removes every occurrence
      of that character and keeps everything else in order. */
  lemma {:induction false} ReplaceCharIsRemove(s: string, c: char)
    ensures ReplaceAll(s, [c], "") == RemoveChar(s, c)
    decreases |s|
  {
    if |s| > 0 {
      ReplaceCharIsRemove(s[1..], c);
    }
  }

  /** Replacing text that does not occur changes nothing. */
  lemma {:induction false} ReplaceAbsent(s: string, pat: string, rep: string)
    requires |pat| > 0
    requires !Contains(s, pat)
    ensures ReplaceAll(s, pat, rep) == s
    decreases |s|
  {
    if |s| >= |pat| {
      assert !OccursAt(s, pat, 0);
      if !Contains(s[1..], pat) {
        ReplaceAbsent(s[1..], pat, rep);
      } else {
        var i := IndexOf(s[1..], pat).value;
        assert s[1..][i..i + |pat|] == s[i + 1..i + 1 + |pat|];
        assert OccursAt(s, pat, i + 1);
        assert false;
      }
    }
  }

  /** `sep.join(parts)` */
  function Join(sep: string, parts: seq<string>): string
    decreases |parts|
  {
    if |parts| == 0 then ""
    else if |parts| == 1 then parts[0]
    else parts[0] + sep + Join(sep, parts[1..])
  }

  /** `s.split(sep)` for a one-character separator: the pieces between
      consecutive separators, one more piece than there are separators. */
  function SplitOn(s: string, sep: char): (parts: seq<string>)
    ensures |parts| >= 1
    ensures forall i :: 0 <= i < |parts| ==> sep !in parts[i]
    decreases |s|
  {
    if |s| == 0 then [""]
    else
      var rest := SplitOn(s[1..], sep);
      if s[0] == sep then [""] + rest
      else [[s[0]] + rest[0]] + rest[1..]
  }

  /** `[line.strip() for line in lines]` */
  function StripAll(lines: seq<string>): (r: seq<string>)
    ensures |r| == |lines|
    ensures forall i :: 0 <= i < |lines| ==> r[i] == Strip(lines[i])
  {
    seq(|lines|, i requires 0 <= i < |lines| => Strip(lines[i]))
  }

  /** Every character of a piece of `s.split(sep)` is a character of `s`. */
  lemma {:induction false} SplitOnChars(s: string, sep: char)
    ensures forall i, j :: 0 <= i < |SplitOn(s, sep)| && 0 <= j < |SplitOn(s, sep)[i]| ==> SplitOn(s, sep)[i][j] in s
    decreases |s|
  {
    if |s| > 0 {
      SplitOnChars(s[1..], sep);
      var rest := SplitOn(s[1..], sep);
      assert forall c :: c in s[1..] ==> c in s;
      if s[0] != sep {
        var first := [s[0]] + rest[0];
        forall j | 0 <= j < |first|
          ensures first[j] in s
        {
          if j > 0 {
            assert first[j] == rest[0][j - 1];
          }
        }
      }
    }
  }

  /** Splitting and joining back with the same separator is the identity. */
  lemma {:induction false} JoinSplitOn(s: string, sep: char)
    ensures Join([sep], SplitOn(s, sep)) == s
    decreases |s|
  {
    if |s| > 0 {
      var rest := SplitOn(s[1..], sep);
      JoinSplitOn(s[1..], sep);
      if s[0] != sep {
        if |rest| > 1 {
          assert rest == [rest[0]] + rest[1..];
          assert Join([sep], rest) == rest[0] + [sep] + Join([sep], rest[1..]);
        }
      }
    }
  }

  /** The longest prefix of `s` whose characters all satisfy `p`. */
  function LeadingRun(s: string, p: char -> bool): (n: nat)
    ensures n <= |s|
    ensures forall i :: 0 <= i < n ==> p(s[i])
    ensures n == |s| || !p(s[n])
    decreases |s|
  {
    if |s| > 0 && p(s[0]) then 1 + LeadingRun(s[1..], p) else 0
  }

  /** A prefix whose characters all satisfy `p` lies inside the leading run. */
  lemma {:induction false} LeadingRunCovers(s: string, p: char -> bool, k: nat)
    requires k <= |s|
    requires forall i :: 0 <= i < k ==> p(s[i])
    ensures LeadingRun(s, p) >= k
    decreases k
  {
    if k > 0 {
      LeadingRunCovers(s[1..], p, k - 1);
    }
  }

  /** `re.split(r"[...]+", s)` for a character class `isSep`: the pieces
      between maximal runs of separator characters. */
  function SplitRuns(s: string, isSep: char -> bool): (parts: seq<string>)
    ensures |parts| >= 1
    ensures forall i, j :: 0 <= i < |parts| && 0 <= j < |parts[i]| ==> !isSep(parts[i][j])
    decreases |s|
  {
    if |s| == 0 then [""]
    else if isSep(s[0]) then
      var n := LeadingRun(s, isSep);
      [""] + SplitRuns(s[n..], isSep)
    else
      var rest := SplitRuns(s[1..], isSep);
      [[s[0]] + rest[0]] + rest[1..]
  }

  /** Text without separator characters is one piece. */
  lemma {:induction false} SplitRunsNone(s: string, isSep: char -> bool)
    requires forall i :: 0 <= i < |s| ==> !isSep(s[i])
    ensures SplitRuns(s, isSep) == [s]
    decreases |s|
  {
    if |s| > 0 {
      SplitRunsNone(s[1..], isSep);
      assert [s[0]] + s[1..] == s;
    }
  }

  /** The pieces with `gaps[k]` put back between piece `k` and piece `k + 1`. */
  function Weave(parts: seq<string>, gaps: seq<string>): string
    requires |gaps| + 1 == |parts|
    decreases |gaps|
  {
    if |gaps| == 0 then parts[0] else parts[0] + (gaps[0] + Weave(parts[1..], gaps[1..]))
  }

  /** Every character of `t` satisfies `p`. */
  ghost predicate All(t: string, p: char -> bool) {
    forall j :: 0 <= j < |t| ==> p(t[j])
  }

  /** Every gap is a non-empty run of characters satisfying `p`. */
  ghost predicate Runs(gaps: seq<string>, p: char -> bool) {
    forall k :: 0 <= k < |gaps| ==> gaps[k] != [] && All(gaps[k], p)
  }

  /** The runs of separators `re.split` cuts out, in order. */
  function SeparatorRuns(s: string, isSep: char -> bool): seq<string>
    decreases |s|
  {
    if |s| == 0 then []
    else if isSep(s[0]) then
      var n := LeadingRun(s, isSep);
      [s[..n]] + SeparatorRuns(s[n..], isSep)
    else SeparatorRuns(s[1..], isSep)
  }

  /** The pieces of `re.split` at separator runs, with the runs put back
      between them, give the text: nothing is lost but the runs. */
  lemma {:induction false} SplitRunsRejoin(s: string, isSep: char -> bool)
    ensures |SeparatorRuns(s, isSep)| + 1 == |SplitRuns(s, isSep)| && Runs(SeparatorRuns(s, isSep), isSep)
    ensures Weave(SplitRuns(s, isSep), SeparatorRuns(s, isSep)) == s
    decreases |s|, 1
  {
    if |s| == 0 {
      assert Weave([""], []) == s;
    } else if isSep(s[0]) {
      RejoinAfterRun(s, isSep);
    } else {
      var rest := SplitRuns(s[1..], isSep);
      SplitRunsRejoin(s[1..], isSep);
      WeaveCons(s[0], rest, SeparatorRuns(s[1..], isSep));
      assert [s[0]] + s[1..] == s;
    }
  }

  /** The step of `SplitRunsRejoin` for a text that opens with a run. */
  lemma {:induction false} RejoinAfterRun(s: string, isSep: char -> bool)
    requires |s| > 0 && isSep(s[0])
    ensures |SeparatorRuns(s, isSep)| + 1 == |SplitRuns(s, isSep)| && Runs(SeparatorRuns(s, isSep), isSep)
    ensures Weave(SplitRuns(s, isSep), SeparatorRuns(s, isSep)) == s
    decreases |s|, 0
  {
    var n := LeadingRun(s, isSep);
    var g := SeparatorRuns(s[n..], isSep);
    SplitRunsRejoin(s[n..], isSep);
    assert All(s[..n], isSep) && s[..n] != [] by {
      assert forall k :: 0 <= k < n ==> s[..n][k] == s[k];
    }
    RunsCons(s[..n], g, isSep);
    WeaveFront("", s[..n], SplitRuns(s[n..], isSep), g);
    assert "" + (s[..n] + s[n..]) == s;
  }

  lemma RunsCons(g: string, gs: seq<string>, p: char -> bool)
    requires g != [] && All(g, p) && Runs(gs, p)
    ensures Runs([g] + gs, p)
  {
    assert forall k :: 1 <= k < |[g] + gs| ==> ([g] + gs)[k] == gs[k - 1];
  }

  lemma WeaveFront(a: string, b: string, ps: seq<string>, gs: seq<string>)
    requires |gs| + 1 == |ps|
    ensures Weave([a] + ps, [b] + gs) == a + (b + Weave(ps, gs))
  {
    assert ([a] + ps)[1..] == ps && ([b] + gs)[1..] == gs;
  }

  /** `sep.join(parts)` weaves the separator between the parts. */
  lemma {:induction false} JoinIsWeave(sep: string, parts: seq<string>)
    requires |parts| >= 1
    ensures Join(sep, parts) == Weave(parts, seq(|parts| - 1, _ => sep))
    decreases |parts|
  {
    if |parts| > 1 {
      var gaps := seq(|parts| - 1, _ => sep);
      JoinIsWeave(sep, parts[1..]);
      assert gaps[0] == sep && gaps[1..] == seq(|parts[1..]| - 1, _ => sep);
      assert parts[0] + sep + Join(sep, parts[1..]) == parts[0] + (sep + Join(sep, parts[1..]));
    }
  }

  /** A joined text starts with its first part. */
  lemma {:induction false} JoinStart(sep: string, parts: seq<string>)
    requires |parts| >= 1
    ensures |parts[0]| <= |Join(sep, parts)| && Join(sep, parts)[..|parts[0]|] == parts[0]
    ensures |parts| == 1 ==> Join(sep, parts) == parts[0]
  {
    if |parts| > 1 {
      assert Join(sep, parts) == parts[0] + (sep + Join(sep, parts[1..]));
    }
  }

  /** A character in front of the first piece goes in front of the text. */
  lemma WeaveCons(c: char, parts: seq<string>, gaps: seq<string>)
    requires |gaps| + 1 == |parts|
    ensures Weave([[c] + parts[0]] + parts[1..], gaps) == [c] + Weave(parts, gaps)
  {
    var ps := [[c] + parts[0]] + parts[1..];
    if |gaps| > 0 {
      assert ps[1..] == parts[1..];
      assert ([c] + parts[0]) + (gaps[0] + Weave(parts[1..], gaps[1..]))
          == [c] + (parts[0] + (gaps[0] + Weave(parts[1..], gaps[1..])));
    }
  }

  /** A maximal run at the front is exactly the leading run. */
  lemma RunOfGap(gap: string, rest: string, p: char -> bool)
    requires forall i :: 0 <= i < |gap| ==> p(gap[i])
    requires rest == [] || !p(rest[0])
    ensures LeadingRun(gap + rest, p) == |gap|
  {
    var s := gap + rest;
    LeadingRunCovers(s, p, |gap|);
    if |rest| > 0 {
      assert s[|gap|] == rest[0];
    }
  }

  /** Splitting a text that opens with a separator-free piece and a maximal
      run: that piece, then the pieces of what follows the run. */
  lemma {:induction false} SplitRunsCons(head: string, gap: string, rest: string, isSep: char -> bool)
    requires forall i :: 0 <= i < |head| ==> !isSep(head[i])
    requires gap != [] && forall i :: 0 <= i < |gap| ==> isSep(gap[i])
    requires rest == [] || !isSep(rest[0])
    ensures SplitRuns(head + (gap + rest), isSep) == [head] + SplitRuns(rest, isSep)
    decreases |head|
  {
    var s := head + (gap + rest);
    if |head| == 0 {
      assert s == gap + rest;
      RunOfGap(gap, rest, isSep);
      assert s[|gap|..] == rest;
    } else {
      assert s[0] == head[0] && s[1..] == head[1..] + (gap + rest);
      SplitRunsCons(head[1..], gap, rest, isSep);
      assert [head[0]] + head[1..] == head;
    }
  }

  function LowerChar(c: char): char {
    if 'A' <= c <= 'Z' then (c as int + 32) as char else c
  }

  /** `str.lower()` restricted to ASCII letters. */
  function Lower(s: string): (r: string)
    ensures |r| == |s|
    ensures forall i :: 0 <= i < |s| ==> r[i] == LowerChar(s[i])
  {
    seq(|s|, i requires 0 <= i < |s| => LowerChar(s[i]))
  }

  /** The decimal digits `\d` and `int()` accept in the text this agent
      handles: ASCII, Arabic-Indic and Extended Arabic-Indic (Persian). */
  predicate IsDigit(c: char) {
    || ('0' <= c <= '9')
    || ('\U{0660}' <= c <= '\U{0669}')
    || ('\U{06F0}' <= c <= '\U{06F9}')
  }

  function DigitValue(c: char): (d: nat)
    requires IsDigit(c)
    ensures d < 10
  {
    if '0' <= c <= '9' then c as int - '0' as int
    else if '\U{0660}' <= c <= '\U{0669}' then c as int - 0x0660
    else c as int - 0x06F0
  }

  ghost predicate AllDigits(s: string) {
    forall i :: 0 <= i < |s| ==> IsDigit(s[i])
  }

  /** `int(ds)` for a run of decimal digits. */
  function DigitsValue(ds: string): nat
    requires AllDigits(ds)
    decreases |ds|
  {
    if |ds| == 0 then 0
    else DigitsValue(ds[..|ds| - 1]) * 10 + DigitValue(ds[|ds| - 1])
  }

  /** `s[:n]` for a non-negative `n`. */
  function Take<T>(s: seq<T>, n: nat): (r: seq<T>)
    ensures |r| == if n < |s| then n else |s|
    ensures r == s[..|r|]
  {
    if n < |s| then s[..n] else s
  }

  /** `s[:n]` for any integer `n`: a negative bound counts from the end, so
      `s[:-1]` drops the last element and a bound below `-len(s)` leaves
      nothing. */
  function PyPrefix<T>(s: seq<T>, n: int): (r: seq<T>)
    ensures 0 <= n ==> |r| == if n < |s| then n else |s|
    ensures n < 0 ==> |r| == if |s| + n > 0 then |s| + n else 0
    ensures |r| <= |s| && r == s[..|r|]
  {
    if 0 <= n then Take(s, n)
    else if |s| + n > 0 then s[..|s| + n]
    else []
  }
}

=== FILE: values.dfy ===
/** Python dictionary values as they flow between the tools of the agent:
    the search and crawl records, the merged record handed to the store and
    the rows it returns are all `Dict[str, Any]` in the source. */
module Values {

  import opened Wrappers

  datatype Value =
    | Null
    | Bool(b: bool)
    | Int(i: int)
    | Real(r: real)
    | Str(s: string)
    | List(items: seq<Value>)
    | Dict(entries: map<string, Value>)

  /** A Python `dict` with string keys. */
  type Record = map<string, Value>

  /** `d.get(k, default)`: the default is used only when the key is absent;
      a key that is present with value None yields Null. */
  function Get(d: Record, k: string, default: Value): Value {
    if k in d then d[k] else default
  }

  /** Python truthiness. */
  predicate Truthy(v: Value) {
    match v
    case Null => false
    case Bool(b) => b
    case Int(i) => i != 0
    case Real(r) => r != 0.0
    case Str(s) => s != ""
    case List(items) => items != []
    case Dict(entries) => entries != map[]
  }

  /** A Python `Optional[str]` as a dictionary value. */
  function OptStr(o: Option<string>): Value
  {
    match o
    case Some(s) => Str(s)
    case None => Null
  }

  function OptInt(o: Option<int>): Value
  {
    match o
    case Some(i) => Int(i)
    case None => Null
  }

  function OptReal(o: Option<real>): Value
  {
    match o
    case Some(r) => Real(r)
    case None => Null
  }

  function StrList(xs: seq<string>): (v: Value)
    ensures v.List? && |v.items| == |xs|
    ensures forall i :: 0 <= i < |xs| ==> v.items[i] == Str(xs[i])
  {
    List(seq(|xs|, i requires 0 <= i < |xs| => Str(xs[i])))
  }

  function StrDict(m: map<string, string>): (v: Value)
    ensures v.Dict? && v.entries.Keys == m.Keys
    ensures forall k :: k in m ==> v.entries[k] == Str(m[k])
  {
    Dict(map k | k in m :: Str(m[k]))
  }

}

=== FILE: wrappers.dfy ===
/** Failure-compatible wrappers shared by every module of the model.
    - Option<T> stands for Python's `None`-or-value.
    - Result<T, E> stands for "returned a value" or "raised an exception". */
module Wrappers {

  datatype Option<+T> = None | Some(value: T) {

    /** The value, or `default` when this is None (Python's `x or default`
        when only None counts as missing). */
    function GetOr(default: T): T {
      match this
      case Some(v) => v
      case None => default
    }
  }

  datatype Result<+T, +E> = Success(value: T) | Failure(error: E) {

    predicate IsFailure() {
      Failure?
    }

    function PropagateFailure<U>(): Result<U, E>
      requires Failure?
    {
      Failure(error)
    }

    function Extract(): T
      requires Success?
    {
      value
    }
  }
}
